=== FILE: README.md ===
# Studio team app — a verified model of its core

This project models the server-side core of the Studio team application in Dafny:

- the weekly performance scores;
- the tasks, projects, direct messages, announcements and reference links;
- the PIN-based sign-in and user store;
- the sidebar navigation and the PIN entry boxes.

Each server action becomes a pure function over the collection it reads and writes.
A realtime-database node becomes a sequence in key order; the user store becomes a map from id to user.
A refused action returns `Err` with the reason, and a successful one returns the new collection and the stored entity.

Values that the application takes from its environment are parameters of the model:

- push keys;
- the clock (milliseconds);
- the answers of the AI flows (an `Option`, where `None` means the flow failed);
- Zod's URL and date-time checks (predicates `isUrl` and `isDateTime`).

Modules, one per source file, plus four shared ones:

| module | models |
|---|---|
| `Common` | Option/Result, filtering, JavaScript string `split`/`join`/`trim`/ASCII `toLowerCase`, decimal digits |
| `Sorting` | a stable insertion sort under a total preorder, standing in for `Array.prototype.sort` |
| `Calendar` | proleptic Gregorian UTC dates with a day number since 1970-01-01 and the weekday; `getFridaysOfMonth` |
| `Types` | the shared entities of `src/types/index.ts` |
| `Performance` | `src/app/actions/performance.ts` |
| `ScoreCell` | the score cells of `src/app/admin/performance/page.tsx` |
| `Auth` | `src/context/auth-context.tsx` |
| `Tasks`, `Projects`, `DirectMessages`, `Announcements`, `References` | the server actions of the same names |
| `SidebarNav` | `src/components/layout/sidebar-nav.tsx` |
| `PinInput` | `src/components/common/pin-input.tsx` |

## Model

| member | source | states |
|---|---|---|
| Calendar.FridaysOfMonth | src/lib/mock-data.ts:29-43 | A month outside 0..11 has no Fridays. Otherwise there are 4 or 5 dates, the first Friday of the month and then every 7 days while still in the month; years 0..99 are read as 1900+year, as Date.UTC does |
| Calendar.ScanToFriday | src/lib/mock-data.ts:33-36 | The first loop stops on a Friday of the same month, no earlier than the start day, or gives up when the month runs out |
| Calendar.ScanToFridayClosedForm | src/lib/mock-data.ts:33-36 | The scan finds exactly day + (5 - weekday) mod 7 when that day is still in the month, and nothing otherwise |
| Calendar.FridaysFrom | src/lib/mock-data.ts:38-41 | The second loop yields nothing once the month has changed, and starts with the current date otherwise |
| Calendar.FridaysFromClosedForm | src/lib/mock-data.ts:38-41 | The second loop yields the start day and every 7th day after it, exactly up to the end of the month |
| Calendar.FridaysOfMonthAreFridaysOfTheMonth | src/lib/mock-data.ts:29-43 | Every listed date is a valid date of the requested month whose weekday is Friday |
| Calendar.FridaysOfMonthComplete | src/lib/mock-data.ts:29-43 | Every Friday of the month is listed, and none comes before the first listed one |
| Calendar.FridaysOfMonthWeekApart | src/lib/mock-data.ts:38-41 | Consecutive Fridays are exactly 7 days apart and the list is strictly increasing in time |
| Calendar.FridayIffWeeksAfterFirst | src/lib/mock-data.ts:33-41 | A day of the month is a Friday exactly when it is a whole number of weeks after the first Friday |
| Calendar.AddDays | src/lib/mock-data.ts:34 | setUTCDate past the end of a month rolls over into a valid date |
| Calendar.AddDaysAdvances | src/lib/mock-data.ts:34 | Adding n days moves the day number since 1970-01-01 forward by exactly n |
| Calendar.NextMonthStart | src/lib/mock-data.ts:34 | Rolling past the month's last day gives day 1 of the next month, or January of the next year after December |
| Calendar.DateLeIsTimeOrder | src/app/actions/performance.ts:33 | Comparing week starts field by field agrees with comparing their times, and equal times mean equal dates |
| Performance.Backfill | src/app/actions/performance.ts:27-32 | Backfilling keeps the existing weeks as a prefix and leaves every Friday of the month with a week entry |
| Performance.BackfillAppendsMissing | src/app/actions/performance.ts:27-32 | Backfilling appends exactly the missing Fridays, each unscored, in the order of the Fridays |
| Performance.BackfillComplete | src/app/actions/performance.ts:27-32 | A record that already has every Friday is left unchanged |
| Performance.Initialize | src/app/actions/performance.ts:18-45 | A missing record becomes one unscored week per Friday. An existing record keeps its fields, and its weeks are a permutation of the old weeks plus the missing Fridays. Either way every Friday is present and the weeks are sorted by start date |
| Performance.InitializeIdempotent | src/app/actions/performance.ts:18-45 | Initialising an initialised record changes nothing |
| Performance.InitializeKeepsScores | src/app/actions/performance.ts:24-33 | Every week the stored record has, with its score, survives initialisation |
| Performance.ApplyScoreReadBack | src/app/actions/performance.ts:95-102 | After writing a week's score, reading that week gives the new score and every other week reads as before |
| Performance.UpdateWeeklyScore | src/app/actions/performance.ts:67-109 | A score outside 1..5 is refused, and null is always accepted. The update fails exactly when the record it reads (the stored one, or the fresh one when none is stored) has no weeks, because such a record reads back without `weeklyScores`. Otherwise only this user's record for this month changes (created if missing), and reading the week back gives the new score |
| Performance.UpdateWeeklyScoreSucceeds | src/app/actions/performance.ts:67-109 | For a month in 0..11 an accepted score is always stored, unless the stored record has no weeks |
| Performance.UpdateWeeklyScoreFailsOutsideTheYear | src/app/actions/performance.ts:36-42 | A month outside 0..11 gives a fresh record with no weeks, so the update fails |
| Performance.InitializeHasWeeks | src/app/actions/performance.ts:18-45 | For a month in 0..11 an initialised record has at least one week, and a fresh one has at least four. For any other month a fresh record has none |
| Performance.UpdateWeeklyScoreOtherWeeks | src/app/actions/performance.ts:85-102 | The update succeeds exactly when the record it reads has weeks. It then leaves the score of every other week as it was, or as initialisation made it |
| Performance.Average | src/app/actions/performance.ts:129-141 | A month with no scored week averages 0 |
| Performance.AverageIsMean | src/app/actions/performance.ts:129-141 | The average times the number of scored weeks equals the sum of the scores |
| Performance.AverageInRange | src/app/actions/performance.ts:129-141 | With scores in 1..5, the average is 0 exactly when nothing is scored, and lies in 1..5 otherwise |
| Performance.FreshRecordUnscored | src/app/actions/performance.ts:137-141 | A user without a record, who gets a fresh one, scores 0 |
| Performance.MonthlyAverage | src/app/actions/performance.ts:129-141 | The summing loop computes the same average as the definition |
| Performance.RankBoard | src/app/actions/performance.ts:151-161 | The board is a permutation of the entries, ordered by score descending and then by name, with ranks 1, 2, 3, ... in board order |
| Performance.Leaderboard | src/app/actions/performance.ts:111-162 | There is one ranked entry per non-admin user, each carrying that user's month average, sorted by score and then name. Each user without a record gets a freshly initialised one, and every other stored record is unchanged |
| Performance.LeaderboardListsEveryNonAdmin | src/app/actions/performance.ts:116-149 | Every non-admin user appears on the board with their own score and rank equal to their position |
| Performance.LeaderboardListsOnlyNonAdmins | src/app/actions/performance.ts:116-149 | Every board entry belongs to some non-admin user |
| Performance.MonthOverview | src/app/actions/performance.ts:47-65 | There is one row per non-admin user, sorted by name. Each row holds that user's initialised record, which is also what gets written; records of other users and months are unchanged |
| Performance.MonthOverviewListsEveryNonAdmin | src/app/actions/performance.ts:52-63 | Every non-admin user's row is in the overview |
| Performance.MonthOverviewListsOnlyNonAdmins | src/app/actions/performance.ts:52-63 | Every overview row is the row of some non-admin user |
| Performance.CollectScoresStore | src/app/actions/performance.ts:119-149 | The leaderboard loop adds exactly the missing records of the listed users, each freshly initialised, and keeps every stored record |
| ScoreCell.NormalizeInput | src/app/admin/performance/page.tsx:36-51 | A cell value (empty or one digit 1..5) is kept. An all-digit number above 5 becomes 5 and one below 1 becomes 1. A longer digit string worth 1..5, such as 01, leaves 0. Input that is not all digits leaves the cell as it was |
| ScoreCell.NormalizeInputKeepsCellValue | src/app/admin/performance/page.tsx:36-51 | From a valid cell, typing leaves the cell empty or one digit, and single keystrokes keep it a valid cell value |
| ScoreCell.ScoreToSave | src/app/admin/performance/page.tsx:54-65 | An empty cell saves null; a number is saved only when parseInt gives a value in 1..5 |
| ScoreCell.Blur | src/app/admin/performance/page.tsx:53-90 | Input that does not parse to a score reverts the cell; otherwise the cell is saved exactly when it differs from the stored score (the corrected comparison) |
| ScoreCell.BlurSavesIffChanged | src/app/admin/performance/page.tsx:68-83 | The corrected blur writes exactly when the value to save differs from what is stored, counting a missing score as null |
| ScoreCell.BlurAsWritten | src/app/admin/performance/page.tsx:53-90 | The blur as written: the same revert and save outcomes, with the source's no-change test |
| ScoreCell.BlurAsWrittenSavesEmptyOverUndefined | src/app/admin/performance/page.tsx:68-78 | As written, an empty cell over a week with no stored score issues a save of null, while the same cell over a stored null does not |
| ScoreCell.BlurAsWrittenDiffersOnlyThere | src/app/admin/performance/page.tsx:68-78 | The written and corrected blurs differ exactly for an empty cell over a missing score |
| ScoreCell.CellValueNeverReverts | src/app/admin/performance/page.tsx:53-65 | A cell the input handler could have produced is never reverted on blur |
| ScoreCell.RowTotalIsScoreSum | src/app/admin/performance/page.tsx:125 | The table's row total is the leaderboard's score sum, and its count of scored weeks is the same |
| ScoreCell.RowAverageIsLeaderboardAverage | src/app/admin/performance/page.tsx:126-128 | The average shown in the table row equals the month average the leaderboard ranks by |
| Auth.PinFirstTwo | src/context/auth-context.tsx:164 | The stored PIN prefix is the PIN's first two characters |
| Auth.Login | src/context/auth-context.tsx:77-98 | Login succeeds exactly when some stored user has the PIN. The session user is then such a user (the only one when PINs are unique), the route is /admin or /dashboard by role, the PIN then verifies, and a failed login changes nothing |
| Auth.VerifyPin | src/context/auth-context.tsx:106-117 | A PIN verifies exactly when there is a session and the stored user of the session has that PIN |
| Auth.VerifyPinDeterminesPin | src/context/auth-context.tsx:106-117 | At most one PIN verifies for a session |
| Auth.UpdateCurrentUserName | src/context/auth-context.tsx:119-141 | Without a session or a stored session user the update is refused. Otherwise only that user's name changes, and the avatar too when a new one is given; the session copy follows |
| Auth.UpdateCurrentUserNameKeepsPins | src/context/auth-context.tsx:119-141 | A name change keeps who holds which PIN, PIN uniqueness, the key-equals-id invariant and PIN verification |
| Auth.PinChangeError | src/context/auth-context.tsx:145-172 | A PIN change is allowed exactly when the PIN is four digits, no other user holds it and the user exists |
| Auth.UpdateCurrentUserPin | src/context/auth-context.tsx:143-177 | Without a session the change is refused; otherwise it fails for the reasons above, or sets the PIN and its first two digits on the user and on the session copy |
| Auth.AdminUpdateUserPin | src/context/auth-context.tsx:179-206 | Only an administrator may change a PIN, with the same checks; only that user's PIN and prefix change |
| Auth.SetPinKeepsInvariants | src/context/auth-context.tsx:148-164 | After an allowed PIN change exactly that user holds the new PIN, all other users are unchanged, and PIN uniqueness, email uniqueness and key-equals-id are kept |
| Auth.PinChangesKeepInvariants | src/context/auth-context.tsx:143-206 | Both PIN-change actions keep PIN uniqueness and key-equals-id, and leave exactly the changed user holding the new PIN |
| Auth.NewUserId | src/context/auth-context.tsx:224 | A new id is user- followed by the decimal digits of the clock reading |
| Auth.NewUserIdsDiffer | src/context/auth-context.tsx:224 | Different clock readings give different ids |
| Auth.AdminAddUser | src/context/auth-context.tsx:208-241 | Only an administrator may add a user. A taken PIN is refused first, then a taken lower-cased email. Otherwise a non-admin user with the lower-cased email and the PIN's prefix is stored under the new id, replacing any user with that id, and nothing else changes |
| Auth.AdminAddUserKeepsInvariants | src/context/auth-context.tsx:212-234 | After adding, exactly the new user holds the PIN and the email, and PIN uniqueness, email uniqueness and key-equals-id are kept |
| Auth.InsertFreshUser | src/context/auth-context.tsx:212-235 | Storing a user whose PIN and email no stored user holds makes that user the only holder of each, and keeps PIN uniqueness, email uniqueness and key-equals-id |
| Auth.AdminDeleteUser | src/context/auth-context.tsx:243-254 | Only an administrator may delete, never themself; exactly that user is removed and the others are unchanged |
| Auth.AdminDeleteUserKeepsInvariants | src/context/auth-context.tsx:243-254 | Deleting keeps the store's invariants, and with unique PINs the deleted user's PIN is free again |
| Tasks.Enrich | src/app/actions/tasks.ts:38-49 | Enrichment changes only the display names. They are the names of the assigned users, the assigner's name (or the assigner id when unknown), and the project's name when the task has a project that exists |
| Tasks.AssigneeNames | src/app/actions/tasks.ts:39-45 | The listed names are exactly the names of stored users the task is assigned to |
| Tasks.EnrichIdempotent | src/app/actions/tasks.ts:38-49 | Enriching an enriched task changes nothing |
| Tasks.UserTasks | src/app/actions/tasks.ts:92-125 | A user's list is a permutation of their assigned tasks, enriched, sorted by status (to do, in progress, blocked, completed) and then oldest first |
| Tasks.UserTasksAreTheAssignedOnes | src/app/actions/tasks.ts:103-111 | A task is on a user's list exactly when it is the enriched form of a stored task assigned to them |
| Tasks.AdminTasks | src/app/actions/tasks.ts:63-90 | A caller who is not a stored administrator gets nothing; an administrator gets every task, enriched, newest first |
| Tasks.TaskFormErrors | src/app/actions/tasks.ts:28-36 | Each form field is flagged exactly when the schema rejects it: an empty title, a bad URL or date, no assignee or an empty assignee id, an unknown status, a missing field |
| Tasks.ChosenProject | src/app/actions/tasks.ts:35 | The no-project sentinel and the empty string mean no project; any other value is the project id |
| Tasks.AddTask | src/app/actions/tasks.ts:127-179 | An unknown creator is refused, and then an invalid form with its fields. Otherwise the enriched task is appended under the push key with the creator as assigner, blank URL and date as none, and the chosen project |
| Tasks.AddedTaskReachesAssignees | src/app/actions/tasks.ts:127-179 | A newly added task appears on the list of each of its assignees |
| Tasks.UpdateTaskStatus | src/app/actions/tasks.ts:181-206 | An unknown task is refused, and so is a caller who is neither an assignee nor an administrator. Otherwise only the status of that task changes and the enriched task is returned |
| Tasks.UpdateTaskStatusReadBack | src/app/actions/tasks.ts:181-206 | After a status update, looking the task up finds the new status with everything else unchanged |
| Tasks.DeleteTask | src/app/actions/tasks.ts:208-220 | Only a stored administrator may delete; afterwards exactly the tasks with other ids remain |
| Projects.VisibleProjects | src/app/actions/projects.ts:30-53 | The designated administrator sees every project and anyone else exactly their own, newest first |
| Projects.ProjectFormErrors | src/app/actions/projects.ts:13-23 | Each field is flagged exactly when the schema rejects it: an empty name or type, an unknown status, a non-URL link, test link or document link |
| Projects.ChosenStarter | src/app/actions/projects.ts:11-22 | The no-starter sentinel and the empty string mean no starter |
| Projects.AddProject | src/app/actions/projects.ts:55-98 | An empty user id is refused, then an invalid form. Otherwise the project is appended with empty links dropped, and a completion time is set exactly when the status is Completed |
| Projects.WithStatus | src/app/actions/projects.ts:113-118 | Only the status and completion time change. Completing keeps an existing completion time or stamps the current one; any other status clears it |
| Projects.WithStatusKeepsConsistency | src/app/actions/projects.ts:113-118 | A project has a completion time exactly when completed, and repeating the same status change is a no-op |
| Projects.UpdateProjectStatus | src/app/actions/projects.ts:100-126 | An unknown project is refused, and so is a caller who is neither the owner nor the designated administrator. Otherwise only that project changes |
| Projects.ProjectActionsKeepConsistency | src/app/actions/projects.ts:55-126 | Adding and updating keep every stored project's completion time consistent with its status |
| Projects.ToItem | src/app/actions/projects.ts:142-148 | A case study with a ": " becomes its first piece and the rest; anything else keeps the whole string, as a link when it starts with http |
| Projects.ToItemsRecoverStrings | src/app/actions/projects.ts:142-148 | Each suggestion string is recovered from its item |
| DirectMessages.Conversation | src/app/actions/directMessages.ts:70-94 | A conversation is exactly the messages between the two users, oldest first |
| DirectMessages.ConversationSymmetric | src/app/actions/directMessages.ts:83-87 | The conversation of a with b is the conversation of b with a |
| DirectMessages.UnreadCount | src/app/actions/directMessages.ts:96-110 | The unread count is the number of unread messages addressed to the user, at most all messages addressed to them |
| DirectMessages.UnreadCountZero | src/app/actions/directMessages.ts:96-110 | The count is zero exactly when every message addressed to the user is read |
| DirectMessages.ReadMarking | src/app/actions/directMessages.ts:112-126 | The messages to mark are exactly the unread ones from the contact to the user, and the flag says whether there is anything to mark |
| DirectMessages.ReadMarkingWithinUnread | src/app/actions/directMessages.ts:112-131 | Whatever is marked counts towards the user's unread count |
| DirectMessages.MarkMessagesAsReadAsWritten | src/app/actions/directMessages.ts:112-138 | With the root `set` keyed by paths, which the client refuses, the action never reports success and never changes a message |
| DirectMessages.ReadFlagPathInvalid | src/app/actions/directMessages.ts:124 | No key of the form `directMessages/<key>/read` is one that `set` accepts |
| DirectMessages.MarkAsReadAsWrittenFailsOnUnreadMessage | src/app/actions/directMessages.ts:112-138 | For one unread message from the contact, the selection finds it and the intended action marks it, but the action as written reports failure and leaves it unread |
| DirectMessages.MarkMessagesAsRead | src/app/actions/directMessages.ts:112-131 | With the multi-path update: a message becomes read exactly when it was read already or was sent by the contact to the user; nothing but the read flag changes; success exactly when something was unread |
| DirectMessages.MarkMessagesAsReadIdempotent | src/app/actions/directMessages.ts:112-131 | Marking again changes nothing and reports that there is nothing to mark |
| DirectMessages.MarkMessagesAsReadLowersUnreadCount | src/app/actions/directMessages.ts:96-131 | The user's unread count falls by exactly the number of messages marked |
| DirectMessages.MessageFormErrors | src/app/actions/directMessages.ts:19-22 | The recipient and the text are each flagged exactly when missing or empty |
| DirectMessages.SendDirectMessage | src/app/actions/directMessages.ts:24-68 | An unknown sender is refused, then an invalid form. Otherwise an unread message is appended; a non-admin's message is a reply to the designated administrator whatever the form named |
| DirectMessages.ReplyToAdmin | src/app/actions/directMessages.ts:140-174 | Only a stored non-admin may reply, with a text that is not blank; the reply is an unread message to the designated administrator |
| DirectMessages.ReplyIsSendFromUser | src/app/actions/directMessages.ts:24-68 | A reply stores exactly what sending the same text from that user would |
| DirectMessages.SentMessageIsDelivered | src/app/actions/directMessages.ts:24-110 | A sent message joins the sender's conversation with the recipient and adds one to the recipient's unread count |
| DirectMessages.AllUserConversations | src/app/actions/directMessages.ts:176-204 | A caller who is not a stored administrator gets nothing. Otherwise each entry is a non-admin user's non-empty conversation with the administrator |
| DirectMessages.AllUserConversationsCoverMessages | src/app/actions/directMessages.ts:189-196 | Every message between a non-admin user and the administrator is listed under that user |
| Announcements.AnnouncementFormErrors | src/app/actions/announcements.ts:19-22 | The text and the recipient are each flagged exactly when missing or empty |
| Announcements.SendAnnouncement | src/app/actions/announcements.ts:24-63 | An empty admin id is refused, then an invalid form. Otherwise the announcement is appended, read by nobody |
| Announcements.AnnouncementsForUser | src/app/actions/announcements.ts:65-84 | A user sees exactly the announcements to them or to all, newest first |
| Announcements.AllAnnouncements | src/app/actions/announcements.ts:86-103 | The full list is a permutation of the stored announcements, newest first |
| Announcements.BroadcastReachesEveryone | src/app/actions/announcements.ts:76 | An announcement to all is on every user's list |
| Announcements.SentAnnouncementIsListed | src/app/actions/announcements.ts:24-63 | A sent announcement is exactly one more entry on the full list |
| Announcements.SentAnnouncementIsDelivered | src/app/actions/announcements.ts:24-84 | A sent announcement is on a user's list exactly when it is for them, as one more entry with nothing else changed; sent to all, it reaches every user |
| Announcements.MarkAnnouncementRead | src/app/actions/announcements.ts:105-124 | An unknown announcement is refused, and so is one meant for someone else. Otherwise the user's read flag is set on that announcement only |
| Announcements.MarkAllowedIffListed | src/app/actions/announcements.ts:105-124 | A user may mark exactly the announcements on their own list |
| Announcements.MarkAnnouncementReadEffect | src/app/actions/announcements.ts:117-118 | Marking sets only this user's flag on this announcement, and marking again changes nothing |
| References.ParseTags | src/app/actions/references.ts:50 | Every parsed tag is non-empty, trimmed, lower-case and free of commas; no tags field gives no tags |
| References.ParseTagsJoin | src/app/actions/references.ts:50 | Joining normal tags with commas and parsing them back gives the same tags |
| References.NormalizeTagFixesNormal | src/app/actions/references.ts:50 | Normalising a tag that is already normal changes nothing |
| References.CategoryOf | src/app/actions/references.ts:69 | A link is a video exactly when it mentions youtube.com, youtu.be or vimeo.com |
| References.StoredTitle | src/app/actions/references.ts:59-80 | The stored title is never empty. It is the given title, else the AI's title (asked for only with a link), else Untitled Reference |
| References.StoredTitleStable | src/app/actions/references.ts:59-80 | A stored title passes through the fallback unchanged |
| References.ReferenceFormErrors | src/app/actions/references.ts:10-15 | The corrected schema rejects only a missing or non-URL link |
| References.ReferenceFormErrorsAsWritten | src/app/actions/references.ts:10-15 | The schema as written also flags the title, exactly when the empty title is sent |
| References.AddReference | src/app/actions/references.ts:42-93 | An empty user id is refused, then a bad link. Otherwise the reference is appended with the fallback title, the parsed tags and the link's category |
| References.AddReferenceAsWritten | src/app/actions/references.ts:42-93 | Whatever the action as written stores, the corrected one stores too; the two agree whenever the title is not the empty string |
| References.BlankTitleRejectedAsWritten | src/app/actions/references.ts:12 | As written, a valid link with a blank title is refused, while the corrected action stores it with the AI's title or Untitled Reference |
| References.SentTitleNeverFallsBackAsWritten | src/app/actions/references.ts:59-80 | As written, a form that sends a title always stores the typed title, so the fallback is reached only when the field is absent |
| References.VisibleReferences | src/app/actions/references.ts:17-40 | The designated administrator sees every reference and anyone else exactly their own, newest first |
| References.AutocompleteTitle | src/app/actions/references.ts:111-122 | An empty or non-URL link is refused before the AI is asked; otherwise the AI's title is returned, or a failure |
| SidebarNav.ItemsToRender | src/components/layout/sidebar-nav.tsx:59-69 | An administrator under /admin gets the admin section; an administrator elsewhere gets the dashboard links plus the admin panel; anyone else gets the dashboard links |
| SidebarNav.NonAdminsStayOnDashboard | src/components/layout/sidebar-nav.tsx:26-31 | A non-admin is never offered an admin-only link or a link under /admin |
| SidebarNav.AdminsCanReachAdminRoot | src/components/layout/sidebar-nav.tsx:34-52 | An administrator always has a link to /admin, wherever they are |
| SidebarNav.DedupeFacts | src/components/layout/sidebar-nav.tsx:71-75 | Deduplication keeps only original items, leaves no two with the same link and caption, and loses no link-caption pair |
| SidebarNav.DedupeKeepsFirstOccurrences | src/components/layout/sidebar-nav.tsx:71-75 | The deduplicated list is the links at the first-of-their-kind indices, in increasing order of index. An index is kept exactly when no earlier link has the same target and caption |
| SidebarNav.DedupeKeepsDistinct | src/components/layout/sidebar-nav.tsx:71-75 | A list without repeats is left unchanged |
| SidebarNav.DedupeIdempotent | src/components/layout/sidebar-nav.tsx:71-75 | Deduplicating twice is the same as once |
| SidebarNav.RenderedItemsAreAllItems | src/components/layout/sidebar-nav.tsx:59-75 | The lists the sidebar renders have no repeats, so deduplication drops nothing from them |
| SidebarNav.IsActive | src/components/layout/sidebar-nav.tsx:83-94 | The current page's link is active. /admin, /dashboard and / are active exactly on that path. Any other link is active exactly on its own path or on a path below it at a segment boundary (its href followed by `/`, or the href itself when it already ends in `/`) |
| SidebarNav.SubRouteHighlightsPageNotRoot | src/components/layout/sidebar-nav.tsx:85-94 | On a path below a page, that page's link is highlighted and the /admin and /dashboard links are not |
| PinInput.EmptyBoxes | src/components/common/pin-input.tsx:15-16 | The entry starts with one empty box per digit |
| PinInput.Completion | src/components/common/pin-input.tsx:31-33 | The PIN is handed on exactly when no box is empty |
| PinInput.CompletionSpellsBoxes | src/components/common/pin-input.tsx:31-33 | A handed-on PIN has one digit per box, in box order |
| PinInput.HandleChange | src/components/common/pin-input.tsx:19-34 | Input that is not all digits is ignored. Otherwise the box keeps the last character typed, the other boxes are unchanged, and well-formed boxes stay well formed |
| PinInput.HandleChangeCompletes | src/components/common/pin-input.tsx:19-34 | Typing a digit hands on the PIN exactly when every other box is filled, and the PIN spells the boxes with the new digit |
| PinInput.HandlePaste | src/components/common/pin-input.tsx:42-51 | Pasting fills the boxes with the pasted digits, and hands them on, exactly when there is one digit per box; otherwise nothing changes |
| PinInput.PastePinRoundTrip | src/components/common/pin-input.tsx:42-51 | Pasting a PIN of the right length hands on exactly that PIN |
| PinInput.PasteIgnoresNonDigits | src/components/common/pin-input.tsx:44 | Characters other than digits in the pasted text make no difference |
| PinInput.CompletedPinIsWellFormedPin | src/components/common/pin-input.tsx:15-51 | With the default four boxes, whatever is handed on is a PIN the user store accepts |

## Left out

- Database I/O is not modelled: each action is a function of the collection it reads. A failed write, a missing push key and the error messages returned to the page are left out. Actions that read only (lists, counts) return the value the caller would see.
- Writes holding `undefined` are modelled as removing the field, which is what the source intends (the comment at src/app/actions/projects.ts:117). The Realtime Database client instead rejects a `set` whose value contains `undefined`, so as written these calls end in their error branch: `updateProjectStatusAction` to any status other than Completed (projects.ts:117,120); `addProjectAction` with a blank link, test link, document URL or starter (projects.ts:82-86); `addTaskAction` without a reference URL, due date or project (tasks.ts:138,160,166); `updateCurrentUserName` for a user without an avatar (auth-context.tsx:128). `Projects.WithStatus` and the add actions follow the stated intent.
- DirectMessages.AllUserConversations: the source lists messages through `Object.values` of the stored records (directMessages.ts:188), and messages are stored without their key (directMessages.ts:53-61, 159-167), so each listed message has no `id`. The model's listed messages carry their database key as `id`.
- Concurrency and the non-atomic read-then-write of each action are left out; each action runs alone.
- DirectMessages.ReadMarking: its flag says whether there is anything to mark, not the action's `success`. As written, the action reports `success` never: its `set` at the database root has keys like `directMessages/<key>/read`, which the Realtime Database client refuses, so every call with something to mark ends in the error branch (see Findings). `DirectMessages.MarkMessagesAsReadAsWritten` models that, and `DirectMessages.MarkMessagesAsRead` models the intended multi-path update. Of the client's key rules, only the characters and the non-empty key are modelled; the reserved keys such as `.priority` are left out.
- `deleteProjectAction`, `deleteReferenceAction` and `deleteAnnouncementAction` are left out. Each is a single remove with no check.
- `getAllUsers` and the other user fetches are left out: the user list is an input of each action.
- The AI flows are left out: the project resource recommendations, and the link-title autocomplete whose answer is an input.
- The React rendering, focus handling, `handleKeyDown`, toasts, local storage of the session and `logout` are left out.
- Timestamps are millisecond integers. ISO formatting, `toFixed(1)` or `toFixed(2)` rounding of averages, and JavaScript's limit of about 8.64e15 ms on dates are left out; averages are exact reals.
- `localeCompare` is modelled as lexicographic order on characters, and `toLowerCase` as ASCII lower-casing; locale-aware collation and Unicode case mapping are left out.
- Zod's `url()` and `datetime()` checks are left out; they are the predicates `isUrl` and `isDateTime` passed to the model.
- Auth.PinChangeError: the source takes the first user returned by a PIN query and refuses when that user is someone else. The model refuses when any other user holds the PIN, which is the same check while PINs are unique, as every action here keeps them.
- Auth.Login: when several users share a PIN (which no action here allows), the source signs in the first one returned by the query. The model signs in some holder of the PIN.
- Performance.Average: the contract does not itself bound the value; the mean and its range are stated in `Performance.AverageIsMean` and `Performance.AverageInRange`.
- Performance.Initialize: the database keeps no empty list, so a stored record without weeks reads back with no `weeklyScores`. On such a record the source throws (the `find` at src/app/actions/performance.ts:29, the `sort` at :33, the `forEach` at :129), failing the whole of `getPerformanceDataForCurrentMonth` or `calculateMonthlyLeaderboard`. The model treats it as a record with no weeks. Such a record comes only from a month outside 0..11 (`Performance.InitializeHasWeeks`), and these two actions always use the current month. `Performance.UpdateWeeklyScore` does model the failure; the fresh record that its initialisation writes before failing is not modelled.
- Calendar.FridaysFrom: the contract gives only the empty and first-element cases; the full list is stated in `Calendar.FridaysFromClosedForm`.

## Findings

| source | as written | input that shows it | evidently intended | confidence | as-written member | corrected member |
|---|---|---|---|---|---|---|
| src/app/admin/performance/page.tsx:68-78 | the no-change guard compares the cell with `currentScore` using `=== null` for an empty cell, so a week with no stored score (`undefined`) is not recognised as empty | an empty cell blurred over a week with no score issues a save of null | blurring an empty cell over a week without a score writes nothing | not executed | ScoreCell.BlurAsWritten (shown by ScoreCell.BlurAsWrittenSavesEmptyOverUndefined and ScoreCell.BlurAsWrittenDiffersOnlyThere) | ScoreCell.Blur (ScoreCell.BlurSavesIffChanged) |
| src/app/actions/references.ts:12 | the optional title carries `min(1)`, and the form always submits its title field (src/components/reference-library/add-reference-form.tsx:119-125), so a title left blank is rejected | a valid link with the title field left empty is refused with a title error | an empty title falls back to the AI's title or Untitled Reference, as lines 59-80 intend | not executed | References.AddReferenceAsWritten (shown by References.BlankTitleRejectedAsWritten and References.SentTitleNeverFallsBackAsWritten) | References.AddReference (References.StoredTitle) |
| src/app/actions/directMessages.ts:129 | the read flags are written with `set` at the database root, keyed by paths such as `directMessages/<key>/read`; the client refuses a `set` whose keys contain `/`, so the action lands in its error branch | one stored message from the contact to the user, unread: the action returns `success: false` and the message stays unread | a multi-path `update` of the root, as the comment on that line names: the messages are marked read and `success` is true | not executed | DirectMessages.MarkMessagesAsReadAsWritten (shown by DirectMessages.MarkAsReadAsWrittenFailsOnUnreadMessage) | DirectMessages.MarkMessagesAsRead (DirectMessages.MarkMessagesAsReadLowersUnreadCount, DirectMessages.MarkMessagesAsReadIdempotent) |

=== FILE: announcements.dfy ===
/**
 * Administrator announcements (src/app/actions/announcements.ts): sending one,
 * which announcements a user sees, the full list, and marking one read.
 *
 * The `adminAnnouncements` collection is a sequence in key order. `readBy` maps
 * user ids to `true`; an absent map is the empty map.
 */
module Announcements {
  import opened Common
  import opened Sorting

  /** Addressed to everybody. */
  const Everyone := "all"

  datatype Announcement = Announcement(
    id: string,
    message: string,
    recipientUserId: string,   // a user id, or `all`
    sentByAdminName: string,
    createdAt: int,
    readBy: map<string, bool>)

  datatype AnnouncementField = MessageField | RecipientField

  datatype AnnouncementError =
    | NotAuthenticated
    | InvalidFields(fields: set<AnnouncementField>)
    | AnnouncementNotFound
    | NotForYou

  /** Newest first. */
  predicate NewestFirst(a: Announcement, b: Announcement) {
    a.createdAt >= b.createdAt
  }

  lemma NewestFirstIsPreorder()
    ensures TotalPreorder(NewestFirst)
  {
  }

  // ---------------------------------------------------------------------------
  // sendAdminAnnouncementAction
  // ---------------------------------------------------------------------------

  /** The fields `SendAnnouncementSchema` rejects (`None` is a field not sent). */
  function AnnouncementFormErrors(message: Option<string>, recipient: Option<string>): (r: set<AnnouncementField>)
    ensures MessageField !in r <==> message.Some? && message.value != ""
    ensures RecipientField !in r <==> recipient.Some? && recipient.value != ""
  {
    (if message.Some? && message.value != "" then {} else {MessageField})
    + (if recipient.Some? && recipient.value != "" then {} else {RecipientField})
  }

  /** `sendAdminAnnouncementAction`: stores the announcement under the push key
      `key`, read by nobody yet. */
  function SendAnnouncement(anns: seq<Announcement>, adminUserId: string, adminName: string,
                            message: Option<string>, recipient: Option<string>,
                            key: string, now: int): (r: Result<(seq<Announcement>, Announcement), AnnouncementError>)
    ensures adminUserId == "" ==> r == Err(NotAuthenticated)
    ensures adminUserId != "" ==>
      (r.Err? <==> AnnouncementFormErrors(message, recipient) != {})
      && (r.Err? ==> r.error == InvalidFields(AnnouncementFormErrors(message, recipient)))
    ensures r.Ok? ==>
      var (store, a) := r.value;
      && store == anns + [a]
      && a == Announcement(key, message.value, recipient.value, adminName, now, map[])
      && a.message != "" && a.recipientUserId != ""
  {
    if adminUserId == "" then Err(NotAuthenticated)
    else
      var errors := AnnouncementFormErrors(message, recipient);
      if errors != {} then Err(InvalidFields(errors))
      else
        var a := Announcement(key, message.value, recipient.value, adminName, now, map[]);
        Ok((anns + [a], a))
  }

  // ---------------------------------------------------------------------------
  // getAnnouncementsForUserAction, getAllAnnouncementsAction
  // ---------------------------------------------------------------------------

  /** Addressed to the user, or to everybody. */
  predicate IsFor(a: Announcement, userId: string) {
    a.recipientUserId == userId || a.recipientUserId == Everyone
  }

  function ForUser(userId: string): Announcement -> bool {
    (a: Announcement) => IsFor(a, userId)
  }

  /** `getAnnouncementsForUserAction`: the user's and everybody's announcements,
      newest first. */
  function AnnouncementsForUser(anns: seq<Announcement>, userId: string): (r: seq<Announcement>)
    ensures forall a :: a in r <==> a in anns && IsFor(a, userId)
    ensures multiset(r) == multiset(Filter(anns, ForUser(userId)))
    ensures SortedBy(r, NewestFirst)
  {
    NewestFirstIsPreorder();
    var mine := Filter(anns, ForUser(userId));
    assert forall a :: a in multiset(mine) <==> a in mine;
    SortBy(mine, NewestFirst)
  }

  /** `getAllAnnouncementsAction`: every announcement, newest first. */
  function AllAnnouncements(anns: seq<Announcement>): (r: seq<Announcement>)
    ensures multiset(r) == multiset(anns)
    ensures SortedBy(r, NewestFirst)
  {
    NewestFirstIsPreorder();
    SortBy(anns, NewestFirst)
  }

  /** An announcement to everybody reaches every user. */
  lemma BroadcastReachesEveryone(anns: seq<Announcement>, a: Announcement, userId: string)
    requires a in anns && a.recipientUserId == Everyone
    ensures a in AnnouncementsForUser(anns, userId)
  {
  }

  /** A sent announcement is one more entry on the full list. */
  lemma SentAnnouncementIsListed(anns: seq<Announcement>, adminUserId: string, adminName: string,
                                 message: Option<string>, recipient: Option<string>, key: string, now: int)
    requires SendAnnouncement(anns, adminUserId, adminName, message, recipient, key, now).Ok?
    ensures multiset(AllAnnouncements(SendAnnouncement(anns, adminUserId, adminName, message, recipient, key, now).value.0))
      == multiset(AllAnnouncements(anns)) + multiset{SendAnnouncement(anns, adminUserId, adminName, message, recipient, key, now).value.1}
  {
  }

  /** A sent announcement joins the list of exactly the users it is for, one
      entry more there and no change elsewhere; sent to everybody, it reaches
      every user. */
  lemma SentAnnouncementIsDelivered(anns: seq<Announcement>, adminUserId: string, adminName: string,
                                    message: Option<string>, recipient: Option<string>,
                                    key: string, now: int, userId: string)
    requires SendAnnouncement(anns, adminUserId, adminName, message, recipient, key, now).Ok?
    ensures var sent := SendAnnouncement(anns, adminUserId, adminName, message, recipient, key, now).value;
      && (sent.1 in AnnouncementsForUser(sent.0, userId) <==> IsFor(sent.1, userId))
      && (sent.1.recipientUserId == Everyone ==> sent.1 in AnnouncementsForUser(sent.0, userId))
      && multiset(AnnouncementsForUser(sent.0, userId)) ==
         multiset(AnnouncementsForUser(anns, userId)) + (if IsFor(sent.1, userId) then multiset{sent.1} else multiset{})
  {
    var sent := SendAnnouncement(anns, adminUserId, adminName, message, recipient, key, now).value;
    assert sent.1 in sent.0;
    FilterAppend(anns, sent.1, ForUser(userId));
  }

  // ---------------------------------------------------------------------------
  // markAnnouncementReadAction
  // ---------------------------------------------------------------------------

  function FindAnnouncement(anns: seq<Announcement>, id: string): (r: Option<Announcement>)
    ensures r.Some? ==> r.value in anns && r.value.id == id
    ensures r.None? <==> forall a :: a in anns ==> a.id != id
  {
    if |anns| == 0 then None
    else if anns[0].id == id then Some(anns[0])
    else FindAnnouncement(anns[1..], id)
  }

  function PutAnnouncement(anns: seq<Announcement>, id: string, a: Announcement): (r: seq<Announcement>)
    ensures |r| == |anns|
    ensures forall i :: 0 <= i < |anns| ==> r[i] == if anns[i].id == id then a else anns[i]
  {
    seq(|anns|, i requires 0 <= i < |anns| => if anns[i].id == id then a else anns[i])
  }

  /** `markAnnouncementReadAction`: records that the user read an existing
      announcement meant for them; nothing else changes. */
  function MarkAnnouncementRead(anns: seq<Announcement>, userId: string, announcementId: string): (r: Result<seq<Announcement>, AnnouncementError>)
    ensures FindAnnouncement(anns, announcementId).None? ==> r == Err(AnnouncementNotFound)
    ensures FindAnnouncement(anns, announcementId).Some? ==>
      var a := FindAnnouncement(anns, announcementId).value;
      && (r.Err? <==> !IsFor(a, userId))
      && (r.Err? ==> r.error == NotForYou)
      && (r.Ok? ==> r.value == PutAnnouncement(anns, announcementId, a.(readBy := a.readBy[userId := true])))
  {
    var found := FindAnnouncement(anns, announcementId);
    if found.None? then Err(AnnouncementNotFound)
    else if !IsFor(found.value, userId) then Err(NotForYou)
    else
      var a := found.value;
      Ok(PutAnnouncement(anns, announcementId, a.(readBy := a.readBy[userId := true])))
  }

  /** A user may mark exactly the announcements listed for them. */
  lemma MarkAllowedIffListed(anns: seq<Announcement>, userId: string, announcementId: string)
    ensures MarkAnnouncementRead(anns, userId, announcementId).Ok? <==>
      FindAnnouncement(anns, announcementId).Some?
      && FindAnnouncement(anns, announcementId).value in AnnouncementsForUser(anns, userId)
  {
  }

  /** Marking sets the user's flag and keeps every other flag, message and
      announcement; marking again changes nothing more. */
  lemma MarkAnnouncementReadEffect(anns: seq<Announcement>, userId: string, announcementId: string)
    requires MarkAnnouncementRead(anns, userId, announcementId).Ok?
    ensures var store := MarkAnnouncementRead(anns, userId, announcementId).value;
      var a := FindAnnouncement(anns, announcementId).value;
      && (forall i :: 0 <= i < |anns| && anns[i].id == announcementId ==>
            && store[i].readBy == a.readBy[userId := true]
            && store[i].(readBy := a.readBy) == a)
      && (forall i :: 0 <= i < |anns| && anns[i].id != announcementId ==> store[i] == anns[i])
      && MarkAnnouncementRead(store, userId, announcementId) == Ok(store)
  {
    var store := MarkAnnouncementRead(anns, userId, announcementId).value;
    var a := FindAnnouncement(anns, announcementId).value;
    var b := a.(readBy := a.readBy[userId := true]);
    FindAnnouncementInPut(anns, announcementId, b);
    assert b.readBy[userId := true] == b.readBy;
    assert PutAnnouncement(store, announcementId, b) == store;
  }

  /** After writing `b` under its id, looking the id up finds `b`. */
  lemma {:induction false} FindAnnouncementInPut(anns: seq<Announcement>, id: string, b: Announcement)
    requires FindAnnouncement(anns, id).Some? && b.id == id
    ensures FindAnnouncement(PutAnnouncement(anns, id, b), id) == Some(b)
    decreases |anns|
  {
    var put := PutAnnouncement(anns, id, b);
    if anns[0].id != id {
      FindAnnouncementInPut(anns[1..], id, b);
      assert put[1..] == PutAnnouncement(anns[1..], id, b);
    }
  }
}

=== FILE: auth.dfy ===
/**
 * The user and PIN store behind the authentication context
 * (src/context/auth-context.tsx). The store is the `users` collection, keyed by
 * user id; the state also holds the signed-in session's copy of its user.
 * Every operation is a state transition returning either the new state or the
 * reason it was refused.
 *
 * The invariant the operations keep is that no two users share a PIN, which is
 * what makes a PIN identify its user at login.
 */
module Auth {
  import opened Common
  import opened Types

  /** `users/{id}`. */
  type UserStore = map<string, User>

  datatype AuthState = AuthState(users: UserStore, current: Option<User>)

  /** Why an operation was refused. */
  datatype AuthError =
    | NoSession        // no user signed in
    | Unauthorized     // the signed-in user is not an administrator
    | InvalidPin       // not four digits
    | PinInUse         // another user holds the PIN
    | UserNotFound     // no stored user under that id
    | EmailInUse       // a stored user has that (lower-cased) email
    | CannotDeleteSelf // an administrator deleting their own account

  /** Each user is stored under its own id. */
  predicate KeysAreIds(users: UserStore) {
    forall k :: k in users ==> users[k].id == k
  }

  /** No two stored users share a PIN. */
  predicate PinsUnique(users: UserStore) {
    forall a, b :: a in users && b in users && users[a].pin == users[b].pin ==> a == b
  }

  /** No two stored users share an email address. */
  predicate EmailsUnique(users: UserStore) {
    forall a, b :: a in users && b in users && users[a].email.Some? && users[a].email == users[b].email ==> a == b
  }

  predicate HoldsPin(users: UserStore, k: string, pin: string) {
    k in users && users[k].pin == pin
  }

  /** A query of the store by PIN finds some user. */
  predicate PinTaken(users: UserStore, pin: string) {
    exists k :: k in users && users[k].pin == pin
  }

  /** A query of the store by email finds some user. */
  predicate EmailTaken(users: UserStore, email: string) {
    exists k :: k in users && users[k].email == Some(email)
  }

  /** `/^\d{4}$/`. */
  predicate IsPin(s: string) {
    |s| == 4 && AllDigits(s)
  }

  /** `pin.substring(0, 2)`. */
  function PinFirstTwo(pin: string): (r: string)
    ensures |pin| >= 2 ==> |r| == 2 && pin == r + pin[2..]
    ensures |pin| < 2 ==> r == pin
  {
    if |pin| >= 2 then pin[..2] else pin
  }

  /** A user with a new PIN and its two-character prefix; nothing else changes. */
  function WithPin(u: User, pin: string): User {
    u.(pin := pin, pinFirstTwo := PinFirstTwo(pin))
  }

  /** The page a user lands on after signing in. */
  function LandingPath(u: User): string {
    if u.isAdmin then "/admin" else "/dashboard"
  }

  // ---------------------------------------------------------------------------
  // login, verifyPin
  // ---------------------------------------------------------------------------

  /** `verifyPin`: the signed-in user's stored PIN (not the session copy) equals
      `pin`. */
  function VerifyPin(s: AuthState, pin: string): (r: bool)
    ensures r ==> s.current.Some? && HoldsPin(s.users, s.current.value.id, pin)
    ensures s.current.Some? && HoldsPin(s.users, s.current.value.id, pin) ==> r
  {
    s.current.Some? && s.current.value.id in s.users && s.users[s.current.value.id].pin == pin
  }

  /** `login`: signs in a stored user holding the PIN (the query's first match)
      and names the page to go to; the store is untouched. */
  method Login(s: AuthState, pin: string) returns (ok: bool, r: AuthState, destination: Option<string>)
    ensures ok <==> PinTaken(s.users, pin)
    ensures r.users == s.users
    ensures !ok ==> r == s && destination.None?
    ensures ok ==> r.current.Some? && r.current.value in s.users.Values && r.current.value.pin == pin
    ensures ok ==> destination == Some(LandingPath(r.current.value))
    ensures ok && PinsUnique(s.users) ==> forall k :: HoldsPin(s.users, k, pin) ==> r.current == Some(s.users[k])
    ensures ok && KeysAreIds(s.users) ==> VerifyPin(r, pin)
  {
    if k :| k in s.users && s.users[k].pin == pin {
      var u := s.users[k];
      ok, r, destination := true, AuthState(s.users, Some(u)), Some(LandingPath(u));
    } else {
      ok, r, destination := false, s, None;
    }
  }

  /** Only one PIN verifies for a session. */
  lemma VerifyPinDeterminesPin(s: AuthState, p: string, q: string)
    requires VerifyPin(s, p) && VerifyPin(s, q)
    ensures p == q
  {
  }

  // ---------------------------------------------------------------------------
  // updateCurrentUserName
  // ---------------------------------------------------------------------------

  /** `updateCurrentUserName`: writes the new name, and the new avatar when one is
      given (otherwise the stored one), over the stored user; the session copy
      gets the same two fields. */
  function UpdateCurrentUserName(s: AuthState, newName: string, newAvatar: Option<string>): (r: Result<AuthState, AuthError>)
    ensures r.Err? <==> s.current.None? || s.current.value.id !in s.users
    ensures r.Err? ==> r.error == (if s.current.None? then NoSession else UserNotFound)
    ensures r.Ok? ==> r.value.users.Keys == s.users.Keys
    ensures r.Ok? ==>
      var id := s.current.value.id;
      var before := s.users[id];
      var after := r.value.users[id];
      (forall k :: k in s.users && k != id ==> r.value.users[k] == s.users[k])
      && after.name == newName
      && after.avatarUrl == (if newAvatar.Some? then newAvatar else before.avatarUrl)
      && after == before.(name := after.name, avatarUrl := after.avatarUrl)
      && r.value.current == Some(s.current.value.(name := newName, avatarUrl := after.avatarUrl))
  {
    if s.current.None? then Err(NoSession)
    else
      var id := s.current.value.id;
      if id !in s.users then Err(UserNotFound)
      else
        var stored := s.users[id];
        var avatar := if newAvatar.Some? then newAvatar else stored.avatarUrl;
        Ok(AuthState(
          s.users[id := stored.(name := newName, avatarUrl := avatar)],
          Some(s.current.value.(name := newName, avatarUrl := avatar))))
  }

  /** Renaming touches no PIN, so PIN checks and the invariants are as before. */
  lemma UpdateCurrentUserNameKeepsPins(s: AuthState, newName: string, newAvatar: Option<string>, pin: string)
    requires UpdateCurrentUserName(s, newName, newAvatar).Ok?
    ensures var t := UpdateCurrentUserName(s, newName, newAvatar).value;
      && (forall k :: HoldsPin(t.users, k, pin) <==> HoldsPin(s.users, k, pin))
      && (PinsUnique(s.users) ==> PinsUnique(t.users))
      && (KeysAreIds(s.users) ==> KeysAreIds(t.users))
      && VerifyPin(t, pin) == VerifyPin(s, pin)
  {
  }

  // ---------------------------------------------------------------------------
  // updateCurrentUserPin, adminUpdateUserPin
  // ---------------------------------------------------------------------------

  /** The PIN query finds a user other than `id`. */
  predicate PinHeldByOther(users: UserStore, pin: string, id: string) {
    exists k :: k in users && users[k].pin == pin && k != id
  }

  /** The checks both PIN changes make after their authorisation check: format,
      conflict with another user, and existence of the target. */
  function PinChangeError(users: UserStore, id: string, newPin: string): (r: Option<AuthError>)
    ensures r == None <==> IsPin(newPin) && !PinHeldByOther(users, newPin, id) && id in users
    ensures r.Some? ==> r.value in {InvalidPin, PinInUse, UserNotFound}
  {
    if !IsPin(newPin) then Some(InvalidPin)
    else if PinHeldByOther(users, newPin, id) then Some(PinInUse)
    else if id !in users then Some(UserNotFound)
    else None
  }

  /** `updateCurrentUserPin`: the signed-in user changes their own PIN; the
      stored user and the session copy both get it. */
  function UpdateCurrentUserPin(s: AuthState, newPin: string): (r: Result<AuthState, AuthError>)
    ensures s.current.None? ==> r == Err(NoSession)
    ensures s.current.Some? ==>
      var id := s.current.value.id;
      && (r.Err? <==> PinChangeError(s.users, id, newPin).Some?)
      && (r.Err? ==> r.error == PinChangeError(s.users, id, newPin).value)
      && (r.Ok? ==> r.value.users == s.users[id := WithPin(s.users[id], newPin)])
      && (r.Ok? ==> r.value.current == Some(WithPin(s.current.value, newPin)))
  {
    if s.current.None? then Err(NoSession)
    else
      var id := s.current.value.id;
      var e := PinChangeError(s.users, id, newPin);
      if e.Some? then Err(e.value)
      else Ok(AuthState(s.users[id := WithPin(s.users[id], newPin)], Some(WithPin(s.current.value, newPin))))
  }

  /** `adminUpdateUserPin`: an administrator sets another user's PIN; the session
      is left as it is. */
  function AdminUpdateUserPin(s: AuthState, userId: string, newPin: string): (r: Result<AuthState, AuthError>)
    ensures (s.current.None? || !s.current.value.isAdmin) ==> r == Err(Unauthorized)
    ensures s.current.Some? && s.current.value.isAdmin ==>
      && (r.Err? <==> PinChangeError(s.users, userId, newPin).Some?)
      && (r.Err? ==> r.error == PinChangeError(s.users, userId, newPin).value)
      && (r.Ok? ==> r.value == s.(users := s.users[userId := WithPin(s.users[userId], newPin)]))
  {
    if s.current.None? || !s.current.value.isAdmin then Err(Unauthorized)
    else
      var e := PinChangeError(s.users, userId, newPin);
      if e.Some? then Err(e.value)
      else Ok(s.(users := s.users[userId := WithPin(s.users[userId], newPin)]))
  }

  /** Setting an accepted PIN on an existing user: afterwards that user, and only
      that user, holds it; every other user keeps their record; the invariants
      survive. */
  lemma SetPinKeepsInvariants(users: UserStore, id: string, newPin: string)
    requires PinChangeError(users, id, newPin) == None
    ensures var t := users[id := WithPin(users[id], newPin)];
      && t.Keys == users.Keys
      && (forall k :: HoldsPin(t, k, newPin) <==> k == id)
      && (forall k :: k in users && k != id ==> t[k] == users[k])
      && t[id].pinFirstTwo == newPin[..2]
      && t[id] == users[id].(pin := newPin, pinFirstTwo := newPin[..2])
      && (PinsUnique(users) ==> PinsUnique(t))
      && (KeysAreIds(users) ==> KeysAreIds(t))
      && (EmailsUnique(users) ==> EmailsUnique(t))
  {
  }

  /** After either PIN change succeeds the target is the one user the new PIN
      signs in, and the invariants still hold. */
  lemma PinChangesKeepInvariants(s: AuthState, userId: string, newPin: string)
    ensures UpdateCurrentUserPin(s, newPin).Ok? ==>
      var t := UpdateCurrentUserPin(s, newPin).value;
      && (forall k :: HoldsPin(t.users, k, newPin) <==> k == s.current.value.id)
      && (PinsUnique(s.users) ==> PinsUnique(t.users))
      && (KeysAreIds(s.users) ==> KeysAreIds(t.users))
    ensures AdminUpdateUserPin(s, userId, newPin).Ok? ==>
      var t := AdminUpdateUserPin(s, userId, newPin).value;
      && (forall k :: HoldsPin(t.users, k, newPin) <==> k == userId)
      && (PinsUnique(s.users) ==> PinsUnique(t.users))
      && (KeysAreIds(s.users) ==> KeysAreIds(t.users))
  {
    if UpdateCurrentUserPin(s, newPin).Ok? {
      SetPinKeepsInvariants(s.users, s.current.value.id, newPin);
    }
    if AdminUpdateUserPin(s, userId, newPin).Ok? {
      SetPinKeepsInvariants(s.users, userId, newPin);
    }
  }

  // ---------------------------------------------------------------------------
  // adminAddUser
  // ---------------------------------------------------------------------------

  /** `user-${Date.now()}`. */
  function NewUserId(millis: nat): (r: string)
    ensures |r| > 5 && r[..5] == "user-"
    ensures AllDigits(r[5..]) && DecimalValue(r[5..]) == millis
  {
    var digits := DecimalString(millis);
    assert ("user-" + digits)[5..] == digits;
    "user-" + digits
  }

  /** Users added at different instants get different ids. */
  lemma NewUserIdsDiffer(a: nat, b: nat)
    requires a != b
    ensures NewUserId(a) != NewUserId(b)
  {
  }

  predicate HoldsEmail(users: UserStore, k: string, email: string) {
    k in users && users[k].email == Some(email)
  }

  /** `adminAddUser`: an administrator adds a non-admin user under the id the
      clock reading gives, replacing any user already stored under that id (two
      adds in the same millisecond), and refuses a PIN any user holds or an
      email (lower-cased) any user has.
      `millis` and `createdAt` are the two clock readings the source takes. */
  function AdminAddUser(s: AuthState, name: string, email: string, pin: string, avatarUrl: string,
                        millis: nat, createdAt: int): (r: Result<(AuthState, User), AuthError>)
    ensures (s.current.None? || !s.current.value.isAdmin) ==> r == Err(Unauthorized)
    ensures s.current.Some? && s.current.value.isAdmin ==>
      && (PinTaken(s.users, pin) ==> r == Err(PinInUse))
      && (!PinTaken(s.users, pin) && EmailTaken(s.users, LowerAscii(email)) ==> r == Err(EmailInUse))
      && (r.Ok? <==> !PinTaken(s.users, pin) && !EmailTaken(s.users, LowerAscii(email)))
    ensures r.Ok? ==>
      var (t, u) := r.value;
      && u == User(NewUserId(millis), name, Some(LowerAscii(email)), pin, PinFirstTwo(pin), false, createdAt, Some(avatarUrl))
      && t.current == s.current
      && t.users == s.users[u.id := u]
  {
    if s.current.None? || !s.current.value.isAdmin then Err(Unauthorized)
    else if PinTaken(s.users, pin) then Err(PinInUse)
    else if EmailTaken(s.users, LowerAscii(email)) then Err(EmailInUse)
    else
      var u := User(NewUserId(millis), name, Some(LowerAscii(email)), pin, PinFirstTwo(pin), false, createdAt, Some(avatarUrl));
      Ok((s.(users := s.users[u.id := u]), u))
  }

  /** After an add, the new user is the one user its PIN signs in and the one
      user with its email, and the invariants still hold. */
  lemma AdminAddUserKeepsInvariants(s: AuthState, name: string, email: string, pin: string, avatarUrl: string,
                                    millis: nat, createdAt: int)
    requires AdminAddUser(s, name, email, pin, avatarUrl, millis, createdAt).Ok?
    ensures var (t, u) := AdminAddUser(s, name, email, pin, avatarUrl, millis, createdAt).value;
      && (forall k :: HoldsPin(t.users, k, pin) <==> k == u.id)
      && (forall k :: HoldsEmail(t.users, k, LowerAscii(email)) <==> k == u.id)
      && !u.isAdmin
      && (PinsUnique(s.users) ==> PinsUnique(t.users))
      && (EmailsUnique(s.users) ==> EmailsUnique(t.users))
      && (KeysAreIds(s.users) ==> KeysAreIds(t.users))
  {
    var (t, u) := AdminAddUser(s, name, email, pin, avatarUrl, millis, createdAt).value;
    var e := LowerAscii(email);
    InsertFreshUser(s.users, u, pin, e, t.users);
  }

  /** Storing a user whose PIN and email nobody holds: that user is the only
      holder of each, and the store's invariants survive. */
  lemma InsertFreshUser(users: UserStore, u: User, pin: string, email: string, t: UserStore)
    requires !PinTaken(users, pin) && !EmailTaken(users, email)
    requires u.pin == pin && u.email == Some(email) && t == users[u.id := u]
    ensures forall k :: HoldsPin(t, k, pin) <==> k == u.id
    ensures forall k :: HoldsEmail(t, k, email) <==> k == u.id
    ensures PinsUnique(users) ==> PinsUnique(t)
    ensures EmailsUnique(users) ==> EmailsUnique(t)
    ensures KeysAreIds(users) ==> KeysAreIds(t)
  {
    forall k ensures HoldsPin(t, k, pin) <==> k == u.id {
      assert k in users ==> users[k].pin != pin;
    }
    forall k ensures HoldsEmail(t, k, email) <==> k == u.id {
      assert k in users ==> users[k].email != Some(email);
    }
    if PinsUnique(users) {
      forall a, b | a in t && b in t && t[a].pin == t[b].pin
        ensures a == b
      {
        assert HoldsPin(t, a, t[a].pin) && HoldsPin(t, b, t[a].pin);
      }
    }
    if EmailsUnique(users) {
      forall a, b | a in t && b in t && t[a].email.Some? && t[a].email == t[b].email
        ensures a == b
      {
        assert HoldsEmail(t, a, t[a].email.value) && HoldsEmail(t, b, t[a].email.value);
      }
    }
  }

  // ---------------------------------------------------------------------------
  // adminDeleteUser
  // ---------------------------------------------------------------------------

  /** `adminDeleteUser`: an administrator removes another user (removing an id
      that is not stored changes nothing and succeeds). */
  function AdminDeleteUser(s: AuthState, userId: string): (r: Result<AuthState, AuthError>)
    ensures (s.current.None? || !s.current.value.isAdmin) ==> r == Err(Unauthorized)
    ensures s.current.Some? && s.current.value.isAdmin ==>
      && (r == Err(CannotDeleteSelf) <==> userId == s.current.value.id)
      && (r.Err? ==> r == Err(CannotDeleteSelf))
    ensures r.Ok? ==>
      && r.value.current == s.current
      && r.value.users.Keys == s.users.Keys - {userId}
      && (forall k :: k in r.value.users ==> r.value.users[k] == s.users[k])
  {
    if s.current.None? || !s.current.value.isAdmin then Err(Unauthorized)
    else if userId == s.current.value.id then Err(CannotDeleteSelf)
    else Ok(s.(users := s.users - {userId}))
  }

  /** A deleted user's PIN signs nobody in any more (PINs being unique), and the
      invariants survive. */
  lemma AdminDeleteUserKeepsInvariants(s: AuthState, userId: string)
    requires AdminDeleteUser(s, userId).Ok?
    ensures var t := AdminDeleteUser(s, userId).value;
      && (PinsUnique(s.users) && userId in s.users ==> forall k :: !HoldsPin(t.users, k, s.users[userId].pin))
      && (PinsUnique(s.users) ==> PinsUnique(t.users))
      && (EmailsUnique(s.users) ==> EmailsUnique(t.users))
      && (KeysAreIds(s.users) ==> KeysAreIds(t.users))
  {
  }
}

=== FILE: calendar.dfy ===
/**
 * UTC calendar arithmetic and the Friday enumeration of `getFridaysOfMonth`
 * (src/lib/mock-data.ts).
 *
 * A date is (year, month, day) with a zero-based month as `getUTCMonth` returns
 * it and a one-based day as `getUTCDate` returns it, in the proleptic Gregorian
 * calendar that JavaScript's `Date` uses. `DayNumber` counts days since
 * 1970-01-01, and `Weekday` is `getUTCDay` (0 = Sunday, ..., 5 = Friday).
 */
module Calendar {
  import opened Common

  datatype Date = Date(year: int, month: int, day: int)

  const Friday: int := 5

  predicate IsLeapYear(y: int) {
    y % 4 == 0 && (y % 100 != 0 || y % 400 == 0)
  }

  function YearLength(y: int): int {
    if IsLeapYear(y) then 366 else 365
  }

  function DaysInMonth(y: int, m: int): (n: int)
    requires 0 <= m < 12
    ensures 28 <= n <= 31
  {
    if m == 1 then (if IsLeapYear(y) then 29 else 28)
    else if m == 3 || m == 5 || m == 8 || m == 10 then 30
    else 31
  }

  /** A real calendar date. */
  predicate Valid(d: Date) {
    0 <= d.month < 12 && 1 <= d.day <= DaysInMonth(d.year, d.month)
  }

  /** Number of leap years among 1..x (and its floor-division extension to x <= 0). */
  function LeapsThrough(x: int): int {
    x / 4 - x / 100 + x / 400
  }

  /** Days from 1970-01-01 to the first of January of `y`. */
  function DaysBeforeYear(y: int): int {
    365 * (y - 1970) + LeapsThrough(y - 1) - LeapsThrough(1969)
  }

  /** Days from the first of January to the first day of month `m` (m = 12 is the next year). */
  function DaysBeforeMonth(y: int, m: int): int
    requires 0 <= m <= 12
  {
    var leap := if m >= 2 && IsLeapYear(y) then 1 else 0;
    leap + (if m == 0 then 0 else if m == 1 then 31 else if m == 2 then 59
      else if m == 3 then 90 else if m == 4 then 120 else if m == 5 then 151
      else if m == 6 then 181 else if m == 7 then 212 else if m == 8 then 243
      else if m == 9 then 273 else if m == 10 then 304 else if m == 11 then 334
      else 365)
  }

  /** The time value of the date divided by 86,400,000 ms. */
  function DayNumber(d: Date): int
    requires 0 <= d.month < 12
  {
    DaysBeforeYear(d.year) + DaysBeforeMonth(d.year, d.month) + d.day - 1
  }

  /** `getUTCDay`: 1970-01-01 was a Thursday. */
  function Weekday(d: Date): (w: int)
    requires 0 <= d.month < 12
    ensures 0 <= w < 7
  {
    (DayNumber(d) + 4) % 7
  }

  /** Going from y - 1 to y adds one to y / 4 exactly when 4 divides y (and so
      for 100 and 400). */
  lemma DivisibilityStep4(y: int)
    ensures y / 4 - (y - 1) / 4 == (if y % 4 == 0 then 1 else 0)
  {
    var q := (y - 1) / 4;
    var r := (y - 1) % 4;
    assert y == 4 * q + r + 1;
  }

  lemma DivisibilityStep100(y: int)
    ensures y / 100 - (y - 1) / 100 == (if y % 100 == 0 then 1 else 0)
  {
    var q := (y - 1) / 100;
    var r := (y - 1) % 100;
    assert y == 100 * q + r + 1;
  }

  lemma DivisibilityStep400(y: int)
    ensures y / 400 - (y - 1) / 400 == (if y % 400 == 0 then 1 else 0)
  {
    var q := (y - 1) / 400;
    var r := (y - 1) % 400;
    assert y == 400 * q + r + 1;
  }

  /** Every hundredth year is a fourth year. */
  lemma HundredthIsFourth(y: int)
    requires y % 100 == 0
    ensures y % 4 == 0
  {
    var q := y / 100;
    assert y == 4 * (25 * q);
  }

  /** Every four-hundredth year is a hundredth year. */
  lemma FourHundredthIsHundredth(y: int)
    requires y % 400 == 0
    ensures y % 100 == 0
  {
    var q := y / 400;
    assert y == 100 * (4 * q);
  }

  /** The leap-year count grows by one exactly at a leap year. */
  lemma LeapsStep(y: int)
    ensures LeapsThrough(y) - LeapsThrough(y - 1) == (if IsLeapYear(y) then 1 else 0)
  {
    DivisibilityStep4(y);
    DivisibilityStep100(y);
    DivisibilityStep400(y);
    if y % 100 == 0 {
      HundredthIsFourth(y);
    }
    if y % 400 == 0 {
      FourHundredthIsHundredth(y);
    }
  }

  /** A year contributes exactly its length to the day count. */
  lemma DaysBeforeNextYear(y: int)
    ensures DaysBeforeYear(y + 1) == DaysBeforeYear(y) + YearLength(y)
  {
    LeapsStep(y);
  }

  /** Days before a month plus its length never pass the days before a later month. */
  lemma DaysBeforeMonthGrows(y: int, m1: int, m2: int)
    requires 0 <= m1 < m2 <= 12
    ensures DaysBeforeMonth(y, m1) + DaysInMonth(y, m1) <= DaysBeforeMonth(y, m2)
  {
  }

  /** Every day of year y1 comes before the first of January of any later year. */
  lemma {:induction false} DaysBeforeYearGrows(y1: int, y2: int)
    requires y1 < y2
    ensures DaysBeforeYear(y1) + YearLength(y1) <= DaysBeforeYear(y2)
    decreases y2 - y1
  {
    DaysBeforeNextYear(y1);
    if y1 + 1 < y2 {
      DaysBeforeYearGrows(y1 + 1, y2);
    }
  }

  /** A date comes no later than another in calendar order: year, then month, then day. */
  predicate DateLe(a: Date, b: Date) {
    a.year < b.year
    || (a.year == b.year && (a.month < b.month || (a.month == b.month && a.day <= b.day)))
  }

  /** On real dates, calendar order is time order, so sorting week records by
      `getTime` of their start date is sorting them by `DateLe`. */
  lemma DateLeIsTimeOrder(a: Date, b: Date)
    requires Valid(a) && Valid(b)
    ensures DateLe(a, b) <==> DayNumber(a) <= DayNumber(b)
    ensures a == b <==> DayNumber(a) == DayNumber(b)
  {
    if a.year < b.year {
      DaysBeforeMonthGrows(a.year, a.month, 12);
      DaysBeforeYearGrows(a.year, b.year);
    } else if b.year < a.year {
      DaysBeforeMonthGrows(b.year, b.month, 12);
      DaysBeforeYearGrows(b.year, a.year);
    } else if a.month < b.month {
      DaysBeforeMonthGrows(a.year, a.month, b.month);
    } else if b.month < a.month {
      DaysBeforeMonthGrows(a.year, b.month, a.month);
    }
  }

  /** The first day of the month after `d`'s. */
  function NextMonthStart(d: Date): (r: Date)
    requires Valid(d)
    ensures Valid(r) && r.day == 1 && r.month != d.month
    ensures d.month < 11 ==> r == Date(d.year, d.month + 1, 1)
    ensures d.month == 11 ==> r == Date(d.year + 1, 0, 1)
  {
    if d.month == 11 then Date(d.year + 1, 0, 1)
    else Date(d.year, d.month + 1, 1)
  }

  /** The next month starts the day after the last of this one. */
  lemma NextMonthStartAdvances(d: Date)
    requires Valid(d)
    ensures DayNumber(NextMonthStart(d)) == DayNumber(d) + DaysInMonth(d.year, d.month) - d.day + 1
  {
    if d.month == 11 {
      DaysBeforeNextYear(d.year);
    }
  }

  /** `date.setUTCDate(date.getUTCDate() + n)`: moves `n` days forward, rolling
      over month and year ends. */
  function AddDays(d: Date, n: nat): (r: Date)
    requires Valid(d)
    ensures Valid(r)
    decreases n
  {
    var len := DaysInMonth(d.year, d.month);
    if d.day + n <= len then d.(day := d.day + n)
    else AddDays(NextMonthStart(d), d.day + n - len - 1)
  }

  /** The date reached is `n` days later in time. */
  lemma {:induction false} AddDaysAdvances(d: Date, n: nat)
    requires Valid(d)
    ensures DayNumber(AddDays(d, n)) == DayNumber(d) + n
    decreases n
  {
    var len := DaysInMonth(d.year, d.month);
    if d.day + n > len {
      NextMonthStartAdvances(d);
      AddDaysAdvances(NextMonthStart(d), d.day + n - len - 1);
    }
  }

  /** Moving at most 28 days either stays in the month (same year, later day)
      or lands in a different month. */
  lemma AddDaysShortStep(d: Date, n: nat)
    requires Valid(d) && n <= 28
    ensures d.day + n <= DaysInMonth(d.year, d.month) ==> AddDays(d, n) == Date(d.year, d.month, d.day + n)
    ensures d.day + n > DaysInMonth(d.year, d.month) ==> AddDays(d, n).month != d.month
  {
    var len := DaysInMonth(d.year, d.month);
    if d.day + n > len {
      var next := NextMonthStart(d);
      var rest := d.day + n - len - 1;
      assert next.day + rest <= DaysInMonth(next.year, next.month);
      assert AddDays(d, n) == AddDays(next, rest) == next.(day := 1 + rest);
    }
  }

  /** Adding a multiple of 7 does not change a remainder modulo 7. */
  lemma ModSevenShift(a: int, k: int)
    ensures (a + k) % 7 == (a % 7 + k) % 7
  {
    var q := a / 7;
    assert a == 7 * q + a % 7;
  }

  /** The weekday of a day of a month, from the weekday of the first. */
  lemma WeekdayInMonth(y: int, m: int, k: int)
    requires 0 <= m < 12
    ensures Weekday(Date(y, m, k)) == (Weekday(Date(y, m, 1)) + k - 1) % 7
  {
    var a := DayNumber(Date(y, m, 1)) + 4;
    assert DayNumber(Date(y, m, k)) + 4 == a + (k - 1);
    ModSevenShift(a, k - 1);
  }

  /** The day after a day of the month falls on the next weekday. */
  lemma WeekdayNextDay(y: int, m: int, k: int)
    requires 0 <= m < 12
    ensures Weekday(Date(y, m, k + 1)) == (Weekday(Date(y, m, k)) + 1) % 7
  {
    var a := DayNumber(Date(y, m, k)) + 4;
    assert DayNumber(Date(y, m, k + 1)) + 4 == a + 1;
    ModSevenShift(a, 1);
  }

  /** Days left until Friday shrink by one with each non-Friday step. */
  lemma DaysToFridayStep(w: int)
    requires 0 <= w < 7 && w != Friday
    ensures (Friday - (w + 1) % 7) % 7 == (Friday - w) % 7 - 1
    ensures (Friday - w) % 7 >= 1
  {
    if w == 6 {
      assert (w + 1) % 7 == 0;
      assert (Friday - w) % 7 == 6;
    } else {
      assert (w + 1) % 7 == w + 1;
      assert (Friday - w) % 7 == Friday - w;
      assert (Friday - (w + 1)) % 7 == Friday - w - 1;
    }
  }

  /** Day k of a month whose first is weekday w1 is a Friday exactly when k is a
      whole number of weeks after the first Friday. */
  lemma FridayCongruence(w1: int, k: int)
    requires 0 <= w1 < 7
    ensures (w1 + k - 1) % 7 == Friday <==> (k - (1 + (Friday - w1) % 7)) % 7 == 0
  {
    var x := w1 + k - 1;
    if w1 == 6 {
      assert (Friday - w1) % 7 == 6;
      assert k - (1 + (Friday - w1) % 7) == x - 12;
    } else {
      assert (Friday - w1) % 7 == Friday - w1;
      assert k - (1 + (Friday - w1) % 7) == x - 5;
    }
    var q := x / 7;
    assert x == 7 * q + x % 7;
  }

  /** `Date.UTC` reads years 0 to 99 as 1900 to 1999. */
  function UtcYear(year: int): int {
    if 0 <= year <= 99 then 1900 + year else year
  }

  /** Day of month of the first Friday, given the weekday of the first. */
  function FirstFridayDay(y: int, m: int): (f: int)
    requires 0 <= m < 12
    ensures 1 <= f <= 7
  {
    1 + (Friday - Weekday(Date(y, m, 1))) % 7
  }

  /** A day of the month is a Friday exactly when it is a whole number of weeks
      after the first Friday. */
  lemma FridayIffWeeksAfterFirst(y: int, m: int, k: int)
    requires 0 <= m < 12
    ensures Weekday(Date(y, m, k)) == Friday <==> (k - FirstFridayDay(y, m)) % 7 == 0
  {
    WeekdayInMonth(y, m, k);
    FridayCongruence(Weekday(Date(y, m, 1)), k);
  }

  /** First loop of `getFridaysOfMonth`: step one day at a time until a Friday,
      giving up as soon as the month changes. */
  function ScanToFriday(d: Date, month: int): (r: Option<Date>)
    requires Valid(d) && d.month == month
    ensures r.Some? ==> Valid(r.value) && r.value.year == d.year && r.value.month == month
    ensures r.Some? ==> d.day <= r.value.day && Weekday(r.value) == Friday
    decreases DaysInMonth(d.year, d.month) - d.day
  {
    if Weekday(d) == Friday then Some(d)
    else
      var next := AddDays(d, 1);
      AddDaysShortStep(d, 1);
      if next.month != month then None
      else ScanToFriday(next, month)
  }

  /** The scan stops at the first Friday on or after `d` (weekdays repeat every
      seven days), and fails only when that day is past the end of the month. */
  lemma {:induction false} ScanToFridayClosedForm(d: Date, month: int)
    requires Valid(d) && d.month == month
    ensures var target := d.day + (Friday - Weekday(d)) % 7;
      ScanToFriday(d, month) == if target <= DaysInMonth(d.year, month) then Some(Date(d.year, month, target)) else None
    decreases DaysInMonth(d.year, d.month) - d.day
  {
    var w := Weekday(d);
    if w != Friday {
      DaysToFridayStep(w);
      AddDaysShortStep(d, 1);
      if d.day + 1 <= DaysInMonth(d.year, month) {
        var next := Date(d.year, month, d.day + 1);
        assert AddDays(d, 1) == next;
        WeekdayNextDay(d.year, month, d.day);
        assert Weekday(next) == (w + 1) % 7;
        ScanToFridayClosedForm(next, month);
      }
    }
  }

  /** Second loop of `getFridaysOfMonth`: record the date and step a week at a
      time while the month is unchanged. */
  function FridaysFrom(d: Date, month: int): (r: seq<Date>)
    requires Valid(d)
    ensures d.month != month <==> r == []
    ensures d.month == month ==> r[0] == d
    decreases if d.month == month then DaysInMonth(d.year, d.month) - d.day + 1 else 0
  {
    if d.month != month then []
    else
      var next := AddDays(d, 7);
      AddDaysShortStep(d, 7);
      [d] + FridaysFrom(next, month)
  }

  /** The dates recorded from a day of the month are that day and the days a
      whole number of weeks later, up to the end of the month. */
  lemma {:induction false} FridaysFromClosedForm(d: Date, month: int)
    requires Valid(d) && d.month == month
    ensures var r := FridaysFrom(d, month);
      && |r| >= 1
      && (forall i :: 0 <= i < |r| ==> r[i] == Date(d.year, month, d.day + 7 * i))
      && d.day + 7 * (|r| - 1) <= DaysInMonth(d.year, month) < d.day + 7 * |r|
    decreases DaysInMonth(d.year, d.month) - d.day
  {
    var next := AddDays(d, 7);
    AddDaysShortStep(d, 7);
    var r := FridaysFrom(d, month);
    var rest := FridaysFrom(next, month);
    assert r == [d] + rest;
    assert r[0] == Date(d.year, month, d.day + 7 * 0);
    if d.day + 7 <= DaysInMonth(d.year, month) {
      assert next == Date(d.year, month, d.day + 7);
      FridaysFromClosedForm(next, month);
      forall i | 0 <= i < |r|
        ensures r[i] == Date(d.year, month, d.day + 7 * i)
      {
        if i > 0 {
          assert r[i] == rest[i - 1];
          assert rest[i - 1] == Date(d.year, month, next.day + 7 * (i - 1));
          assert next.day + 7 * (i - 1) == d.day + 7 * i;
        }
      }
    } else {
      assert |r| == 1;
    }
  }

  /** `getFridaysOfMonth(year, month)`: every Friday of the month, in order.
      A month outside 0..11 never matches `getUTCMonth`, so nothing is returned. */
  function FridaysOfMonth(year: int, month: int): (r: seq<Date>)
    ensures !(0 <= month < 12) ==> r == []
    ensures 0 <= month < 12 ==>
      var y := UtcYear(year);
      var first := FirstFridayDay(y, month);
      && 4 <= |r| <= 5
      && (forall i :: 0 <= i < |r| ==> r[i] == Date(y, month, first + 7 * i))
      && first + 7 * (|r| - 1) <= DaysInMonth(y, month) < first + 7 * |r|
  {
    if !(0 <= month < 12) then []
    else
      var start := Date(UtcYear(year), month, 1);
      ScanToFridayClosedForm(start, month);
      match ScanToFriday(start, month)
      case None => []
      case Some(f) => FridaysFromClosedForm(f, month); FridaysFrom(f, month)
  }

  /** Every returned date is a valid Friday of the requested month, in the year
      `Date.UTC` reads (the requested one for years outside 0..99). */
  lemma {:induction false} FridaysOfMonthAreFridaysOfTheMonth(year: int, month: int)
    ensures forall i :: 0 <= i < |FridaysOfMonth(year, month)| ==>
      var d := FridaysOfMonth(year, month)[i];
      && Valid(d) && d.year == UtcYear(year) && d.month == month && Weekday(d) == Friday
    ensures !(0 <= year <= 99) ==>
      forall i :: 0 <= i < |FridaysOfMonth(year, month)| ==> FridaysOfMonth(year, month)[i].year == year
  {
    var r := FridaysOfMonth(year, month);
    if 0 <= month < 12 {
      forall i | 0 <= i < |r|
        ensures Valid(r[i]) && r[i].year == UtcYear(year) && r[i].month == month && Weekday(r[i]) == Friday
      {
        FridayOfMonthAt(year, month, i);
      }
    }
  }

  /** The `i`-th result is a valid Friday of the month. */
  lemma FridayOfMonthAt(year: int, month: int, i: nat)
    requires 0 <= month < 12 && i < |FridaysOfMonth(year, month)|
    ensures var d := FridaysOfMonth(year, month)[i];
      Valid(d) && d.year == UtcYear(year) && d.month == month && Weekday(d) == Friday
  {
    FridayOfMonthDay(year, month, i);
    FridayWeeksAfterFirst(UtcYear(year), month, i);
  }

  /** The `i`-th result is the day `i` weeks after the first Friday. */
  lemma FridayOfMonthDay(year: int, month: int, i: nat)
    requires 0 <= month < 12 && i < |FridaysOfMonth(year, month)|
    ensures var k := FirstFridayDay(UtcYear(year), month) + 7 * i;
      FridaysOfMonth(year, month)[i] == Date(UtcYear(year), month, k)
      && 1 <= k <= DaysInMonth(UtcYear(year), month)
  {
    var r := FridaysOfMonth(year, month);
    assert 7 * i <= 7 * (|r| - 1);
  }

  /** Whole weeks after the first Friday fall on a Friday. */
  lemma FridayWeeksAfterFirst(y: int, m: int, i: nat)
    requires 0 <= m < 12
    ensures Weekday(Date(y, m, FirstFridayDay(y, m) + 7 * i)) == Friday
  {
    var f := FirstFridayDay(y, m);
    FridayIffWeeksAfterFirst(y, m, f + 7 * i);
    WholeWeeks(f, i);
  }

  lemma WholeWeeks(f: int, i: int)
    ensures ((f + 7 * i) - f) % 7 == 0
  {
    var k := (f + 7 * i) - f;
    assert k == 7 * i;
    assert k / 7 == i by {
      assert 7 * i + 0 == k;
    }
  }

  /** Consecutive results are exactly one week apart, so the list is strictly increasing. */
  lemma {:induction false} FridaysOfMonthWeekApart(year: int, month: int)
    ensures forall i :: 0 <= i < |FridaysOfMonth(year, month)| - 1 ==>
      DayNumber(FridaysOfMonth(year, month)[i + 1]) == DayNumber(FridaysOfMonth(year, month)[i]) + 7
    ensures forall i, j :: 0 <= i < j < |FridaysOfMonth(year, month)| ==>
      DayNumber(FridaysOfMonth(year, month)[i]) < DayNumber(FridaysOfMonth(year, month)[j])
  {
  }

  /** Every Friday of the month is listed, and none is listed before the first. */
  lemma {:induction false} FridaysOfMonthComplete(year: int, month: int, k: int)
    requires 0 <= month < 12
    requires 1 <= k <= DaysInMonth(UtcYear(year), month)
    requires Weekday(Date(UtcYear(year), month, k)) == Friday
    ensures Date(UtcYear(year), month, k) in FridaysOfMonth(year, month)
    ensures FridaysOfMonth(year, month)[0].day <= k
  {
    var y := UtcYear(year);
    var r := FridaysOfMonth(year, month);
    var f := FirstFridayDay(y, month);
    FridayIffWeeksAfterFirst(y, month, k);
    var j := (k - f) / 7;
    assert k - f == 7 * j;
    assert j >= 0;
    assert j < |r|;
    assert r[j] == Date(y, month, k);
  }
}

=== FILE: common.dfy ===
/**
 * Shared vocabulary of the model: optional values and results, the designated
 * administrator id, a generic filter, and the handful of JavaScript string
 * operations the application relies on (split/join, trim, lower-casing,
 * prefix and substring tests, code-unit ordering of names).
 */
module Common {

  /** `undefined`/absent versus a present value. */
  datatype Option<T> = None | Some(value: T)

  /** Outcome of an action: a value, or the error the action reports. */
  datatype Result<T, E> = Ok(value: T) | Err(error: E)

  /** The id several actions treat as "the" administrator. */
  const MainAdminId: string := "admin-1"

  // ---------------------------------------------------------------------------
  // Sequences
  // ---------------------------------------------------------------------------

  /** `Array.prototype.filter`: keeps, in order, the elements satisfying `p`. */
  function Filter<T(!new)>(s: seq<T>, p: T -> bool): (r: seq<T>)
    ensures |r| <= |s|
    ensures forall x :: x in r <==> x in s && p(x)
    decreases |s|
  {
    if |s| == 0 then []
    else
      var rest := Filter(s[1..], p);
      assert s == [s[0]] + s[1..];
      if p(s[0]) then [s[0]] + rest else rest
  }

  /** Filtering twice with the same predicate changes nothing the second time. */
  lemma {:induction false} FilterIdempotent<T(!new)>(s: seq<T>, p: T -> bool)
    ensures Filter(Filter(s, p), p) == Filter(s, p)
    decreases |s|
  {
    if |s| > 0 {
      FilterIdempotent(s[1..], p);
      if p(s[0]) {
        var f := Filter(s, p);
        assert f[0] == s[0] && f[1..] == Filter(s[1..], p);
      }
    }
  }

  /** Filtering depends only on the predicate's values on the sequence's elements. */
  lemma {:induction false} FilterCongruent<T(!new)>(s: seq<T>, p: T -> bool, q: T -> bool)
    requires forall x :: x in s ==> p(x) == q(x)
    ensures Filter(s, p) == Filter(s, q)
    decreases |s|
  {
    if |s| > 0 {
      FilterCongruent(s[1..], p, q);
    }
  }

  /** Filtering by `p` and then by `q` keeps what satisfies both. */
  lemma {:induction false} FilterFilter<T(!new)>(s: seq<T>, p: T -> bool, q: T -> bool, both: T -> bool)
    requires forall x :: both(x) == (p(x) && q(x))
    ensures Filter(Filter(s, p), q) == Filter(s, both)
    decreases |s|
  {
    if |s| > 0 {
      FilterFilter(s[1..], p, q, both);
      if p(s[0]) {
        var f := Filter(s, p);
        assert f[0] == s[0] && f[1..] == Filter(s[1..], p);
      }
    }
  }

  /** Filtering keeps everything when every element satisfies the predicate. */
  lemma {:induction false} FilterKeepsAll<T(!new)>(s: seq<T>, p: T -> bool)
    requires forall x :: x in s ==> p(x)
    ensures Filter(s, p) == s
    decreases |s|
  {
    if |s| > 0 {
      FilterKeepsAll(s[1..], p);
      assert s == [s[0]] + s[1..];
    }
  }

  lemma FilterCons<T(!new)>(a: T, u: seq<T>, p: T -> bool)
    ensures Filter([a] + u, p) == if p(a) then [a] + Filter(u, p) else Filter(u, p)
  {
    assert ([a] + u)[1..] == u;
  }

  /** Filtering a sequence with one more element at the end. */
  lemma {:induction false} FilterAppend<T(!new)>(s: seq<T>, x: T, p: T -> bool)
    ensures Filter(s + [x], p) == Filter(s, p) + (if p(x) then [x] else [])
    decreases |s|
  {
    if |s| == 0 {
      FilterCons(x, [], p);
      assert s + [x] == [x] + [];
    } else {
      var u := s[1..] + [x];
      assert s + [x] == [s[0]] + u;
      assert s == [s[0]] + s[1..];
      FilterCons(s[0], u, p);
      FilterCons(s[0], s[1..], p);
      FilterAppend(s[1..], x, p);
    }
  }

  /** No element occurs twice. */
  predicate Distinct<T(==)>(s: seq<T>) {
    forall i, j :: 0 <= i < j < |s| ==> s[i] != s[j]
  }

  /** Concatenation regroups freely. */
  lemma ConcatAssoc<T>(a: seq<T>, b: seq<T>, c: seq<T>)
    ensures a + b + c == a + (b + c)
  {
  }

  /** Peeling the first element off a distinct sequence: the rest is distinct
      and does not contain it. */
  lemma DistinctTail<T>(s: seq<T>)
    requires |s| > 0 && Distinct(s)
    ensures Distinct(s[1..]) && s[0] !in s[1..]
  {
    forall k | 0 <= k < |s| - 1
      ensures s[1..][k] != s[0]
    {
      assert s[1..][k] == s[k + 1];
    }
  }

  // ---------------------------------------------------------------------------
  // Characters and digits
  // ---------------------------------------------------------------------------

  /** JavaScript's `\d`: an ASCII decimal digit. */
  predicate IsDigit(c: char) {
    '0' <= c <= '9'
  }

  /** `/^\d*$/`: every character is a digit (the empty string qualifies). */
  predicate AllDigits(s: string) {
    forall i :: 0 <= i < |s| ==> IsDigit(s[i])
  }

  /** Numeric value of a run of decimal digits (leading zeros allowed). */
  function DecimalValue(s: string): (n: nat)
    requires AllDigits(s)
    ensures |s| == 1 ==> n == (s[0] as int) - ('0' as int)
    decreases |s|
  {
    if |s| == 0 then 0
    else DecimalValue(s[..|s| - 1]) * 10 + ((s[|s| - 1] as int) - ('0' as int))
  }

  /** `String(n)` for a natural number: its decimal digits without leading zeros. */
  function DecimalString(n: nat): (s: string)
    ensures |s| >= 1 && AllDigits(s)
    ensures DecimalValue(s) == n
    decreases n
  {
    var last := [(('0' as int) + n % 10) as char];
    if n < 10 then last
    else
      var init := DecimalString(n / 10);
      assert (init + last)[..|init|] == init;
      init + last
  }

  /** A digit string whose first digit is not '0' is at least 10^(|s|-1), so two
      or more such digits exceed 5. */
  lemma {:induction false} DecimalValueAtLeastFirstDigit(s: string)
    requires AllDigits(s) && |s| >= 1
    ensures DecimalValue(s) >= (s[0] as int) - ('0' as int)
    ensures |s| >= 2 && s[0] != '0' ==> DecimalValue(s) >= 10
    decreases |s|
  {
    if |s| >= 2 {
      var init := s[..|s| - 1];
      assert init[0] == s[0];
      DecimalValueAtLeastFirstDigit(init);
    }
  }

  // ---------------------------------------------------------------------------
  // Prefixes and substrings
  // ---------------------------------------------------------------------------

  /** `String.prototype.startsWith`. */
  predicate StartsWith(s: string, prefix: string) {
    |prefix| <= |s| && s[..|prefix|] == prefix
  }

  /** `String.prototype.endsWith`. */
  predicate EndsWith(s: string, suffix: string) {
    |suffix| <= |s| && s[|s| - |suffix|..] == suffix
  }

  /** `sub` occurs in `s` starting at index `i`. */
  predicate OccursAt(s: string, sub: string, i: int) {
    0 <= i && i + |sub| <= |s| && s[i..i + |sub|] == sub
  }

  /** `String.prototype.indexOf`: the first index at which `sub` occurs. */
  function IndexOf(s: string, sub: string): (r: Option<nat>)
    ensures r.Some? ==> OccursAt(s, sub, r.value)
    ensures r.Some? ==> forall j :: 0 <= j < r.value ==> !OccursAt(s, sub, j)
    ensures r.None? ==> forall j :: !OccursAt(s, sub, j)
    decreases |s|
  {
    if |sub| > |s| then None
    else if s[..|sub|] == sub then Some(0)
    else
      OccursAtTail(s, sub);
      match IndexOf(s[1..], sub)
      case None => None
      case Some(i) => Some(i + 1)
  }

  /** An occurrence after the first character is an occurrence in the rest. */
  lemma OccursAtTail(s: string, sub: string)
    requires |s| > 0
    ensures forall j :: j >= 1 ==> (OccursAt(s, sub, j) <==> OccursAt(s[1..], sub, j - 1))
  {
    forall j | j >= 1
      ensures OccursAt(s, sub, j) <==> OccursAt(s[1..], sub, j - 1)
    {
      if j + |sub| <= |s| {
        var here, there := s[j..j + |sub|], s[1..][j - 1..j - 1 + |sub|];
        assert forall k :: 0 <= k < |sub| ==> here[k] == there[k];
        assert here == there;
      }
    }
  }

  /** `String.prototype.includes`. */
  predicate Contains(s: string, sub: string) {
    IndexOf(s, sub).Some?
  }

  lemma ContainsIffOccurs(s: string, sub: string)
    ensures Contains(s, sub) <==> exists i :: OccursAt(s, sub, i)
  {
    if Contains(s, sub) {
      assert OccursAt(s, sub, IndexOf(s, sub).value);
    }
  }

  // ---------------------------------------------------------------------------
  // Split and join
  // ---------------------------------------------------------------------------

  /** `String.prototype.split` with a non-empty separator: cuts at every
      left-to-right, non-overlapping occurrence of `sep`. */
  function Split(s: string, sep: string): (parts: seq<string>)
    requires |sep| > 0
    ensures |parts| >= 1
    decreases |s|
  {
    match IndexOf(s, sep)
    case None => [s]
    case Some(i) => [s[..i]] + Split(s[i + |sep|..], sep)
  }

  /** `Array.prototype.join`. */
  function Join(parts: seq<string>, sep: string): string
    decreases |parts|
  {
    if |parts| == 0 then ""
    else if |parts| == 1 then parts[0]
    else parts[0] + sep + Join(parts[1..], sep)
  }

  /** Joining a head before at least one more part puts the separator between. */
  lemma JoinCons(head: string, rest: seq<string>, sep: string)
    requires |rest| >= 1
    ensures Join([head] + rest, sep) == head + sep + Join(rest, sep)
  {
    assert ([head] + rest)[1..] == rest;
  }

  /** Joining the pieces of a split with the same separator restores the string. */
  lemma {:induction false} JoinSplit(s: string, sep: string)
    requires |sep| > 0
    ensures Join(Split(s, sep), sep) == s
    decreases |s|
  {
    match IndexOf(s, sep)
    case None =>
    case Some(i) =>
      var head := s[..i];
      var tail := s[i + |sep|..];
      JoinSplit(tail, sep);
      var rest := Split(tail, sep);
      assert Split(s, sep) == [head] + rest;
      JoinAround(s, sep, i, rest);
  }

  /** Re-inserting the separator at an occurrence of it restores the string. */
  lemma JoinAround(s: string, sep: string, i: nat, rest: seq<string>)
    requires OccursAt(s, sep, i) && |rest| >= 1 && Join(rest, sep) == s[i + |sep|..]
    ensures Join([s[..i]] + rest, sep) == s
  {
    JoinCons(s[..i], rest, sep);
    ThreeWaySplit(s, i, i + |sep|);
  }

  lemma ThreeWaySplit(s: string, i: nat, j: nat)
    requires i <= j <= |s|
    ensures s == s[..i] + s[i..j] + s[j..]
  {
  }

  /** No piece of a split contains the separator. */
  lemma {:induction false} SplitPiecesAvoidSeparator(s: string, sep: string)
    requires |sep| > 0
    ensures forall k :: 0 <= k < |Split(s, sep)| ==> !Contains(Split(s, sep)[k], sep)
    decreases |s|
  {
    match IndexOf(s, sep)
    case None =>
    case Some(i) =>
      var tail := s[i + |sep|..];
      SplitPiecesAvoidSeparator(tail, sep);
      var head := s[..i];
      forall j | OccursAt(head, sep, j)
        ensures false
      {
        OccursInPrefix(s, i, sep, j);
      }
      ContainsIffOccurs(head, sep);
  }

  /** An occurrence in a prefix is an occurrence in the whole string. */
  lemma OccursInPrefix(s: string, n: nat, sub: string, j: int)
    requires n <= |s| && OccursAt(s[..n], sub, j)
    ensures OccursAt(s, sub, j)
  {
    assert s[j..j + |sub|] == s[..n][j..j + |sub|];
  }

  /** With a one-character separator that no piece contains, split undoes join. */
  lemma {:induction false} SplitJoinSingle(parts: seq<string>, c: char)
    requires |parts| >= 1
    requires forall k :: 0 <= k < |parts| ==> c !in parts[k]
    ensures Split(Join(parts, [c]), [c]) == parts
    decreases |parts|
  {
    var s := Join(parts, [c]);
    if |parts| > 1 {
      var p0 := parts[0];
      var rest := parts[1..];
      var tail := Join(rest, [c]);
      assert s == p0 + [c] + tail;
      assert OccursAt(s, [c], |p0|);
      forall j | 0 <= j < |p0|
        ensures !OccursAt(s, [c], j)
      {
        assert s[j] == p0[j];
        assert s[j] == s[j..j + 1][0];
      }
      var i := IndexOf(s, [c]).value;
      assert i == |p0|;
      assert s[..i] == p0;
      assert s[i + 1..] == tail;
      assert Split(s, [c]) == [p0] + Split(tail, [c]);
      SplitJoinSingle(rest, c);
      assert parts == [p0] + rest;
    } else {
      NoCharNoOccurrence(s, c);
    }
  }

  /** A string without the character `c` has no occurrence of `[c]`. */
  lemma NoCharNoOccurrence(s: string, c: char)
    requires c !in s
    ensures IndexOf(s, [c]).None?
  {
    forall j | 0 <= j < |s|
      ensures !OccursAt(s, [c], j)
    {
      assert s[j] in s;
      assert s[j..j + 1] == [s[j]];
    }
  }

  // ---------------------------------------------------------------------------
  // Whitespace trimming and lower-casing
  // ---------------------------------------------------------------------------

  /** The characters `String.prototype.trim` removes: ECMAScript WhiteSpace and
      LineTerminator code points. */
  predicate IsJsWhitespace(c: char) {
    c == ' ' || c == '\t' || c == '\n' || c == '\r' || c == '\U{000B}' || c == '\U{000C}'
    || c == '\U{00A0}' || c == '\U{1680}' || ('\U{2000}' <= c <= '\U{200A}')
    || c == '\U{2028}' || c == '\U{2029}' || c == '\U{202F}' || c == '\U{205F}'
    || c == '\U{3000}' || c == '\U{FEFF}'
  }

  function TrimStart(s: string): (r: string)
    ensures |r| <= |s| && r == s[|s| - |r|..]
    ensures forall i {:trigger IsJsWhitespace(s[i])} :: 0 <= i < |s| - |r| ==> IsJsWhitespace(s[i])
    ensures |r| > 0 ==> !IsJsWhitespace(r[0])
    decreases |s|
  {
    if |s| > 0 && IsJsWhitespace(s[0]) then TrimStart(s[1..]) else s
  }

  function TrimEnd(s: string): (r: string)
    ensures |r| <= |s| && r == s[..|r|]
    ensures forall i {:trigger IsJsWhitespace(s[i])} :: |r| <= i < |s| ==> IsJsWhitespace(s[i])
    ensures |r| > 0 ==> !IsJsWhitespace(r[|r| - 1])
    decreases |s|
  {
    if |s| > 0 && IsJsWhitespace(s[|s| - 1]) then TrimEnd(s[..|s| - 1]) else s
  }

  /** `r` occurs in `s` as the infix starting at index `i`. */
  predicate InfixAt(r: string, s: string, i: int) {
    0 <= i && i + |r| <= |s| && s[i..i + |r|] == r
  }

  /** Every character is whitespace. */
  predicate AllWhitespace(s: string) {
    forall i {:trigger IsJsWhitespace(s[i])} :: 0 <= i < |s| ==> IsJsWhitespace(s[i])
  }

  /** `String.prototype.trim`: drops leading and trailing whitespace only. */
  function Trim(s: string): (r: string)
    ensures |r| > 0 ==> !IsJsWhitespace(r[0]) && !IsJsWhitespace(r[|r| - 1])
    ensures exists i :: InfixAt(r, s, i)
    ensures AllWhitespace(s) <==> r == ""
  {
    TrimInfix(s);
    TrimBlank(s);
    TrimEnd(TrimStart(s))
  }

  lemma TrimInfix(s: string)
    ensures InfixAt(TrimEnd(TrimStart(s)), s, |s| - |TrimStart(s)|)
  {
    PrefixOfSuffixIsInfix(s, TrimStart(s), TrimEnd(TrimStart(s)));
  }

  lemma PrefixOfSuffixIsInfix(s: string, t: string, r: string)
    requires |t| <= |s| && t == s[|s| - |t|..]
    requires |r| <= |t| && r == t[..|r|]
    ensures InfixAt(r, s, |s| - |t|)
  {
    var d := |s| - |t|;
    forall k | 0 <= k < |r|
      ensures s[d + k] == r[k]
    {
      assert r[k] == t[k] && t[k] == s[d + k];
    }
    assert s[d..d + |r|] == r;
  }

  lemma TrimBlank(s: string)
    ensures AllWhitespace(s) <==> TrimEnd(TrimStart(s)) == ""
  {
    var t := TrimStart(s);
    var r := TrimEnd(t);
    var d := |s| - |t|;
    assert forall i :: d <= i < |s| ==> s[i] == t[i - d];
    if r == "" {
      // `t` starts with a non-blank, so trimming its end leaves something
      if |t| > 0 {
        assert false;
      }
      assert d == |s|;
    }
    assert |t| > 0 ==> t[0] == s[d] && !IsJsWhitespace(s[d]);
  }

  predicate IsUpperAscii(c: char) {
    'A' <= c <= 'Z'
  }

  function LowerChar(c: char): (d: char)
    ensures !IsUpperAscii(d)
    ensures IsUpperAscii(c) ==> (d as int) == (c as int) + 32
    ensures !IsUpperAscii(c) ==> d == c
  {
    if IsUpperAscii(c) then ((c as int) + 32) as char else c
  }

  /** `String.prototype.toLowerCase`, restricted to the ASCII letters. */
  function LowerAscii(s: string): (r: string)
    ensures |r| == |s|
    ensures forall i :: 0 <= i < |r| ==> r[i] == LowerChar(s[i])
  {
    seq(|s|, i requires 0 <= i < |s| => LowerChar(s[i]))
  }

  /** Lower-casing neither creates nor removes whitespace. */
  lemma LowerCharKeepsWhitespace(c: char)
    ensures IsJsWhitespace(LowerChar(c)) <==> IsJsWhitespace(c)
  {
    if IsUpperAscii(c) {
      assert 'a' <= LowerChar(c) <= 'z';
    }
  }

  lemma LowerAsciiKeepsEndWhitespace(s: string)
    requires |s| > 0
    ensures IsJsWhitespace(LowerAscii(s)[0]) <==> IsJsWhitespace(s[0])
    ensures IsJsWhitespace(LowerAscii(s)[|s| - 1]) <==> IsJsWhitespace(s[|s| - 1])
  {
    LowerCharKeepsWhitespace(s[0]);
    LowerCharKeepsWhitespace(s[|s| - 1]);
  }

  /** Lower-casing a string that has no ASCII capitals leaves it unchanged. */
  lemma LowerAsciiFixesLower(s: string)
    requires forall i :: 0 <= i < |s| ==> !IsUpperAscii(s[i])
    ensures LowerAscii(s) == s
  {
  }

  // ---------------------------------------------------------------------------
  // Ordering of names
  // ---------------------------------------------------------------------------

  /** Lexicographic order on strings by character code (the comparison the model
      uses for `localeCompare`). */
  predicate LexLe(a: string, b: string)
    decreases |a|
  {
    if |a| == 0 then true
    else if |b| == 0 then false
    else if a[0] < b[0] then true
    else if a[0] > b[0] then false
    else LexLe(a[1..], b[1..])
  }

  lemma {:induction false} LexLeTotal(a: string, b: string)
    ensures LexLe(a, b) || LexLe(b, a)
    decreases |a|
  {
    if |a| > 0 && |b| > 0 && a[0] == b[0] {
      LexLeTotal(a[1..], b[1..]);
    }
  }

  lemma {:induction false} LexLeTransitive(a: string, b: string, c: string)
    requires LexLe(a, b) && LexLe(b, c)
    ensures LexLe(a, c)
    decreases |a|
  {
    if |a| > 0 && |b| > 0 && |c| > 0 && a[0] == b[0] == c[0] {
      LexLeTransitive(a[1..], b[1..], c[1..]);
    }
  }

  lemma {:induction false} LexLeAntisymmetric(a: string, b: string)
    requires LexLe(a, b) && LexLe(b, a)
    ensures a == b
    decreases |a|
  {
    if |a| > 0 {
      LexLeAntisymmetric(a[1..], b[1..]);
      assert a == [a[0]] + a[1..] && b == [b[0]] + b[1..];
    }
  }
}

=== FILE: directmessages.dfy ===
/**
 * Direct messages between users and the administrator
 * (src/app/actions/directMessages.ts): routing of a new message, the
 * conversation between two parties, the unread count, which messages a
 * read-marking selects and its write (as written and as intended), replies to
 * the administrator, and the administrator's per-user grouping of
 * conversations.
 *
 * The `directMessages` collection is a sequence in key order; users are the
 * `users` collection's values. Timestamps are milliseconds.
 */
module DirectMessages {
  import opened Common
  import opened Sorting
  import opened Types

  datatype DirectMessage = DirectMessage(
    id: string,
    senderId: string,
    recipientId: string,
    message: string,
    timestamp: int,
    read: bool,
    isReply: bool)    // sent by a user to the administrator

  datatype MessageField = RecipientField | MessageTextField

  datatype MessageError =
    | NotAuthenticated                       // the sender is not a stored user
    | InvalidFields(fields: set<MessageField>)
    | NotAuthorized                          // replying as an unknown user or an administrator
    | EmptyReply

  /** Oldest first. */
  predicate OldestFirst(a: DirectMessage, b: DirectMessage) {
    a.timestamp <= b.timestamp
  }

  lemma OldestFirstIsPreorder()
    ensures TotalPreorder(OldestFirst)
  {
  }

  // ---------------------------------------------------------------------------
  // getDirectMessagesForUserAction
  // ---------------------------------------------------------------------------

  /** The message goes from one party to the other, in either direction. */
  function Between(a: string, b: string): DirectMessage -> bool {
    (m: DirectMessage) => (m.senderId == a && m.recipientId == b) || (m.senderId == b && m.recipientId == a)
  }

  /** `getDirectMessagesForUserAction`: the messages between the two parties,
      oldest first. */
  function Conversation(dms: seq<DirectMessage>, userId: string, contactId: string): (r: seq<DirectMessage>)
    ensures forall m :: m in r <==> m in dms && Between(userId, contactId)(m)
    ensures multiset(r) == multiset(Filter(dms, Between(userId, contactId)))
    ensures SortedBy(r, OldestFirst)
  {
    OldestFirstIsPreorder();
    var mine := Filter(dms, Between(userId, contactId));
    assert forall m :: m in multiset(mine) <==> m in mine;
    SortBy(mine, OldestFirst)
  }

  /** Both parties see the same conversation. */
  lemma ConversationSymmetric(dms: seq<DirectMessage>, a: string, b: string)
    ensures Conversation(dms, a, b) == Conversation(dms, b, a)
  {
    FilterCongruent(dms, Between(a, b), Between(b, a));
  }

  // ---------------------------------------------------------------------------
  // getUnreadMessagesCountAction
  // ---------------------------------------------------------------------------

  function AddressedTo(userId: string): DirectMessage -> bool {
    (m: DirectMessage) => m.recipientId == userId
  }

  function IsUnread(m: DirectMessage): bool {
    !m.read
  }

  function UnreadFor(userId: string): DirectMessage -> bool {
    (m: DirectMessage) => m.recipientId == userId && !m.read
  }

  /** `getUnreadMessagesCountAction`: the messages addressed to the user
      (the query), of which the unread ones are counted. */
  function UnreadCount(dms: seq<DirectMessage>, userId: string): (n: nat)
    ensures n == |Filter(dms, UnreadFor(userId))|
    ensures n <= |Filter(dms, AddressedTo(userId))|
  {
    FilterFilter(dms, AddressedTo(userId), IsUnread, UnreadFor(userId));
    |Filter(Filter(dms, AddressedTo(userId)), IsUnread)|
  }

  /** The count is zero exactly when no unread message is addressed to the user. */
  lemma UnreadCountZero(dms: seq<DirectMessage>, userId: string)
    ensures UnreadCount(dms, userId) == 0 <==> forall m :: m in dms ==> m.recipientId != userId || m.read
  {
    var f := Filter(dms, UnreadFor(userId));
    if |f| > 0 {
      assert f[0] in f;
    }
  }

  // ---------------------------------------------------------------------------
  // markMessagesAsReadAction (the selection)
  // ---------------------------------------------------------------------------

  function UnreadFrom(userId: string, contactId: string): DirectMessage -> bool {
    (m: DirectMessage) => m.recipientId == userId && m.senderId == contactId && !m.read
  }

  function IdsOf(dms: seq<DirectMessage>): (r: seq<string>)
    ensures |r| == |dms| && forall i :: 0 <= i < |dms| ==> r[i] == dms[i].id
  {
    seq(|dms|, i requires 0 <= i < |dms| => dms[i].id)
  }

  /** The selection of `markMessagesAsReadAction`: the keys of the unread
      messages the contact sent the user, in key order, and whether there is
      anything to mark. */
  function ReadMarking(dms: seq<DirectMessage>, userId: string, contactId: string): (r: (seq<string>, bool))
    ensures forall k :: k in r.0 <==> exists m :: m in dms && m.id == k && UnreadFrom(userId, contactId)(m)
    ensures r.1 <==> |r.0| > 0
  {
    var selected := Filter(dms, UnreadFrom(userId, contactId));
    var keys := IdsOf(selected);
    assert forall k :: k in keys ==> exists i :: 0 <= i < |selected| && selected[i].id == k;
    assert forall m :: m in selected ==> exists i :: 0 <= i < |selected| && selected[i] == m && keys[i] == m.id;
    (keys, |keys| > 0)
  }

  /** Read-marking selects messages from the conversation that the unread count
      counts, so it succeeds only when the count is positive. */
  lemma ReadMarkingWithinUnread(dms: seq<DirectMessage>, userId: string, contactId: string)
    ensures ReadMarking(dms, userId, contactId).1 ==> UnreadCount(dms, userId) > 0
    ensures forall m :: m in dms && UnreadFrom(userId, contactId)(m) ==>
      m in Conversation(dms, userId, contactId) && m.id in ReadMarking(dms, userId, contactId).0
  {
    var r := ReadMarking(dms, userId, contactId);
    if r.1 {
      assert r.0[0] in r.0;
      var m :| m in dms && m.id == r.0[0] && UnreadFrom(userId, contactId)(m);
      assert UnreadFor(userId)(m);
      assert m in Filter(dms, UnreadFor(userId));
    }
  }

  // ---------------------------------------------------------------------------
  // markMessagesAsReadAction (the write)
  // ---------------------------------------------------------------------------

  /** A key the Realtime Database client accepts inside a value given to `set`:
      non-empty, with no `.`, `#`, `$`, `[`, `]`, `/` or control character. */
  predicate IsValidKey(k: string) {
    |k| > 0 && forall i :: 0 <= i < |k| ==> k[i] !in ".#$[]/" && k[i] as int >= 32 && k[i] as int != 127
  }

  /** The path-shaped key under which the action writes message `key`'s read flag. */
  function ReadFlagPath(key: string): string {
    "directMessages/" + key + "/read"
  }

  /** No read-flag path is a key `set` accepts: each holds a `/`. */
  lemma ReadFlagPathInvalid(key: string)
    ensures !IsValidKey(ReadFlagPath(key))
  {
    assert ReadFlagPath(key)[14] == '/';
  }

  /** `markMessagesAsReadAction` as written: the read flags go out in one `set`
      at the database root keyed by paths. The client accepts that value only
      when every key is valid, so whenever there is something to mark the
      action ends in its error branch: it reports failure and nothing is marked. */
  function MarkMessagesAsReadAsWritten(dms: seq<DirectMessage>, userId: string, contactId: string): (r: (seq<DirectMessage>, bool))
    ensures r == (dms, false)
  {
    var keys := ReadMarking(dms, userId, contactId).0;
    var accepted := forall i :: 0 <= i < |keys| ==> IsValidKey(ReadFlagPath(keys[i]));
    if |keys| == 0 then (dms, false)
    else
      ReadFlagPathInvalid(keys[0]);
      if accepted then (MarkMessagesAsRead(dms, userId, contactId).0, true) else (dms, false)
  }

  /** Message `m` after the read-marking: read when it is an unread message
      from the contact to the user, otherwise as it was. */
  function MarkedRead(m: DirectMessage, userId: string, contactId: string): DirectMessage {
    if UnreadFrom(userId, contactId)(m) then m.(read := true) else m
  }

  function MarkAll(dms: seq<DirectMessage>, userId: string, contactId: string): (r: seq<DirectMessage>)
    ensures |r| == |dms|
    ensures forall i :: 0 <= i < |dms| ==> r[i] == MarkedRead(dms[i], userId, contactId)
  {
    if |dms| == 0 then [] else [MarkedRead(dms[0], userId, contactId)] + MarkAll(dms[1..], userId, contactId)
  }

  /** `markMessagesAsReadAction` with the multi-path `update` that the comment
      on its write names: every unread message from the contact to the user
      becomes read, only the read flag changes, and success is reported
      exactly when there was something to mark. */
  function MarkMessagesAsRead(dms: seq<DirectMessage>, userId: string, contactId: string): (r: (seq<DirectMessage>, bool))
    ensures |r.0| == |dms|
    ensures forall i :: 0 <= i < |dms| ==>
      r.0[i] == dms[i].(read := r.0[i].read)
      && (r.0[i].read <==> dms[i].read || (dms[i].recipientId == userId && dms[i].senderId == contactId))
    ensures r.1 <==> ReadMarking(dms, userId, contactId).1
    ensures r.1 <==> exists m :: m in dms && UnreadFrom(userId, contactId)(m)
  {
    var keys := ReadMarking(dms, userId, contactId).0;
    assert |keys| > 0 ==> keys[0] in keys;
    (MarkAll(dms, userId, contactId), |keys| > 0)
  }

  /** After the marking nothing is left to mark, so a second call reports
      failure and changes nothing. */
  lemma MarkMessagesAsReadIdempotent(dms: seq<DirectMessage>, userId: string, contactId: string)
    ensures var once := MarkMessagesAsRead(dms, userId, contactId).0;
      MarkMessagesAsRead(once, userId, contactId) == (once, false)
  {
    var once := MarkMessagesAsRead(dms, userId, contactId).0;
    var twice := MarkMessagesAsRead(once, userId, contactId).0;
    assert twice == once;
  }

  /** The user's unread count drops by exactly the number of messages marked. */
  lemma {:induction false} MarkMessagesAsReadLowersUnreadCount(dms: seq<DirectMessage>, userId: string, contactId: string)
    ensures UnreadCount(MarkMessagesAsRead(dms, userId, contactId).0, userId)
      + |ReadMarking(dms, userId, contactId).0| == UnreadCount(dms, userId)
  {
    MarkAllUnreadCount(dms, userId, contactId);
  }

  lemma {:induction false} MarkAllUnreadCount(dms: seq<DirectMessage>, userId: string, contactId: string)
    ensures |Filter(MarkAll(dms, userId, contactId), UnreadFor(userId))|
      + |Filter(dms, UnreadFrom(userId, contactId))| == |Filter(dms, UnreadFor(userId))|
    decreases |dms|
  {
    if |dms| > 0 {
      MarkAllUnreadCount(dms[1..], userId, contactId);
      var marked := MarkAll(dms, userId, contactId);
      assert marked[1..] == MarkAll(dms[1..], userId, contactId);
    }
  }

  /** One unread message from the contact: the selection finds it and the
      intended action marks it, while the action as written reports failure
      and leaves it unread. */
  lemma MarkAsReadAsWrittenFailsOnUnreadMessage()
    ensures var dms := [DirectMessage("k", "bob", "ann", "hi", 0, false, false)];
      && ReadMarking(dms, "ann", "bob") == (["k"], true)
      && MarkMessagesAsReadAsWritten(dms, "ann", "bob") == (dms, false)
      && MarkMessagesAsRead(dms, "ann", "bob") == ([dms[0].(read := true)], true)
  {
    var dms := [DirectMessage("k", "bob", "ann", "hi", 0, false, false)];
    assert Filter(dms, UnreadFrom("ann", "bob")) == dms;
    assert IdsOf(dms) == ["k"];
    assert MarkAll(dms, "ann", "bob") == [dms[0].(read := true)];
  }

  // ---------------------------------------------------------------------------
  // sendDirectMessageAction, replyToAdminAction
  // ---------------------------------------------------------------------------

  /** The fields `SendDirectMessageSchema` rejects (`None` is a field not sent). */
  function MessageFormErrors(recipientUserId: Option<string>, message: Option<string>): (r: set<MessageField>)
    ensures RecipientField !in r <==> recipientUserId.Some? && recipientUserId.value != ""
    ensures MessageTextField !in r <==> message.Some? && message.value != ""
  {
    (if recipientUserId.Some? && recipientUserId.value != "" then {} else {RecipientField})
    + (if message.Some? && message.value != "" then {} else {MessageTextField})
  }

  /** `sendDirectMessageAction`: a stored sender's message is stored under the push
      key `key`, unread. A user's message always goes to the designated
      administrator as a reply; an administrator's goes to the chosen user. */
  function SendDirectMessage(dms: seq<DirectMessage>, users: seq<User>, senderId: string,
                             recipientUserId: Option<string>, message: Option<string>,
                             key: string, now: int): (r: Result<(seq<DirectMessage>, DirectMessage), MessageError>)
    ensures FindUser(users, senderId).None? ==> r == Err(NotAuthenticated)
    ensures FindUser(users, senderId).Some? ==>
      (r.Err? <==> MessageFormErrors(recipientUserId, message) != {})
      && (r.Err? ==> r.error == InvalidFields(MessageFormErrors(recipientUserId, message)))
    ensures r.Ok? ==>
      var (store, m) := r.value;
      var sender := FindUser(users, senderId).value;
      && store == dms + [m]
      && m.id == key && m.senderId == senderId && m.message == message.value && m.timestamp == now
      && !m.read
      && m.isReply == !sender.isAdmin
      && m.recipientId == (if sender.isAdmin then recipientUserId.value else MainAdminId)
  {
    var sender := FindUser(users, senderId);
    if sender.None? then Err(NotAuthenticated)
    else
      var errors := MessageFormErrors(recipientUserId, message);
      if errors != {} then Err(InvalidFields(errors))
      else
        var isReply := !sender.value.isAdmin;
        var recipient := if isReply then MainAdminId else recipientUserId.value;
        var m := DirectMessage(key, senderId, recipient, message.value, now, false, isReply);
        Ok((dms + [m], m))
  }

  /** `replyToAdminAction`: a stored non-admin user's non-blank message goes to the
      designated administrator as an unread reply. */
  function ReplyToAdmin(dms: seq<DirectMessage>, users: seq<User>, userId: string, message: string,
                        key: string, now: int): (r: Result<(seq<DirectMessage>, DirectMessage), MessageError>)
    ensures FindUser(users, userId).None? || FindUser(users, userId).value.isAdmin ==> r == Err(NotAuthorized)
    ensures FindUser(users, userId).Some? && !FindUser(users, userId).value.isAdmin ==>
      (r.Err? <==> Trim(message) == "") && (r.Err? ==> r.error == EmptyReply)
    ensures r.Ok? ==>
      r.value == (dms + [r.value.1], DirectMessage(key, userId, MainAdminId, message, now, false, true))
  {
    var user := FindUser(users, userId);
    if user.None? || user.value.isAdmin then Err(NotAuthorized)
    else if Trim(message) == "" then Err(EmptyReply)
    else
      var m := DirectMessage(key, userId, MainAdminId, message, now, false, true);
      Ok((dms + [m], m))
  }

  /** A reply is exactly what sending the same text as that user would store,
      whatever recipient the form named. */
  lemma ReplyIsSendFromUser(dms: seq<DirectMessage>, users: seq<User>, userId: string, message: string,
                            recipient: string, key: string, now: int)
    requires ReplyToAdmin(dms, users, userId, message, key, now).Ok?
    requires recipient != ""
    ensures SendDirectMessage(dms, users, userId, Some(recipient), Some(message), key, now)
      == ReplyToAdmin(dms, users, userId, message, key, now)
  {
  }

  /** A sent message joins the conversation between sender and recipient and
      adds one to the recipient's unread count. */
  lemma SentMessageIsDelivered(dms: seq<DirectMessage>, users: seq<User>, senderId: string,
                               recipientUserId: Option<string>, message: Option<string>, key: string, now: int)
    requires SendDirectMessage(dms, users, senderId, recipientUserId, message, key, now).Ok?
    ensures var (store, m) := SendDirectMessage(dms, users, senderId, recipientUserId, message, key, now).value;
      && m in Conversation(store, senderId, m.recipientId)
      && UnreadCount(store, m.recipientId) == UnreadCount(dms, m.recipientId) + 1
  {
    var (store, m) := SendDirectMessage(dms, users, senderId, recipientUserId, message, key, now).value;
    assert m in store;
    FilterAppend(dms, m, UnreadFor(m.recipientId));
  }

  // ---------------------------------------------------------------------------
  // getAllUserConversationsAction
  // ---------------------------------------------------------------------------

  /** The administrator's conversations with the given users: one entry per user
      with at least one message. */
  function GroupConversations(dms: seq<DirectMessage>, us: seq<User>, adminId: string): (r: map<string, seq<DirectMessage>>)
    ensures forall k :: k in r ==> r[k] == Conversation(dms, k, adminId) && |r[k]| > 0
    ensures forall u :: u in us && |Conversation(dms, u.id, adminId)| > 0 ==> u.id in r
    decreases |us|
  {
    if |us| == 0 then map[]
    else
      var rest := GroupConversations(dms, us[..|us| - 1], adminId);
      var u := us[|us| - 1];
      var c := Conversation(dms, u.id, adminId);
      assert forall v :: v in us ==> v in us[..|us| - 1] || v == u;
      if |c| > 0 then rest[u.id := c] else rest
  }

  /** Only the given users get an entry. */
  lemma {:induction false} GroupConversationsOnlyGiven(dms: seq<DirectMessage>, us: seq<User>, adminId: string)
    ensures forall k :: k in GroupConversations(dms, us, adminId) ==> exists u :: u in us && u.id == k
    decreases |us|
  {
    if |us| > 0 {
      var init := us[..|us| - 1];
      var last := us[|us| - 1];
      GroupConversationsOnlyGiven(dms, init, adminId);
      var rest := GroupConversations(dms, init, adminId);
      var g := GroupConversations(dms, us, adminId);
      assert g.Keys <= rest.Keys + {last.id};
      forall k | k in g
        ensures exists u :: u in us && u.id == k
      {
        if k in rest {
          var u :| u in init && u.id == k;
          assert u in us;
        } else {
          assert last in us && last.id == k;
        }
      }
    }
  }

  /** `getAllUserConversationsAction`: nothing for a caller who is not a stored
      administrator; otherwise the conversations with the non-admin users. */
  function AllUserConversations(dms: seq<DirectMessage>, users: seq<User>, adminId: string): (r: map<string, seq<DirectMessage>>)
    ensures FindUser(users, adminId).None? || !FindUser(users, adminId).value.isAdmin ==> r == map[]
    ensures forall k :: k in r ==> r[k] == Conversation(dms, k, adminId) && |r[k]| > 0
    ensures forall k :: k in r ==> exists u :: u in users && !u.isAdmin && u.id == k
  {
    var admin := FindUser(users, adminId);
    if admin.None? || !admin.value.isAdmin then map[]
    else
      GroupConversationsOnlyGiven(dms, NonAdmins(users), adminId);
      GroupConversations(dms, NonAdmins(users), adminId)
  }

  /** Every message between a non-admin user and the administrator is listed
      under that user. */
  lemma AllUserConversationsCoverMessages(dms: seq<DirectMessage>, users: seq<User>, adminId: string,
                                          u: User, m: DirectMessage)
    requires FindUser(users, adminId).Some? && FindUser(users, adminId).value.isAdmin
    requires u in users && !u.isAdmin
    requires m in dms && Between(u.id, adminId)(m)
    ensures u.id in AllUserConversations(dms, users, adminId)
    ensures m in AllUserConversations(dms, users, adminId)[u.id]
  {
    assert m in Conversation(dms, u.id, adminId);
    assert u in NonAdmins(users);
  }
}

=== FILE: performance.dfy ===
/**
 * Monthly performance scoring (src/app/actions/performance.ts): the lazily
 * created per-user, per-month record of Friday-started weeks, the weekly score
 * update with its 1..5 range check, the monthly leaderboard, and the admin
 * overview of everybody's record.
 *
 * The store of records is a map keyed by (user id, year, month), the path the
 * source writes under. A week is identified by its Friday; comparing the ISO
 * date strings of two weeks is comparing the dates.
 */
module Performance {
  import opened Common
  import opened Sorting
  import opened Calendar
  import opened Types

  type RecordKey = (string, int, int)
  type Store = map<RecordKey, MonthlyPerformance>

  function Lookup(store: Store, key: RecordKey): (r: Option<MonthlyPerformance>)
    ensures r.Some? <==> key in store
    ensures r.Some? ==> r.value == store[key]
  {
    if key in store then Some(store[key]) else None
  }

  // ---------------------------------------------------------------------------
  // Finding a week
  // ---------------------------------------------------------------------------

  /** Some entry of `ws` is for the week starting on `week`. */
  predicate HasWeek(ws: seq<WeeklyScore>, week: Date) {
    exists j :: 0 <= j < |ws| && ws[j].weekStart == week
  }

  /** `weeklyScores.find(ws => ws.weekStartDate === week)`, as an index. */
  function FindWeek(ws: seq<WeeklyScore>, week: Date): (r: Option<nat>)
    ensures r.Some? ==> r.value < |ws| && ws[r.value].weekStart == week
    ensures r.Some? ==> forall j :: 0 <= j < r.value ==> ws[j].weekStart != week
    ensures r.None? <==> !HasWeek(ws, week)
    decreases |ws|
  {
    if |ws| == 0 then None
    else if ws[0].weekStart == week then Some(0)
    else
      match FindWeek(ws[1..], week)
      case None =>
        assert forall j :: 1 <= j < |ws| ==> ws[j] == ws[1..][j - 1];
        None
      case Some(k) => Some(k + 1)
  }

  /** The score the `find` lookup reports for a week: `None` when no entry
      matches, `Some(s)` with the first matching entry's score otherwise. */
  function ScoreOf(ws: seq<WeeklyScore>, week: Date): (r: Option<Option<real>>)
    ensures r.None? <==> !HasWeek(ws, week)
    ensures r.Some? ==> exists j :: 0 <= j < |ws| && ws[j] == WeeklyScore(week, r.value)
  {
    match FindWeek(ws, week)
    case None => None
    case Some(k) => Some(ws[k].score)
  }

  lemma HasWeekPermutation(a: seq<WeeklyScore>, b: seq<WeeklyScore>, week: Date)
    requires multiset(a) == multiset(b)
    ensures HasWeek(a, week) <==> HasWeek(b, week)
  {
    if HasWeek(a, week) {
      var j :| 0 <= j < |a| && a[j].weekStart == week;
      assert a[j] in multiset(b);
      var k :| 0 <= k < |b| && b[k] == a[j];
    }
    if HasWeek(b, week) {
      var j :| 0 <= j < |b| && b[j].weekStart == week;
      assert b[j] in multiset(a);
      var k :| 0 <= k < |a| && a[k] == b[j];
    }
  }

  // ---------------------------------------------------------------------------
  // Order of weeks
  // ---------------------------------------------------------------------------

  /** The comparator on `new Date(weekStartDate).getTime()`: earlier weeks first
      (see `Calendar.DateLeIsTimeOrder`). */
  predicate WeekLe(a: WeeklyScore, b: WeeklyScore) {
    DateLe(a.weekStart, b.weekStart)
  }

  lemma WeekLeTotalPreorder()
    ensures TotalPreorder(WeekLe)
  {
  }

  // ---------------------------------------------------------------------------
  // Creating and backfilling a month's record
  // ---------------------------------------------------------------------------

  /** One unscored entry per given Friday, in the same order. */
  function EmptyWeeks(fridays: seq<Date>): (r: seq<WeeklyScore>)
    ensures |r| == |fridays|
    ensures forall i :: 0 <= i < |r| ==> r[i] == WeeklyScore(fridays[i], None)
  {
    seq(|fridays|, i requires 0 <= i < |fridays| => WeeklyScore(fridays[i], None))
  }

  /** Reference definition of the backfill: the given Fridays that have no
      entry in `ws`, as unscored entries, in the given order. */
  function MissingWeeks(ws: seq<WeeklyScore>, fridays: seq<Date>): (r: seq<WeeklyScore>)
    decreases |fridays|
  {
    if |fridays| == 0 then []
    else
      var head := if HasWeek(ws, fridays[0]) then [] else [WeeklyScore(fridays[0], None)];
      head + MissingWeeks(ws, fridays[1..])
  }

  /** Adding an entry for `f` does not change which other Fridays are missing. */
  lemma {:induction false} MissingWeeksAfterAdding(ws: seq<WeeklyScore>, f: Date, fridays: seq<Date>)
    requires f !in fridays
    ensures MissingWeeks(ws + [WeeklyScore(f, None)], fridays) == MissingWeeks(ws, fridays)
    decreases |fridays|
  {
    if |fridays| > 0 {
      var g := fridays[0];
      var next := ws + [WeeklyScore(f, None)];
      if HasWeek(next, g) {
        var j :| 0 <= j < |next| && next[j].weekStart == g;
        assert j < |ws| && ws[j].weekStart == g;
      }
      if HasWeek(ws, g) {
        var j :| 0 <= j < |ws| && ws[j].weekStart == g;
        assert next[j] == ws[j];
      }
      MissingWeeksAfterAdding(ws, f, fridays[1..]);
    }
  }

  /** The `forEach` over the Fridays: push an unscored entry for each Friday that
      `find` does not see in the list built so far. */
  function Backfill(ws: seq<WeeklyScore>, fridays: seq<Date>): (r: seq<WeeklyScore>)
    ensures |ws| <= |r| && r[..|ws|] == ws
    ensures forall f :: f in fridays ==> HasWeek(r, f)
    decreases |fridays|
  {
    if |fridays| == 0 then ws
    else
      var f := fridays[0];
      var found := FindWeek(ws, f);
      var next := if found.Some? then ws else ws + [WeeklyScore(f, None)];
      var r := Backfill(next, fridays[1..]);
      var j := if found.Some? then found.value else |ws|;
      assert next[j].weekStart == f;
      assert r[j] == next[j];
      assert forall g :: g in fridays ==> g == f || g in fridays[1..];
      r
  }

  /** One step of the backfill and of its reference definition. */
  lemma BackfillStep(ws: seq<WeeklyScore>, fridays: seq<Date>)
    requires |fridays| > 0
    ensures HasWeek(ws, fridays[0]) ==> Backfill(ws, fridays) == Backfill(ws, fridays[1..])
    ensures HasWeek(ws, fridays[0]) ==> MissingWeeks(ws, fridays) == MissingWeeks(ws, fridays[1..])
    ensures !HasWeek(ws, fridays[0]) ==>
      Backfill(ws, fridays) == Backfill(ws + [WeeklyScore(fridays[0], None)], fridays[1..])
    ensures !HasWeek(ws, fridays[0]) ==>
      MissingWeeks(ws, fridays) == [WeeklyScore(fridays[0], None)] + MissingWeeks(ws, fridays[1..])
  {
  }

  /** The inductive step of `BackfillAppendsMissing` for a Friday the list lacks. */
  lemma BackfillMissingCase(ws: seq<WeeklyScore>, fridays: seq<Date>)
    requires |fridays| > 0 && !HasWeek(ws, fridays[0]) && fridays[0] !in fridays[1..]
    requires Backfill(ws + [WeeklyScore(fridays[0], None)], fridays[1..])
      == ws + [WeeklyScore(fridays[0], None)] + MissingWeeks(ws + [WeeklyScore(fridays[0], None)], fridays[1..])
    ensures Backfill(ws, fridays) == ws + MissingWeeks(ws, fridays)
  {
    var w := WeeklyScore(fridays[0], None);
    var rest := fridays[1..];
    var missing := MissingWeeks(ws, rest);
    BackfillStep(ws, fridays);
    MissingWeeksAfterAdding(ws, fridays[0], rest);
    calc {
      Backfill(ws, fridays);
      Backfill(ws + [w], rest);
      ws + [w] + missing;
      { ConcatAssoc(ws, [w], missing); }
      ws + ([w] + missing);
      ws + MissingWeeks(ws, fridays);
    }
  }

  /** Backfilling appends exactly the missing Fridays, once each, unscored, after
      the untouched existing entries. */
  lemma {:induction false} BackfillAppendsMissing(ws: seq<WeeklyScore>, fridays: seq<Date>)
    requires Distinct(fridays)
    ensures Backfill(ws, fridays) == ws + MissingWeeks(ws, fridays)
    decreases |fridays|
  {
    if |fridays| > 0 {
      var f := fridays[0];
      var rest := fridays[1..];
      DistinctTail(fridays);
      BackfillStep(ws, fridays);
      if HasWeek(ws, f) {
        BackfillAppendsMissing(ws, rest);
      } else {
        BackfillAppendsMissing(ws + [WeeklyScore(f, None)], rest);
        BackfillMissingCase(ws, fridays);
      }
    }
  }

  /** A record that already has every Friday is left as it is by the backfill. */
  lemma {:induction false} BackfillComplete(ws: seq<WeeklyScore>, fridays: seq<Date>)
    requires forall f :: f in fridays ==> HasWeek(ws, f)
    ensures Backfill(ws, fridays) == ws
    decreases |fridays|
  {
    if |fridays| > 0 {
      assert fridays[0] in fridays;
      assert forall g :: g in fridays[1..] ==> g in fridays;
      BackfillComplete(ws, fridays[1..]);
    }
  }

  lemma FridaysDistinctAndOrdered(year: int, month: int)
    ensures Distinct(FridaysOfMonth(year, month))
    ensures SortedBy(EmptyWeeks(FridaysOfMonth(year, month)), WeekLe)
  {
  }

  /** `initializePerformanceDataForUserMonth`: a missing record is created with
      one unscored week per Friday of the month; an existing one gets the missing
      Fridays appended and its weeks sorted by start date. */
  function Initialize(existing: Option<MonthlyPerformance>, userId: string, year: int, month: int): (r: MonthlyPerformance)
    ensures existing.None? ==> r.userId == userId && r.year == year && r.month == month
    ensures existing.None? ==>
      var fridays := FridaysOfMonth(year, month);
      |r.weeklyScores| == |fridays|
      && forall i :: 0 <= i < |fridays| ==> r.weeklyScores[i] == WeeklyScore(fridays[i], None)
    ensures existing.Some? ==> r == existing.value.(weeklyScores := r.weeklyScores)
    ensures existing.Some? ==>
      multiset(r.weeklyScores)
        == multiset(existing.value.weeklyScores)
           + multiset(MissingWeeks(existing.value.weeklyScores, FridaysOfMonth(year, month)))
    ensures forall f :: f in FridaysOfMonth(year, month) ==> HasWeek(r.weeklyScores, f)
    ensures SortedBy(r.weeklyScores, WeekLe)
  {
    var fridays := FridaysOfMonth(year, month);
    FridaysDistinctAndOrdered(year, month);
    match existing
    case None =>
      EmptyWeeksCover(fridays);
      MonthlyPerformance(userId, year, month, EmptyWeeks(fridays))
    case Some(e) =>
      var filled := Backfill(e.weeklyScores, fridays);
      BackfillAppendsMissing(e.weeklyScores, fridays);
      WeekLeTotalPreorder();
      var sorted := SortBy(filled, WeekLe);
      PermutationKeepsWeeks(filled, sorted, fridays);
      e.(weeklyScores := sorted)
  }

  lemma EmptyWeeksCover(fridays: seq<Date>)
    ensures forall f :: f in fridays ==> HasWeek(EmptyWeeks(fridays), f)
  {
    var ws := EmptyWeeks(fridays);
    forall f | f in fridays
      ensures HasWeek(ws, f)
    {
      var i :| 0 <= i < |fridays| && fridays[i] == f;
      assert ws[i].weekStart == f;
    }
  }

  lemma PermutationKeepsWeeks(a: seq<WeeklyScore>, b: seq<WeeklyScore>, fridays: seq<Date>)
    requires multiset(a) == multiset(b)
    requires forall f :: f in fridays ==> HasWeek(a, f)
    ensures forall f :: f in fridays ==> HasWeek(b, f)
  {
    forall f | f in fridays
      ensures HasWeek(b, f)
    {
      HasWeekPermutation(a, b, f);
    }
  }

  /** Initialising a record that initialisation produced changes nothing: every
      Friday is already there and the weeks are already in order. */
  lemma InitializeIdempotent(existing: Option<MonthlyPerformance>, userId: string, year: int, month: int)
    ensures var once := Initialize(existing, userId, year, month);
      Initialize(Some(once), userId, year, month) == once
  {
    var once := Initialize(existing, userId, year, month);
    BackfillComplete(once.weeklyScores, FridaysOfMonth(year, month));
    SortBySortedIdentity(once.weeklyScores, WeekLe);
  }

  /** Every entry of an existing record survives initialisation with its score. */
  lemma InitializeKeepsScores(e: MonthlyPerformance, year: int, month: int, week: Date)
    requires HasWeek(e.weeklyScores, week)
    ensures exists j :: 0 <= j < |e.weeklyScores| && e.weeklyScores[j].weekStart == week
                        && e.weeklyScores[j] in Initialize(Some(e), e.userId, year, month).weeklyScores
  {
    var j :| 0 <= j < |e.weeklyScores| && e.weeklyScores[j].weekStart == week;
    var r := Initialize(Some(e), e.userId, year, month);
    assert e.weeklyScores[j] in multiset(e.weeklyScores);
    assert e.weeklyScores[j] in multiset(r.weeklyScores);
  }

  // ---------------------------------------------------------------------------
  // Updating one week's score
  // ---------------------------------------------------------------------------

  /** The replace-or-append step: the first entry for the week gets the score;
      with no entry for the week, one is appended. */
  function ApplyScore(ws: seq<WeeklyScore>, week: Date, score: Option<real>): (r: seq<WeeklyScore>)
    ensures HasWeek(ws, week) ==> |r| == |ws|
    ensures !HasWeek(ws, week) ==> |r| == |ws| + 1 && r[..|ws|] == ws
    ensures forall j :: 0 <= j < |ws| && ws[j].weekStart != week ==> r[j] == ws[j]
  {
    match FindWeek(ws, week)
    case Some(k) => ws[k := WeeklyScore(week, score)]
    case None => ws + [WeeklyScore(week, score)]
  }

  /** After the update the week reads back the new score, and every other week
      reads back what it read before. */
  lemma ApplyScoreReadBack(ws: seq<WeeklyScore>, week: Date, score: Option<real>, other: Date)
    ensures ScoreOf(ApplyScore(ws, week, score), week) == Some(score)
    ensures other != week ==> ScoreOf(ApplyScore(ws, week, score), other) == ScoreOf(ws, other)
  {
    match FindWeek(ws, week)
    case Some(k) => ReplaceReadBack(ws, k, WeeklyScore(week, score), other);
    case None => AppendReadBack(ws, WeeklyScore(week, score), other);
  }

  /** `find` reports the first entry for the week. */
  lemma FindWeekIsFirst(ws: seq<WeeklyScore>, week: Date, i: nat)
    requires i < |ws| && ws[i].weekStart == week
    requires forall j :: 0 <= j < i ==> ws[j].weekStart != week
    ensures FindWeek(ws, week) == Some(i)
  {
    assert HasWeek(ws, week);
  }

  /** Overwriting the first entry for a week. */
  lemma ReplaceReadBack(ws: seq<WeeklyScore>, k: nat, w: WeeklyScore, other: Date)
    requires FindWeek(ws, w.weekStart) == Some(k)
    ensures ScoreOf(ws[k := w], w.weekStart) == Some(w.score)
    ensures other != w.weekStart ==> ScoreOf(ws[k := w], other) == ScoreOf(ws, other)
  {
    var r := ws[k := w];
    FindWeekIsFirst(r, w.weekStart, k);
    if other != w.weekStart {
      match FindWeek(ws, other)
      case None =>
        assert !HasWeek(r, other) by {
          forall j | 0 <= j < |r|
            ensures r[j].weekStart != other
          {
            assert j != k ==> r[j] == ws[j];
          }
        }
      case Some(i) =>
        assert i != k && r[i] == ws[i];
        FindWeekIsFirst(r, other, i);
    }
  }

  /** Appending an entry for a week no entry has. */
  lemma AppendReadBack(ws: seq<WeeklyScore>, w: WeeklyScore, other: Date)
    requires FindWeek(ws, w.weekStart).None?
    ensures ScoreOf(ws + [w], w.weekStart) == Some(w.score)
    ensures other != w.weekStart ==> ScoreOf(ws + [w], other) == ScoreOf(ws, other)
  {
    var r := ws + [w];
    assert forall j :: 0 <= j < |ws| ==> ws[j].weekStart != w.weekStart;
    FindWeekIsFirst(r, w.weekStart, |ws|);
    if other != w.weekStart {
      match FindWeek(ws, other)
      case None =>
        assert !HasWeek(r, other) by {
          forall j | 0 <= j < |r|
            ensures r[j].weekStart != other
          {
            assert j < |ws| ==> r[j] == ws[j];
          }
        }
      case Some(i) =>
        FindWeekIsFirst(r, other, i);
    }
  }

  datatype UpdateError =
    | ScoreOutOfRange
    | WeeksMissing   // the record reads back without `weeklyScores`, so `find` throws

  /** A score the update accepts: absent, or between 1 and 5 inclusive (the
      source checks the range only, not that the score is whole). */
  predicate AcceptableScore(score: Option<real>) {
    score.None? || (1.0 <= score.value <= 5.0)
  }

  /** The record the update reads: the stored one, or the one initialisation
      creates when none is stored. */
  function MonthRecord(store: Store, userId: string, year: int, month: int): MonthlyPerformance {
    var key := (userId, year, month);
    if key in store then store[key] else Initialize(None, userId, year, month)
  }

  /** Initialisation gives every real month (0..11) at least one week (a
      fresh record four or five, one per Friday); only a month outside that
      range leaves a fresh record without weeks. */
  lemma InitializeHasWeeks(existing: Option<MonthlyPerformance>, userId: string, year: int, month: int)
    ensures 0 <= month < 12 ==> Initialize(existing, userId, year, month).weeklyScores != []
    ensures 0 <= month < 12 ==> |Initialize(None, userId, year, month).weeklyScores| >= 4
    ensures !(0 <= month < 12) ==> Initialize(None, userId, year, month).weeklyScores == []
  {
    var fridays := FridaysOfMonth(year, month);
    if 0 <= month < 12 {
      assert fridays[0] in fridays;
      assert HasWeek(Initialize(existing, userId, year, month).weeklyScores, fridays[0]);
    }
  }

  /** `updateUserWeeklyScore`: rejects an out-of-range score before touching the
      store. Otherwise it reads the month's record, creating it first when none
      is stored. The database keeps no empty list, so a record without weeks
      reads back with no `weeklyScores` at all; `find` on it throws and the
      action reports failure. A record with weeks gets the score applied. */
  function UpdateWeeklyScore(store: Store, userId: string, year: int, month: int, week: Date, score: Option<real>)
    : (r: Result<Store, UpdateError>)
    ensures r == Err(ScoreOutOfRange) <==> score.Some? && (score.value < 1.0 || score.value > 5.0)
    ensures r == Err(WeeksMissing) <==> AcceptableScore(score) && MonthRecord(store, userId, year, month).weeklyScores == []
    ensures r.Ok? ==> r.value.Keys == store.Keys + {(userId, year, month)}
    ensures r.Ok? ==> forall k :: k in store && k != (userId, year, month) ==> r.value[k] == store[k]
    ensures r.Ok? ==> ScoreOf(r.value[(userId, year, month)].weeklyScores, week) == Some(score)
  {
    if score.Some? && (score.value < 1.0 || score.value > 5.0) then Err(ScoreOutOfRange)
    else
      var key := (userId, year, month);
      var record := MonthRecord(store, userId, year, month);
      if record.weeklyScores == [] then Err(WeeksMissing)
      else
        ApplyScoreReadBack(record.weeklyScores, week, score, week);
        Ok(store[key := record.(weeklyScores := ApplyScore(record.weeklyScores, week, score))])
  }

  /** For a real month an accepted score is always stored, unless the stored
      record has lost its weeks. */
  lemma UpdateWeeklyScoreSucceeds(store: Store, userId: string, year: int, month: int, week: Date, score: Option<real>)
    requires AcceptableScore(score) && 0 <= month < 12
    requires (userId, year, month) in store ==> store[(userId, year, month)].weeklyScores != []
    ensures UpdateWeeklyScore(store, userId, year, month, week, score).Ok?
  {
    InitializeHasWeeks(None, userId, year, month);
  }

  /** A month outside 0..11 has no Fridays, so its fresh record has no weeks and
      the update fails. */
  lemma UpdateWeeklyScoreFailsOutsideTheYear()
    ensures UpdateWeeklyScore(map[], "u", 2024, 12, Date(2024, 12, 6), Some(3.0)) == Err(WeeksMissing)
  {
    InitializeHasWeeks(None, "u", 2024, 12);
  }

  /** A successful update changes the score of that week only; it succeeds
      exactly when the record it reads has weeks. */
  lemma UpdateWeeklyScoreOtherWeeks(store: Store, userId: string, year: int, month: int, week: Date, score: Option<real>, other: Date)
    requires AcceptableScore(score) && other != week
    ensures var before := MonthRecord(store, userId, year, month);
      var r := UpdateWeeklyScore(store, userId, year, month, week, score);
      && (r.Ok? <==> before.weeklyScores != [])
      && (r.Ok? ==> ScoreOf(r.value[(userId, year, month)].weeklyScores, other) == ScoreOf(before.weeklyScores, other))
  {
    var before := MonthRecord(store, userId, year, month);
    ApplyScoreReadBack(before.weeklyScores, week, score, other);
  }

  // ---------------------------------------------------------------------------
  // Averages
  // ---------------------------------------------------------------------------

  function ScoreValue(w: WeeklyScore): real {
    if w.score.Some? then w.score.value else 0.0
  }

  /** Sum of the entered scores. */
  function ScoreSum(ws: seq<WeeklyScore>): real
    decreases |ws|
  {
    if |ws| == 0 then 0.0 else ScoreSum(ws[..|ws| - 1]) + ScoreValue(ws[|ws| - 1])
  }

  /** Number of weeks with an entered score. */
  function ScoredCount(ws: seq<WeeklyScore>): (n: nat)
    ensures n <= |ws|
    decreases |ws|
  {
    if |ws| == 0 then 0
    else ScoredCount(ws[..|ws| - 1]) + (if ws[|ws| - 1].score.Some? then 1 else 0)
  }

  /** Mean of the entered scores, 0 when none is entered. */
  function Average(ws: seq<WeeklyScore>): (a: real)
    ensures ScoredCount(ws) == 0 ==> a == 0.0
  {
    if ScoredCount(ws) > 0 then ScoreSum(ws) / (ScoredCount(ws) as real) else 0.0
  }

  /** The average times the number of scored weeks gives back their sum. */
  lemma AverageIsMean(ws: seq<WeeklyScore>)
    ensures Average(ws) * (ScoredCount(ws) as real) == ScoreSum(ws)
  {
  }

  predicate ScoresInRange(ws: seq<WeeklyScore>) {
    forall j :: 0 <= j < |ws| && ws[j].score.Some? ==> 1.0 <= ws[j].score.value <= 5.0
  }

  lemma {:induction false} ScoreSumBounds(ws: seq<WeeklyScore>)
    requires ScoresInRange(ws)
    ensures ScoredCount(ws) as real <= ScoreSum(ws) <= 5.0 * (ScoredCount(ws) as real)
    decreases |ws|
  {
    if |ws| > 0 {
      ScoreSumBounds(ws[..|ws| - 1]);
    }
  }

  /** Scores the update accepts average to a value in 1..5, or to 0 when no week
      is scored. */
  lemma AverageInRange(ws: seq<WeeklyScore>)
    requires ScoresInRange(ws)
    ensures ScoredCount(ws) == 0 <==> Average(ws) == 0.0
    ensures ScoredCount(ws) > 0 ==> 1.0 <= Average(ws) <= 5.0
  {
    ScoreSumBounds(ws);
    if ScoredCount(ws) > 0 {
      QuotientBounds(ScoreSum(ws), ScoredCount(ws) as real);
    }
  }

  /** A sum between n and 5n divided by n lies between 1 and 5. */
  lemma QuotientBounds(sum: real, n: real)
    requires n > 0.0 && n <= sum <= 5.0 * n
    ensures 1.0 <= sum / n <= 5.0
  {
    var a := sum / n;
    assert a * n == sum;
    assert (a - 5.0) * n == sum - 5.0 * n;
    assert (1.0 - a) * n == n - sum;
  }

  /** A record without any entered score (a freshly created one). */
  lemma {:induction false} NoScoresNoCount(ws: seq<WeeklyScore>)
    requires forall j :: 0 <= j < |ws| ==> ws[j].score.None?
    ensures ScoredCount(ws) == 0 && Average(ws) == 0.0
    decreases |ws|
  {
    if |ws| > 0 {
      NoScoresNoCount(ws[..|ws| - 1]);
    }
  }

  /** A freshly created record has no scored week, so its average is 0. */
  lemma FreshRecordUnscored(userId: string, year: int, month: int)
    ensures Average(Initialize(None, userId, year, month).weeklyScores) == 0.0
  {
    NoScoresNoCount(Initialize(None, userId, year, month).weeklyScores);
  }

  /** The `forEach` that accumulates `totalScore` and `weeksScored`, then divides. */
  method MonthlyAverage(ws: seq<WeeklyScore>) returns (avg: real)
    ensures avg == Average(ws)
  {
    var totalScore := 0.0;
    var weeksScored := 0;
    var i := 0;
    while i < |ws|
      invariant 0 <= i <= |ws|
      invariant totalScore == ScoreSum(ws[..i])
      invariant weeksScored == ScoredCount(ws[..i])
    {
      assert ws[..i + 1][..i] == ws[..i];
      if ws[i].score.Some? {
        totalScore := totalScore + ws[i].score.value;
        weeksScored := weeksScored + 1;
      }
      i := i + 1;
    }
    assert ws[..i] == ws;
    avg := if weeksScored > 0 then totalScore / (weeksScored as real) else 0.0;
  }

  // ---------------------------------------------------------------------------
  // Leaderboard
  // ---------------------------------------------------------------------------

  /** A user's score for the month: the average of their record, 0 without one. */
  function MonthScore(store: Store, userId: string, year: int, month: int): real {
    var key := (userId, year, month);
    if key in store then Average(store[key].weeklyScores) else 0.0
  }

  /** The leaderboard comparator: higher score first, equal scores by name. */
  predicate LeaderLe(a: UserPerformanceScore, b: UserPerformanceScore) {
    a.score > b.score || (a.score == b.score && LexLe(a.userName, b.userName))
  }

  lemma LeaderLeTotalPreorder()
    ensures TotalPreorder(LeaderLe)
  {
    forall a: UserPerformanceScore, b: UserPerformanceScore
      ensures LeaderLe(a, b) || LeaderLe(b, a)
    {
      LexLeTotal(a.userName, b.userName);
    }
    forall a: UserPerformanceScore, b: UserPerformanceScore, c: UserPerformanceScore
      | LeaderLe(a, b) && LeaderLe(b, c)
      ensures LeaderLe(a, c)
    {
      if a.score == b.score == c.score {
        LexLeTransitive(a.userName, b.userName, c.userName);
      }
    }
  }

  function EntryFor(store: Store, u: User, year: int, month: int): UserPerformanceScore {
    UserPerformanceScore(u.id, u.name, u.avatarUrl, MonthScore(store, u.id, year, month), None)
  }

  /** The keys under which the given users' records for the month are stored. */
  function UserKeys(users: seq<User>, year: int, month: int): (keys: set<RecordKey>)
    ensures forall u :: u in users ==> (u.id, year, month) in keys
    decreases |users|
  {
    if |users| == 0 then {} else {(users[0].id, year, month)} + UserKeys(users[1..], year, month)
  }

  /** Only the given users' keys are in `UserKeys`. */
  lemma {:induction false} UserKeysOnlyUsers(users: seq<User>, year: int, month: int, k: RecordKey)
    requires k in UserKeys(users, year, month)
    ensures exists u :: u in users && k == (u.id, year, month)
    decreases |users|
  {
    if k != (users[0].id, year, month) {
      UserKeysOnlyUsers(users[1..], year, month, k);
      var u :| u in users[1..] && k == (u.id, year, month);
      assert u in users;
    }
  }

  /** The store after making sure the user has a record for the month. */
  function WithRecord(store: Store, userId: string, year: int, month: int): (r: Store)
    ensures r.Keys == store.Keys + {(userId, year, month)}
    ensures forall k :: k in store ==> r[k] == store[k]
    ensures (userId, year, month) !in store ==> r[(userId, year, month)] == Initialize(None, userId, year, month)
  {
    var key := (userId, year, month);
    if key in store then store else store[key := Initialize(None, userId, year, month)]
  }

  /** Creating a missing record does not change anybody's month score. */
  lemma WithRecordKeepsScores(store: Store, userId: string, year: int, month: int)
    ensures forall u :: EntryFor(WithRecord(store, userId, year, month), u, year, month) == EntryFor(store, u, year, month)
  {
    FreshRecordUnscored(userId, year, month);
  }

  /** The loop over the users: each gets the average of their record; a user
      without a record gets 0 and a freshly created record. */
  function CollectScores(users: seq<User>, store: Store, year: int, month: int)
    : (r: (seq<UserPerformanceScore>, Store))
    ensures |r.0| == |users|
    decreases |users|
  {
    if |users| == 0 then ([], store)
    else
      var u := users[0];
      var rest := CollectScores(users[1..], WithRecord(store, u.id, year, month), year, month);
      ([EntryFor(store, u, year, month)] + rest.0, rest.1)
  }

  /** The loop's entries are the users' month scores, in the users' order. */
  lemma {:induction false} CollectScoresEntries(users: seq<User>, store: Store, year: int, month: int)
    ensures CollectScores(users, store, year, month).0 == EntriesFor(users, store, year, month)
    decreases |users|
  {
    if |users| > 0 {
      var u := users[0];
      var next := WithRecord(store, u.id, year, month);
      CollectScoresEntries(users[1..], next, year, month);
      WithRecordKeepsScores(store, u.id, year, month);
      EntriesForSameScores(users[1..], next, store, year, month);
      EntriesForCons(users, store, year, month);
    }
  }

  /** Stores that give every user the same entry give the same entry list. */
  lemma EntriesForSameScores(users: seq<User>, s1: Store, s2: Store, year: int, month: int)
    requires forall u :: EntryFor(s1, u, year, month) == EntryFor(s2, u, year, month)
    ensures EntriesFor(users, s1, year, month) == EntriesFor(users, s2, year, month)
  {
  }

  lemma EntriesForCons(users: seq<User>, store: Store, year: int, month: int)
    requires |users| > 0
    ensures EntriesFor(users, store, year, month)
      == [EntryFor(store, users[0], year, month)] + EntriesFor(users[1..], store, year, month)
  {
  }

  /** The loop adds exactly the users' keys to the store and overwrites nothing. */
  lemma {:induction false} CollectScoresStore(users: seq<User>, store: Store, year: int, month: int)
    ensures CollectScores(users, store, year, month).1.Keys == store.Keys + UserKeys(users, year, month)
    ensures forall k :: k in store ==> CollectScores(users, store, year, month).1[k] == store[k]
    ensures forall k :: k in CollectScores(users, store, year, month).1 && k !in store ==>
      CollectScores(users, store, year, month).1[k] == Initialize(None, k.0, k.1, k.2)
    decreases |users|
  {
    if |users| > 0 {
      var u := users[0];
      var next := WithRecord(store, u.id, year, month);
      CollectScoresStore(users[1..], next, year, month);
    }
  }

  /** Gives each sorted entry its 1-based position as rank. */
  function Rank(s: seq<UserPerformanceScore>): (r: seq<UserPerformanceScore>)
    ensures |r| == |s|
    ensures forall i :: 0 <= i < |r| ==> r[i] == s[i].(rank := Some(i + 1))
  {
    seq(|s|, i requires 0 <= i < |s| => s[i].(rank := Some(i + 1)))
  }

  /** The entries with their ranks erased. */
  function Unranked(s: seq<UserPerformanceScore>): (r: seq<UserPerformanceScore>)
    ensures |r| == |s|
    ensures forall i :: 0 <= i < |r| ==> r[i] == s[i].(rank := None)
  {
    seq(|s|, i requires 0 <= i < |s| => s[i].(rank := None))
  }

  /** Reference list of the entries: one per user, in the users' order. */
  function EntriesFor(users: seq<User>, store: Store, year: int, month: int): (r: seq<UserPerformanceScore>)
    ensures |r| == |users|
    ensures forall i :: 0 <= i < |r| ==> r[i] == EntryFor(store, users[i], year, month)
  {
    seq(|users|, i requires 0 <= i < |users| => EntryFor(store, users[i], year, month))
  }

  lemma SameElements<T>(a: seq<T>, b: seq<T>)
    requires multiset(a) == multiset(b)
    ensures forall x :: x in a <==> x in b
  {
    forall x
      ensures x in a <==> x in b
    {
      assert x in a <==> x in multiset(a);
      assert x in b <==> x in multiset(b);
    }
  }

  /** Sorts unranked entries best first, equal scores by name, and numbers
      them from 1. */
  function RankBoard(entries: seq<UserPerformanceScore>): (r: seq<UserPerformanceScore>)
    requires forall i :: 0 <= i < |entries| ==> entries[i].rank.None?
    ensures |r| == |entries|
    ensures forall i :: 0 <= i < |r| ==> r[i].rank == Some(i + 1)
    ensures forall i, j :: 0 <= i < j < |r| ==> LeaderLe(r[i], r[j])
    ensures multiset(Unranked(r)) == multiset(entries)
  {
    LeaderLeTotalPreorder();
    var sorted := SortBy(entries, LeaderLe);
    SameElements(sorted, entries);
    RankedUnranked(sorted);
    Rank(sorted)
  }

  /** `calculateMonthlyLeaderboard` for a given month: the non-admin users ranked
      by average score, best first, equal scores by name; also the store with the
      records it created. */
  function Leaderboard(users: seq<User>, store: Store, year: int, month: int)
    : (r: (seq<UserPerformanceScore>, Store))
    ensures |r.0| == |NonAdmins(users)|
    ensures forall i :: 0 <= i < |r.0| ==> r.0[i].rank == Some(i + 1)
    ensures forall i, j :: 0 <= i < j < |r.0| ==>
      r.0[i].score > r.0[j].score
      || (r.0[i].score == r.0[j].score && LexLe(r.0[i].userName, r.0[j].userName))
    ensures multiset(Unranked(r.0)) == multiset(EntriesFor(NonAdmins(users), store, year, month))
    ensures r.1.Keys == store.Keys + UserKeys(NonAdmins(users), year, month)
    ensures forall k :: k in store ==> r.1[k] == store[k]
    ensures forall k :: k in r.1 && k !in store ==> r.1[k] == Initialize(None, k.0, k.1, k.2)
  {
    var collected := CollectScores(NonAdmins(users), store, year, month);
    CollectScoresEntries(NonAdmins(users), store, year, month);
    CollectScoresStore(NonAdmins(users), store, year, month);
    (RankBoard(collected.0), collected.1)
  }

  /** Erasing the ranks just given restores the sorted entries. */
  lemma RankedUnranked(s: seq<UserPerformanceScore>)
    requires forall e :: e in s ==> e.rank.None?
    ensures Unranked(Rank(s)) == s
  {
    assert forall i :: 0 <= i < |s| ==> s[i] in s;
  }

  /** An entry of a ranked board, with its rank erased, is one of the entries
      it was ranked from. */
  lemma RankedFrom(board: seq<UserPerformanceScore>, entries: seq<UserPerformanceScore>, i: int)
    requires forall j :: 0 <= j < |board| ==> board[j].rank == Some(j + 1)
    requires multiset(Unranked(board)) == multiset(entries)
    requires 0 <= i < |board|
    ensures exists k :: 0 <= k < |entries| && board[i] == entries[k].(rank := Some(i + 1))
  {
    var e := Unranked(board)[i];
    assert e in multiset(entries);
    var k :| 0 <= k < |entries| && entries[k] == e;
  }

  /** Every entry ranked onto a board appears on it with its position as rank. */
  lemma RankedOnto(board: seq<UserPerformanceScore>, entries: seq<UserPerformanceScore>, k: int)
    requires forall j :: 0 <= j < |board| ==> board[j].rank == Some(j + 1)
    requires multiset(Unranked(board)) == multiset(entries)
    requires 0 <= k < |entries|
    ensures exists i :: 0 <= i < |board| && board[i] == entries[k].(rank := Some(i + 1))
  {
    assert entries[k] in multiset(Unranked(board));
    var i :| 0 <= i < |board| && Unranked(board)[i] == entries[k];
  }

  /** Every non-admin user has an entry carrying their month score ... */
  lemma LeaderboardListsEveryNonAdmin(users: seq<User>, store: Store, year: int, month: int, u: User)
    requires u in users && !u.isAdmin
    ensures exists i ::
      (0 <= i < |Leaderboard(users, store, year, month).0|
       && Leaderboard(users, store, year, month).0[i] == EntryFor(store, u, year, month).(rank := Some(i + 1)))
  {
    var players := NonAdmins(users);
    var entries := EntriesFor(players, store, year, month);
    var k :| 0 <= k < |players| && players[k] == u;
    RankedOnto(Leaderboard(users, store, year, month).0, entries, k);
  }

  /** ... and every entry belongs to a non-admin user. */
  lemma LeaderboardListsOnlyNonAdmins(users: seq<User>, store: Store, year: int, month: int, i: int)
    requires 0 <= i < |Leaderboard(users, store, year, month).0|
    ensures exists u ::
      (u in users && !u.isAdmin
       && Leaderboard(users, store, year, month).0[i] == EntryFor(store, u, year, month).(rank := Some(i + 1)))
  {
    var players := NonAdmins(users);
    var entries := EntriesFor(players, store, year, month);
    RankedFrom(Leaderboard(users, store, year, month).0, entries, i);
    var k :| 0 <= k < |entries| && Leaderboard(users, store, year, month).0[i] == entries[k].(rank := Some(i + 1));
    assert players[k] in players;
  }

  // ---------------------------------------------------------------------------
  // Admin overview
  // ---------------------------------------------------------------------------

  /** A user's record for the month with the user's display fields. */
  datatype PerformanceRow = PerformanceRow(record: MonthlyPerformance, userName: string, avatarUrl: Option<string>)

  function RowFor(store: Store, u: User, year: int, month: int): PerformanceRow {
    PerformanceRow(Initialize(Lookup(store, (u.id, year, month)), u.id, year, month), u.name, u.avatarUrl)
  }

  predicate RowNameLe(a: PerformanceRow, b: PerformanceRow) {
    LexLe(a.userName, b.userName)
  }

  lemma RowNameLeTotalPreorder()
    ensures TotalPreorder(RowNameLe)
  {
    forall a: PerformanceRow, b: PerformanceRow
      ensures RowNameLe(a, b) || RowNameLe(b, a)
    {
      LexLeTotal(a.userName, b.userName);
    }
    forall a: PerformanceRow, b: PerformanceRow, c: PerformanceRow | RowNameLe(a, b) && RowNameLe(b, c)
      ensures RowNameLe(a, c)
    {
      LexLeTransitive(a.userName, b.userName, c.userName);
    }
  }

  /** Writes each user's record `init(id)` under the user's key for the month. */
  function WriteRecords(users: seq<User>, init: string -> MonthlyPerformance, acc: Store, year: int, month: int): (r: Store)
    ensures r.Keys == acc.Keys + UserKeys(users, year, month)
    ensures forall u :: u in users ==> r[(u.id, year, month)] == init(u.id)
    ensures forall k :: k in acc && k !in UserKeys(users, year, month) ==> r[k] == acc[k]
    decreases |users|
  {
    if |users| == 0 then acc
    else
      var u := users[0];
      var key := (u.id, year, month);
      var rest := WriteRecords(users[1..], init, acc[key := init(u.id)], year, month);
      assert UserKeys(users, year, month) == {key} + UserKeys(users[1..], year, month);
      assert forall v :: v in users ==> v == u || v in users[1..];
      assert rest[key] == init(u.id) by {
        if key in UserKeys(users[1..], year, month) {
          UserKeysOnlyUsers(users[1..], year, month, key);
          var w :| w in users[1..] && key == (w.id, year, month);
        }
      }
      rest
  }

  function RowsFor(users: seq<User>, store: Store, year: int, month: int): (r: seq<PerformanceRow>)
    ensures |r| == |users|
    ensures forall i :: 0 <= i < |users| ==> r[i] == RowFor(store, users[i], year, month)
  {
    seq(|users|, i requires 0 <= i < |users| => RowFor(store, users[i], year, month))
  }

  /** `getPerformanceDataForCurrentMonth` for a given month: every non-admin
      user's initialised record with their name and avatar, ordered by name;
      also the store with the initialised records written back. The source
      initialises the records concurrently, so each is computed from the store
      as it was. */
  function MonthOverview(users: seq<User>, store: Store, year: int, month: int)
    : (r: (seq<PerformanceRow>, Store))
    ensures |r.0| == |NonAdmins(users)|
    ensures forall i, j :: 0 <= i < j < |r.0| ==> LexLe(r.0[i].userName, r.0[j].userName)
    ensures multiset(r.0) == multiset(RowsFor(NonAdmins(users), store, year, month))
    ensures r.1.Keys == store.Keys + UserKeys(NonAdmins(users), year, month)
    ensures forall u :: u in users && !u.isAdmin ==> r.1[(u.id, year, month)] == RowFor(store, u, year, month).record
    ensures forall k :: k in store && k !in UserKeys(NonAdmins(users), year, month) ==> r.1[k] == store[k]
  {
    var players := NonAdmins(users);
    RowNameLeTotalPreorder();
    var init := (id: string) => Initialize(Lookup(store, (id, year, month)), id, year, month);
    (SortBy(RowsFor(players, store, year, month), RowNameLe), WriteRecords(players, init, store, year, month))
  }

  /** Every non-admin user has a row in the overview ... */
  lemma MonthOverviewListsEveryNonAdmin(users: seq<User>, store: Store, year: int, month: int, u: User)
    requires u in users && !u.isAdmin
    ensures RowFor(store, u, year, month) in MonthOverview(users, store, year, month).0
  {
    var players := NonAdmins(users);
    var rows := RowsFor(players, store, year, month);
    var k :| 0 <= k < |players| && players[k] == u;
    assert rows[k] in multiset(rows);
  }

  /** ... and every row is a non-admin user's. */
  lemma MonthOverviewListsOnlyNonAdmins(users: seq<User>, store: Store, year: int, month: int, i: int)
    requires 0 <= i < |MonthOverview(users, store, year, month).0|
    ensures exists u :: u in users && !u.isAdmin && MonthOverview(users, store, year, month).0[i] == RowFor(store, u, year, month)
  {
    var players := NonAdmins(users);
    var rows := RowsFor(players, store, year, month);
    var row := MonthOverview(users, store, year, month).0[i];
    assert row in multiset(rows);
    var k :| 0 <= k < |rows| && rows[k] == row;
    assert players[k] in players;
  }
}

=== FILE: pininput.dfy ===
/**
 * The PIN entry boxes (src/components/common/pin-input.tsx): typing into one
 * box, pasting a whole PIN, and when the entered PIN is handed on. The boxes
 * are a sequence of strings, one per box; focus movement is presentation and
 * is not modelled.
 */
module PinInput {
  import opened Common
  import Auth

  /** The number of boxes when the caller does not choose one. */
  const DefaultLength: nat := 4

  /** The boxes after an event, and the PIN handed to `onComplete`, if any. */
  datatype Change = Change(boxes: seq<string>, completed: Option<string>)

  /** Every box is empty or holds one digit. */
  predicate WellFormed(boxes: seq<string>) {
    forall k :: 0 <= k < |boxes| ==> boxes[k] == "" || (|boxes[k]| == 1 && IsDigit(boxes[k][0]))
  }

  /** The initial state: `length` empty boxes. */
  function EmptyBoxes(length: nat): (boxes: seq<string>)
    ensures |boxes| == length && WellFormed(boxes)
    ensures forall k :: 0 <= k < length ==> boxes[k] == ""
  {
    seq(length, _ => "")
  }

  predicate AllFilled(boxes: seq<string>) {
    forall k :: 0 <= k < |boxes| ==> boxes[k] != ""
  }

  /** `newPin.every(digit => digit !== '')` and `newPin.join('')`: the PIN is
      handed on exactly when no box is empty, and it spells the boxes. */
  function Completion(boxes: seq<string>): (r: Option<string>)
    ensures r.Some? <==> AllFilled(boxes)
  {
    if AllFilled(boxes) then Some(Join(boxes, "")) else None
  }

  /** A handed-on PIN has one digit per box, the boxes' digits in order. */
  lemma CompletionSpellsBoxes(boxes: seq<string>)
    requires WellFormed(boxes) && AllFilled(boxes)
    ensures var pin := Completion(boxes).value;
      |pin| == |boxes| && AllDigits(pin)
      && forall k :: 0 <= k < |boxes| ==> pin[k] == boxes[k][0]
  {
    JoinOfSingles(boxes);
  }

  /** Joining one-character strings spells their characters. */
  lemma {:induction false} JoinOfSingles(parts: seq<string>)
    requires forall k :: 0 <= k < |parts| ==> |parts[k]| == 1
    ensures |Join(parts, "")| == |parts|
    ensures forall k :: 0 <= k < |parts| ==> Join(parts, "")[k] == parts[k][0]
    decreases |parts|
  {
    if |parts| > 1 {
      JoinOfSingles(parts[1..]);
      assert Join(parts, "") == parts[0] + Join(parts[1..], "");
    }
  }

  /** `value.slice(-1)`: the last character, or nothing. */
  function LastChar(value: string): (r: string)
    ensures |r| <= 1
    ensures r == "" <==> value == ""
    ensures |r| == 1 ==> r[0] == value[|value| - 1]
  {
    if value == "" then "" else value[|value| - 1..]
  }

  // ---------------------------------------------------------------------------
  // handleChange
  // ---------------------------------------------------------------------------

  /** `handleChange`: input that is not all digits is ignored; otherwise the
      box keeps the last character typed, the other boxes stay as they were,
      and a full set of boxes hands the PIN on. */
  function HandleChange(boxes: seq<string>, index: nat, value: string): (r: Change)
    requires index < |boxes|
    ensures !AllDigits(value) ==> r == Change(boxes, None)
    ensures AllDigits(value) ==>
      && |r.boxes| == |boxes|
      && r.boxes[index] == LastChar(value)
      && (forall k :: 0 <= k < |boxes| && k != index ==> r.boxes[k] == boxes[k])
      && r.completed == Completion(r.boxes)
    ensures WellFormed(boxes) ==> WellFormed(r.boxes)
  {
    if !AllDigits(value) then Change(boxes, None)
    else
      var next := boxes[index := LastChar(value)];
      Change(next, Completion(next))
  }

  /** Typing a digit into the only empty box hands on the PIN the boxes now
      spell; typing into a box while another stays empty hands on nothing. */
  lemma HandleChangeCompletes(boxes: seq<string>, index: nat, d: char)
    requires WellFormed(boxes) && index < |boxes| && IsDigit(d)
    ensures (forall k :: 0 <= k < |boxes| && k != index ==> boxes[k] != "") <==>
      HandleChange(boxes, index, [d]).completed.Some?
    ensures HandleChange(boxes, index, [d]).completed.Some? ==>
      var pin := HandleChange(boxes, index, [d]).completed.value;
      |pin| == |boxes| && pin[index] == d
      && forall k :: 0 <= k < |boxes| && k != index ==> pin[k] == boxes[k][0]
  {
    var next := HandleChange(boxes, index, [d]).boxes;
    assert next[index] == [d];
    if AllFilled(next) {
      CompletionSpellsBoxes(next);
    }
  }

  // ---------------------------------------------------------------------------
  // handlePaste
  // ---------------------------------------------------------------------------

  /** `pastedData.split('')`. */
  function Singles(digits: string): (boxes: seq<string>)
    ensures |boxes| == |digits|
    ensures forall k :: 0 <= k < |digits| ==> boxes[k] == [digits[k]]
  {
    seq(|digits|, k requires 0 <= k < |digits| => [digits[k]])
  }

  function IsDigitChar(c: char): bool {
    IsDigit(c)
  }

  /** `handlePaste`: the pasted text without its non-digits fills the boxes
      and is handed on when it has exactly one digit per box; otherwise
      nothing changes. */
  function HandlePaste(boxes: seq<string>, text: string): (r: Change)
    ensures var digits := Filter(text, IsDigitChar);
      && (r.completed.Some? <==> |digits| == |boxes|)
      && (r.completed.Some? ==> r.completed.value == digits && r.boxes == Singles(digits))
      && (r.completed.None? ==> r.boxes == boxes)
    ensures |r.boxes| == |boxes|
    ensures WellFormed(boxes) ==> WellFormed(r.boxes)
  {
    var digits := Filter(text, IsDigitChar);
    if |digits| == |boxes| then
      var next := Singles(digits);
      assert forall k :: 0 <= k < |digits| ==> digits[k] in digits;
      JoinOfSingles(next);
      assert Join(next, "") == digits;
      Change(next, Some(Join(next, "")))
    else Change(boxes, None)
  }

  /** Pasting a PIN of the right length hands on exactly that PIN. */
  lemma PastePinRoundTrip(boxes: seq<string>, pin: string)
    requires AllDigits(pin) && |pin| == |boxes|
    ensures HandlePaste(boxes, pin) == Change(Singles(pin), Some(pin))
  {
    FilterKeepsAll(pin, IsDigitChar);
  }

  /** Characters other than digits in pasted text make no difference. */
  lemma PasteIgnoresNonDigits(boxes: seq<string>, text: string)
    ensures HandlePaste(boxes, text) == HandlePaste(boxes, Filter(text, IsDigitChar))
  {
    FilterIdempotent(text, IsDigitChar);
  }

  /** With the default four boxes, whatever the boxes hand on is a PIN the
      store accepts. */
  lemma CompletedPinIsWellFormedPin(boxes: seq<string>, index: nat, value: string, text: string)
    requires WellFormed(boxes) && |boxes| == DefaultLength && index < |boxes|
    ensures HandleChange(boxes, index, value).completed.Some? ==>
      Auth.IsPin(HandleChange(boxes, index, value).completed.value)
    ensures HandlePaste(boxes, text).completed.Some? ==>
      Auth.IsPin(HandlePaste(boxes, text).completed.value)
  {
    var next := HandleChange(boxes, index, value).boxes;
    if AllDigits(value) && AllFilled(next) {
      CompletionSpellsBoxes(next);
    }
  }
}

=== FILE: projects.dfy ===
/**
 * Project server actions (src/app/actions/projects.ts): who sees which
 * projects, the new-project form rules, the `completedAt` bookkeeping on status
 * changes, and the splitting of AI-suggested resource strings into items.
 *
 * The `projects` collection is a sequence in key order. The designated
 * administrator is the fixed id `admin-1`. Zod's URL check is `isUrl`.
 */
module Projects {
  import opened Common
  import opened Sorting
  import opened Types

  datatype ProjectError =
    | NotAuthenticated
    | InvalidFields(fields: set<ProjectField>)
    | ProjectNotFound
    | NotOwner          // neither the owner nor the designated administrator

  datatype ProjectField = NameField | KindField | StatusField | LinkField | TestLinkField | DocumentUrlField

  /** The select's value meaning "no starter". */
  const NoStarterSentinel := "_NO_STARTER_"

  // ---------------------------------------------------------------------------
  // getProjectsAction
  // ---------------------------------------------------------------------------

  /** Newest first. */
  predicate NewestFirst(a: Project, b: Project) {
    a.createdAt >= b.createdAt
  }

  lemma NewestFirstIsPreorder()
    ensures TotalPreorder(NewestFirst)
  {
  }

  function OwnedBy(userId: string): Project -> bool {
    (p: Project) => p.userId == userId
  }

  /** `getProjectsAction`: the designated administrator sees every project,
      anyone else the projects they own; newest first. */
  function VisibleProjects(projects: seq<Project>, userId: string): (r: seq<Project>)
    ensures userId == MainAdminId ==> multiset(r) == multiset(projects)
    ensures userId != MainAdminId ==> forall p :: p in r <==> p in projects && p.userId == userId
    ensures userId != MainAdminId ==> multiset(r) == multiset(Filter(projects, OwnedBy(userId)))
    ensures SortedBy(r, NewestFirst)
  {
    NewestFirstIsPreorder();
    var chosen := if userId == MainAdminId then projects else Filter(projects, OwnedBy(userId));
    assert forall p :: p in multiset(chosen) <==> p in chosen;
    SortBy(chosen, NewestFirst)
  }

  // ---------------------------------------------------------------------------
  // addProjectAction and AddProjectSchema
  // ---------------------------------------------------------------------------

  /** The submitted form (`Object.fromEntries`); `None` is a field not sent. */
  datatype ProjectForm = ProjectForm(
    name: Option<string>,
    kind: Option<string>,
    status: Option<string>,
    link: Option<string>,
    testLink: Option<string>,
    documentUrl: Option<string>,
    description: Option<string>,
    projectStarterId: Option<string>)

  /** The enum's five labels. */
  function ParseProjectStatus(s: string): (r: Option<ProjectStatus>)
    ensures r.Some? <==> s in {"Draft", "To Do", "In Progress", "Testing", "Completed"}
    ensures r == Some(Completed) <==> s == "Completed"
  {
    if s == "Draft" then Some(Draft)
    else if s == "To Do" then Some(ProjectStatus.ToDo)
    else if s == "In Progress" then Some(ProjectStatus.InProgress)
    else if s == "Testing" then Some(Testing)
    else if s == "Completed" then Some(Completed)
    else None
  }

  /** An optional URL field: absent, empty, or a URL. */
  predicate OptionalUrl(v: Option<string>, isUrl: string -> bool) {
    v.None? || v.value == "" || isUrl(v.value)
  }

  /** The fields `AddProjectSchema` rejects. */
  function ProjectFormErrors(f: ProjectForm, isUrl: string -> bool): (r: set<ProjectField>)
    ensures NameField !in r <==> f.name.Some? && f.name.value != ""
    ensures KindField !in r <==> f.kind.Some? && f.kind.value != ""
    ensures StatusField !in r <==> f.status.Some? && ParseProjectStatus(f.status.value).Some?
    ensures LinkField !in r <==> OptionalUrl(f.link, isUrl)
    ensures TestLinkField !in r <==> OptionalUrl(f.testLink, isUrl)
    ensures DocumentUrlField !in r <==> OptionalUrl(f.documentUrl, isUrl)
  {
    (if f.name.Some? && f.name.value != "" then {} else {NameField})
    + (if f.kind.Some? && f.kind.value != "" then {} else {KindField})
    + (if f.status.Some? && ParseProjectStatus(f.status.value).Some? then {} else {StatusField})
    + (if OptionalUrl(f.link, isUrl) then {} else {LinkField})
    + (if OptionalUrl(f.testLink, isUrl) then {} else {TestLinkField})
    + (if OptionalUrl(f.documentUrl, isUrl) then {} else {DocumentUrlField})
  }

  /** `value || undefined` on an optional string. */
  function NonEmpty(v: Option<string>): (r: Option<string>)
    ensures r.None? <==> v.None? || v.value == ""
    ensures r.Some? ==> r == v
  {
    if v.Some? && v.value != "" then v else None
  }

  /** The starter id after the schema's transform: the sentinel and the empty
      string mean no starter. */
  function ChosenStarter(v: Option<string>): (r: Option<string>)
    ensures r.None? <==> v.None? || v.value == NoStarterSentinel || v.value == ""
    ensures r.Some? ==> r == v
  {
    if v.Some? && v.value != NoStarterSentinel && v.value != "" then v else None
  }

  /** A project carries `completedAt` exactly while it is completed. */
  predicate CompletionConsistent(p: Project) {
    p.completedAt.Some? <==> p.status == Completed
  }

  /** `addProjectAction`: a signed-in user's valid form becomes a project under the
      push key `key`; `createdAt` and `completedAt` are the two clock readings. */
  function AddProject(projects: seq<Project>, userId: string, f: ProjectForm, key: string,
                      createdAt: int, completedAt: int, isUrl: string -> bool): (r: Result<(seq<Project>, Project), ProjectError>)
    ensures userId == "" ==> r == Err(NotAuthenticated)
    ensures userId != "" ==>
      (r.Err? <==> ProjectFormErrors(f, isUrl) != {})
      && (r.Err? ==> r.error == InvalidFields(ProjectFormErrors(f, isUrl)))
    ensures r.Ok? ==> r.value.0 == projects + [r.value.1]
    ensures r.Ok? ==>
      var p := r.value.1;
      && p.id == key && p.userId == userId && p.createdAt == createdAt
      && p.name == f.name.value && p.kind == f.kind.value
      && Some(p.status) == ParseProjectStatus(f.status.value)
      && p.link == NonEmpty(f.link) && p.testLink == NonEmpty(f.testLink) && p.documentUrl == NonEmpty(f.documentUrl)
      && p.description == f.description
      && p.projectStarterId == ChosenStarter(f.projectStarterId)
      && (p.completedAt.Some? <==> f.status.value == "Completed")
      && (p.completedAt.Some? ==> p.completedAt.value == completedAt)
      && CompletionConsistent(p)
  {
    if userId == "" then Err(NotAuthenticated)
    else
      var errors := ProjectFormErrors(f, isUrl);
      if errors != {} then Err(InvalidFields(errors))
      else
        var status := ParseProjectStatus(f.status.value).value;
        var p := Project(key, userId, f.name.value, f.kind.value, status,
                         NonEmpty(f.link), NonEmpty(f.testLink), NonEmpty(f.documentUrl),
                         createdAt, if status == Completed then Some(completedAt) else None,
                         f.description, ChosenStarter(f.projectStarterId));
        Ok((projects + [p], p))
  }

  // ---------------------------------------------------------------------------
  // updateProjectStatusAction
  // ---------------------------------------------------------------------------

  function FindProjectById(projects: seq<Project>, id: string): (r: Option<Project>)
    ensures r.Some? ==> r.value in projects && r.value.id == id
    ensures r.None? <==> forall p :: p in projects ==> p.id != id
  {
    if |projects| == 0 then None
    else if projects[0].id == id then Some(projects[0])
    else FindProjectById(projects[1..], id)
  }

  /** A project moved to `newStatus` at time `now`: completing keeps an existing
      completion time or records `now`; any other status drops it. */
  function WithStatus(p: Project, newStatus: ProjectStatus, now: int): (r: Project)
    ensures r.(status := p.status, completedAt := p.completedAt) == p
    ensures r.status == newStatus
    ensures newStatus == Completed && p.completedAt.Some? ==> r.completedAt == p.completedAt
    ensures newStatus == Completed && p.completedAt.None? ==> r.completedAt == Some(now)
    ensures newStatus != Completed ==> r.completedAt.None?
  {
    var completedAt :=
      if newStatus == Completed && p.completedAt.None? then Some(now)
      else if newStatus != Completed then None
      else p.completedAt;
    p.(status := newStatus, completedAt := completedAt)
  }

  /** A status change leaves every project consistent, and repeating it (at any
      later time) changes nothing more. */
  lemma WithStatusKeepsConsistency(p: Project, newStatus: ProjectStatus, now: int, later: int)
    ensures CompletionConsistent(WithStatus(p, newStatus, now))
    ensures WithStatus(WithStatus(p, newStatus, now), newStatus, later) == WithStatus(p, newStatus, now)
  {
  }

  function PutProject(projects: seq<Project>, id: string, p: Project): (r: seq<Project>)
    ensures |r| == |projects|
    ensures forall i :: 0 <= i < |projects| ==> r[i] == if projects[i].id == id then p else projects[i]
  {
    seq(|projects|, i requires 0 <= i < |projects| => if projects[i].id == id then p else projects[i])
  }

  /** `updateProjectStatusAction`: the owner or the designated administrator
      changes the status of an existing project. */
  function UpdateProjectStatus(projects: seq<Project>, projectId: string, newStatus: ProjectStatus,
                               userId: string, now: int): (r: Result<(seq<Project>, Project), ProjectError>)
    ensures FindProjectById(projects, projectId).None? ==> r == Err(ProjectNotFound)
    ensures FindProjectById(projects, projectId).Some? ==>
      var p := FindProjectById(projects, projectId).value;
      && (r.Err? <==> p.userId != userId && userId != MainAdminId)
      && (r.Err? ==> r.error == NotOwner)
      && (r.Ok? ==> r.value.1 == WithStatus(p, newStatus, now) && r.value.0 == PutProject(projects, projectId, r.value.1))
  {
    var found := FindProjectById(projects, projectId);
    if found.None? then Err(ProjectNotFound)
    else if found.value.userId != userId && userId != MainAdminId then Err(NotOwner)
    else
      var p := WithStatus(found.value, newStatus, now);
      Ok((PutProject(projects, projectId, p), p))
  }

  /** Adding and updating keep every stored project consistent. */
  lemma ProjectActionsKeepConsistency(projects: seq<Project>, userId: string, f: ProjectForm, key: string,
                                      createdAt: int, completedAt: int, isUrl: string -> bool,
                                      projectId: string, newStatus: ProjectStatus, now: int)
    requires forall p :: p in projects ==> CompletionConsistent(p)
    ensures AddProject(projects, userId, f, key, createdAt, completedAt, isUrl).Ok? ==>
      forall p :: p in AddProject(projects, userId, f, key, createdAt, completedAt, isUrl).value.0 ==> CompletionConsistent(p)
    ensures UpdateProjectStatus(projects, projectId, newStatus, userId, now).Ok? ==>
      forall p :: p in UpdateProjectStatus(projects, projectId, newStatus, userId, now).value.0 ==> CompletionConsistent(p)
  {
    var u := UpdateProjectStatus(projects, projectId, newStatus, userId, now);
    if u.Ok? {
      var q := WithStatus(FindProjectById(projects, projectId).value, newStatus, now);
      WithStatusKeepsConsistency(FindProjectById(projects, projectId).value, newStatus, now, now);
      forall p | p in u.value.0
        ensures CompletionConsistent(p)
      {
        var i :| 0 <= i < |u.value.0| && u.value.0[i] == p;
        assert p == if projects[i].id == projectId then q else projects[i];
      }
    }
  }

  // ---------------------------------------------------------------------------
  // transformToItems
  // ---------------------------------------------------------------------------

  /** A suggested resource: a name, and a description or a link. */
  datatype ResourceItem = ResourceItem(name: string, description: Option<string>, url: Option<string>)

  const CaseStudySeparator := ": "

  /** One string of an AI suggestion list, turned into an item: a case study
      with a `": "` is a name and a description; anything else is a name, and
      also a link when it starts with `http`. */
  function ToItem(item: string, kind: string): (r: ResourceItem)
    ensures kind == "caseStudies" && Contains(item, CaseStudySeparator) ==>
      && r.description.Some? && r.url.None?
      && r.name + CaseStudySeparator + r.description.value == item
      && !Contains(r.name, CaseStudySeparator)
    ensures !(kind == "caseStudies" && Contains(item, CaseStudySeparator)) ==>
      r.name == item && r.description.None? && (r.url.Some? <==> StartsWith(item, "http"))
    ensures r.url.Some? ==> r.url.value == item
  {
    var parts := Split(item, CaseStudySeparator);
    SplitSeparated(item, CaseStudySeparator);
    if |parts| > 1 && kind == "caseStudies" then
      ResourceItem(parts[0], Some(Join(parts[1..], CaseStudySeparator)), None)
    else
      ResourceItem(item, None, if StartsWith(item, "http") then Some(item) else None)
  }

  /** A string splits into more than one piece exactly when it contains the
      separator; the first piece, the separator and the rest joined back give the
      string. */
  lemma SplitSeparated(s: string, sep: string)
    requires |sep| > 0
    ensures |Split(s, sep)| > 1 <==> Contains(s, sep)
    ensures |Split(s, sep)| > 1 ==> Split(s, sep)[0] + sep + Join(Split(s, sep)[1..], sep) == s
    ensures !Contains(Split(s, sep)[0], sep)
  {
    JoinSplit(s, sep);
    SplitPiecesAvoidSeparator(s, sep);
    match IndexOf(s, sep)
    case None =>
    case Some(i) =>
      assert |Split(s[i + |sep|..], sep)| >= 1;
  }

  /** `transformToItems`: every string of the list becomes an item. */
  function ToItems(items: seq<string>, kind: string): (r: seq<ResourceItem>)
    ensures |r| == |items|
    ensures forall i :: 0 <= i < |items| ==> r[i] == ToItem(items[i], kind)
  {
    seq(|items|, i requires 0 <= i < |items| => ToItem(items[i], kind))
  }

  /** Items lose nothing: each original string is recovered from its item. */
  lemma ToItemsRecoverStrings(items: seq<string>, kind: string)
    ensures forall i :: 0 <= i < |items| ==>
      var it := ToItems(items, kind)[i];
      items[i] == if it.description.Some? then it.name + CaseStudySeparator + it.description.value else it.name
  {
  }
}

=== FILE: references.dfy ===
/**
 * Saved reference links (src/app/actions/references.ts): tag parsing, the
 * Video/Article category, the title fallback, who sees which references, and
 * the title-autocomplete guard.
 *
 * Zod's `url()` check and the AI title flow are outside the model: the first is
 * the parameter `isUrl`, the second an `Option` input (`None` when the flow
 * fails).
 */
module References {
  import opened Common
  import opened Sorting

  datatype Category = Video | Article

  datatype Reference = Reference(
    id: string,
    userId: string,
    link: string,
    title: string,
    notes: Option<string>,
    tags: seq<string>,
    category: Category,
    createdAt: int)

  /** The fields of the add-reference form; `None` is a field not sent. */
  datatype ReferenceForm = ReferenceForm(
    link: Option<string>,
    title: Option<string>,
    notes: Option<string>,
    tags: Option<string>)

  datatype ReferenceField = LinkField | TitleField

  datatype ReferenceError = NotAuthenticated | InvalidFields(fields: set<ReferenceField>)

  datatype TitleError = InvalidUrl | AutocompleteFailed

  const TagSeparator: char := ','
  const UntitledReference := "Untitled Reference"
  const VideoHosts: seq<string> := ["youtube.com", "youtu.be", "vimeo.com"]

  // ---------------------------------------------------------------------------
  // Tags
  // ---------------------------------------------------------------------------

  /** A tag as stored: non-empty, without ASCII capitals, not starting or
      ending with whitespace. */
  predicate NormalTag(t: string) {
    && t != ""
    && !IsJsWhitespace(t[0]) && !IsJsWhitespace(t[|t| - 1])
    && forall i :: 0 <= i < |t| ==> !IsUpperAscii(t[i])
  }

  /** `tag.trim().toLowerCase()`. */
  function NormalizeTag(part: string): (t: string)
    ensures t == "" || NormalTag(t)
  {
    LowerTrimmedIsNormal(Trim(part));
    LowerAscii(Trim(part))
  }

  /** Lower-casing a trimmed string gives a stored tag or nothing. */
  lemma LowerTrimmedIsNormal(trimmed: string)
    requires |trimmed| > 0 ==> !IsJsWhitespace(trimmed[0]) && !IsJsWhitespace(trimmed[|trimmed| - 1])
    ensures LowerAscii(trimmed) == "" || NormalTag(LowerAscii(trimmed))
  {
    if |trimmed| > 0 {
      LowerAsciiKeepsEndWhitespace(trimmed);
    }
  }

  lemma NormalizeTagFixesNormal(t: string)
    requires NormalTag(t)
    ensures NormalizeTag(t) == t
  {
    assert TrimStart(t) == t;
    assert Trim(t) == t;
    LowerAsciiFixesLower(t);
  }

  function NormalizeAll(parts: seq<string>): (r: seq<string>)
    ensures |r| == |parts|
    ensures forall k :: 0 <= k < |r| ==> r[k] == NormalizeTag(parts[k])
  {
    seq(|parts|, k requires 0 <= k < |parts| => NormalizeTag(parts[k]))
  }

  function NonEmptyTag(t: string): bool {
    t != ""
  }

  /** The `tags` transform: split at commas, trim and lower-case each piece,
      drop the empty ones; no tags when the field is missing or empty. */
  function ParseTags(raw: Option<string>): (tags: seq<string>)
    ensures forall t :: t in tags ==> NormalTag(t) && TagSeparator !in t
    ensures raw.None? || raw == Some("") ==> tags == []
  {
    if raw.None? || raw.value == "" then []
    else
      var parts := Split(raw.value, [TagSeparator]);
      SplitPiecesAvoidSeparator(raw.value, [TagSeparator]);
      forall k | 0 <= k < |parts|
        ensures TagSeparator !in NormalizeTag(parts[k])
      {
        SeparatorFreeAfterNormalize(parts[k]);
      }
      Filter(NormalizeAll(parts), NonEmptyTag)
  }

  /** A string in which the one-character string `[c]` does not occur has no `c`. */
  lemma NoOccurrenceNoChar(s: string, c: char)
    requires !Contains(s, [c])
    ensures c !in s
  {
    ContainsIffOccurs(s, [c]);
    forall j | 0 <= j < |s|
      ensures s[j] != c
    {
      assert s[j..j + 1] == [s[j]];
      assert !OccursAt(s, [c], j);
    }
  }

  /** A piece that does not contain the separator keeps not containing it. */
  lemma SeparatorFreeAfterNormalize(part: string)
    requires !Contains(part, [TagSeparator])
    ensures TagSeparator !in NormalizeTag(part)
  {
    NoOccurrenceNoChar(part, TagSeparator);
    TrimInfix(part);
    InfixKeepsAbsence(Trim(part), part, |part| - |TrimStart(part)|, TagSeparator);
    LowerAsciiKeepsAbsence(Trim(part), TagSeparator);
  }

  lemma InfixKeepsAbsence(r: string, s: string, i: int, c: char)
    requires InfixAt(r, s, i) && c !in s
    ensures c !in r
  {
    assert forall k :: 0 <= k < |r| ==> r[k] == s[i + k];
  }

  /** Lower-casing does not create a character that is not a letter. */
  lemma LowerAsciiKeepsAbsence(s: string, c: char)
    requires c !in s && !IsUpperAscii(c) && !('a' <= c <= 'z')
    ensures c !in LowerAscii(s)
  {
    forall k | 0 <= k < |s|
      ensures LowerAscii(s)[k] != c
    {
      assert s[k] in s;
    }
  }

  /** Stored tags joined with commas parse back to themselves. */
  lemma ParseTagsJoin(tags: seq<string>)
    requires forall t :: t in tags ==> NormalTag(t) && TagSeparator !in t
    ensures ParseTags(Some(Join(tags, [TagSeparator]))) == tags
  {
    if |tags| > 0 {
      var raw := Join(tags, [TagSeparator]);
      JoinStartsWithFirst(tags, [TagSeparator]);
      assert tags[0] in tags;
      SplitJoinSingle(tags, TagSeparator);
      forall k | 0 <= k < |tags|
        ensures NormalizeTag(tags[k]) == tags[k]
      {
        NormalizeTagFixesNormal(tags[k]);
      }
      assert NormalizeAll(tags) == tags;
      FilterKeepsAll(tags, NonEmptyTag);
    }
  }

  lemma JoinStartsWithFirst(parts: seq<string>, sep: string)
    requires |parts| > 0
    ensures |Join(parts, sep)| >= |parts[0]|
  {
  }

  // ---------------------------------------------------------------------------
  // Category and title
  // ---------------------------------------------------------------------------

  /** Some video host's name occurs in the link. */
  ghost predicate MentionsVideoHost(link: string) {
    exists h, i :: h in VideoHosts && OccursAt(link, h, i)
  }

  /** A link mentioning YouTube or Vimeo is a video, anything else an article. */
  function CategoryOf(link: string): (c: Category)
    ensures c == Video <==> MentionsVideoHost(link)
  {
    ContainsIffOccurs(link, VideoHosts[0]);
    ContainsIffOccurs(link, VideoHosts[1]);
    ContainsIffOccurs(link, VideoHosts[2]);
    if Contains(link, VideoHosts[0]) || Contains(link, VideoHosts[1]) || Contains(link, VideoHosts[2])
    then Video else Article
  }

  /** The stored title: the given one, else the AI's (asked for only when
      there is a link), else `Untitled Reference`. */
  function StoredTitle(title: Option<string>, link: string, ai: Option<string>): (r: string)
    ensures r != ""
    ensures title.Some? && title.value != "" ==> r == title.value
    ensures (title.None? || title.value == "") && link != "" && ai.Some? && ai.value != "" ==> r == ai.value
    ensures (title.None? || title.value == "") && (link == "" || ai.None? || ai.value == "") ==> r == UntitledReference
  {
    var chosen := if title.Some? && title.value != "" then title else if link != "" then ai else None;
    if chosen.Some? && chosen.value != "" then chosen.value else UntitledReference
  }

  /** A stored title survives another pass through the fallback. */
  lemma StoredTitleStable(title: Option<string>, link: string, ai: Option<string>, ai2: Option<string>)
    ensures StoredTitle(Some(StoredTitle(title, link, ai)), link, ai2) == StoredTitle(title, link, ai)
  {
  }

  // ---------------------------------------------------------------------------
  // addReferenceAction
  // ---------------------------------------------------------------------------

  /** The link must be a URL; an empty title counts as no title. */
  function ReferenceFormErrors(f: ReferenceForm, isUrl: string -> bool): (r: set<ReferenceField>)
    ensures r == {} <==> f.link.Some? && isUrl(f.link.value)
    ensures r == {} || r == {LinkField}
  {
    if f.link.Some? && isUrl(f.link.value) then {} else {LinkField}
  }

  /** The schema as written: `min(1)` on the optional title also rejects the
      empty title an untouched form field submits. */
  function ReferenceFormErrorsAsWritten(f: ReferenceForm, isUrl: string -> bool): (r: set<ReferenceField>)
    ensures TitleField in r <==> f.title == Some("")
    ensures LinkField in r <==> ReferenceFormErrors(f, isUrl) != {}
  {
    ReferenceFormErrors(f, isUrl) + (if f.title == Some("") then {TitleField} else {})
  }

  /** `addReferenceAction` with the title rule corrected: stores the reference
      under the push key `key`. */
  function AddReference(refs: seq<Reference>, userId: string, f: ReferenceForm, ai: Option<string>,
                        key: string, now: int, isUrl: string -> bool): (r: Result<(seq<Reference>, Reference), ReferenceError>)
    ensures userId == "" ==> r == Err(NotAuthenticated)
    ensures userId != "" ==>
      (r.Err? <==> f.link.None? || !isUrl(f.link.value))
      && (r.Err? ==> r.error == InvalidFields({LinkField}))
    ensures r.Ok? ==>
      var (store, x) := r.value;
      && store == refs + [x]
      && x.id == key && x.userId == userId && x.link == f.link.value && x.createdAt == now
      && x.notes == f.notes
      && x.title == StoredTitle(f.title, x.link, ai)
      && x.tags == ParseTags(f.tags)
      && (x.category == Video <==> MentionsVideoHost(x.link))
  {
    if userId == "" then Err(NotAuthenticated)
    else
      var errors := ReferenceFormErrors(f, isUrl);
      if errors != {} then Err(InvalidFields(errors))
      else
        var link := f.link.value;
        var x := Reference(key, userId, link, StoredTitle(f.title, link, ai), f.notes,
                           ParseTags(f.tags), CategoryOf(link), now);
        Ok((refs + [x], x))
  }

  /** `addReferenceAction` as written: the corrected action behind the stricter
      schema. */
  function AddReferenceAsWritten(refs: seq<Reference>, userId: string, f: ReferenceForm, ai: Option<string>,
                                 key: string, now: int, isUrl: string -> bool): (r: Result<(seq<Reference>, Reference), ReferenceError>)
    ensures r.Err? && userId != "" ==> r.error == InvalidFields(ReferenceFormErrorsAsWritten(f, isUrl))
    ensures r.Ok? ==> r == AddReference(refs, userId, f, ai, key, now, isUrl)
    ensures f.title != Some("") ==> r == AddReference(refs, userId, f, ai, key, now, isUrl)
  {
    if userId == "" then Err(NotAuthenticated)
    else
      var errors := ReferenceFormErrorsAsWritten(f, isUrl);
      assert f.title != Some("") ==> errors == ReferenceFormErrors(f, isUrl);
      if errors != {} then Err(InvalidFields(errors)) else AddReference(refs, userId, f, ai, key, now, isUrl)
  }

  /** As written, a valid link with the title left blank is refused, while the
      corrected action stores it under the AI's title or `Untitled Reference`. */
  lemma BlankTitleRejectedAsWritten(refs: seq<Reference>, userId: string, link: string,
                                    notes: Option<string>, tags: Option<string>, ai: Option<string>,
                                    key: string, now: int, isUrl: string -> bool)
    requires userId != "" && isUrl(link)
    ensures var f := ReferenceForm(Some(link), Some(""), notes, tags);
      && AddReferenceAsWritten(refs, userId, f, ai, key, now, isUrl) == Err(InvalidFields({TitleField}))
      && AddReference(refs, userId, f, ai, key, now, isUrl).Ok?
      && AddReference(refs, userId, f, ai, key, now, isUrl).value.1.title == StoredTitle(None, link, ai)
  {
    var f := ReferenceForm(Some(link), Some(""), notes, tags);
    assert ReferenceFormErrors(f, isUrl) == {};
    assert ReferenceFormErrorsAsWritten(f, isUrl) == {TitleField};
  }

  /** As written, a form that sends its title field never reaches the title
      fallback: whatever is stored is the typed title. */
  lemma SentTitleNeverFallsBackAsWritten(refs: seq<Reference>, userId: string, f: ReferenceForm, ai: Option<string>,
                                         key: string, now: int, isUrl: string -> bool)
    requires f.title.Some?
    requires AddReferenceAsWritten(refs, userId, f, ai, key, now, isUrl).Ok?
    ensures AddReferenceAsWritten(refs, userId, f, ai, key, now, isUrl).value.1.title == f.title.value
  {
    assert TitleField !in ReferenceFormErrorsAsWritten(f, isUrl);
  }

  // ---------------------------------------------------------------------------
  // getReferences, getAutocompleteTitle
  // ---------------------------------------------------------------------------

  predicate NewestFirst(a: Reference, b: Reference) {
    a.createdAt >= b.createdAt
  }

  lemma NewestFirstIsPreorder()
    ensures TotalPreorder(NewestFirst)
  {
  }

  function OwnedBy(userId: string): Reference -> bool {
    (x: Reference) => x.userId == userId
  }

  /** `getReferences`: the main administrator sees every reference, anyone
      else their own; newest first. */
  function VisibleReferences(refs: seq<Reference>, userId: string): (r: seq<Reference>)
    ensures forall x :: x in r <==> x in refs && (userId == MainAdminId || x.userId == userId)
    ensures userId == MainAdminId ==> multiset(r) == multiset(refs)
    ensures userId != MainAdminId ==> multiset(r) == multiset(Filter(refs, OwnedBy(userId)))
    ensures SortedBy(r, NewestFirst)
  {
    NewestFirstIsPreorder();
    var shown := if userId == MainAdminId then refs else Filter(refs, OwnedBy(userId));
    assert forall x :: x in multiset(shown) <==> x in shown;
    SortBy(shown, NewestFirst)
  }

  /** `getAutocompleteTitle`: an empty or malformed link is refused before the
      AI flow is asked. */
  function AutocompleteTitle(link: string, isUrl: string -> bool, ai: Option<string>): (r: Result<string, TitleError>)
    ensures r == Err(InvalidUrl) <==> link == "" || !isUrl(link)
    ensures r.Ok? <==> link != "" && isUrl(link) && ai.Some?
    ensures r.Ok? ==> r.value == ai.value
  {
    if link == "" || !isUrl(link) then Err(InvalidUrl)
    else if ai.None? then Err(AutocompleteFailed)
    else Ok(ai.value)
  }

  /** The guard does not depend on the AI flow. */
  lemma AutocompleteGuardIgnoresAi(link: string, isUrl: string -> bool, ai1: Option<string>, ai2: Option<string>)
    ensures AutocompleteTitle(link, isUrl, ai1).Ok? ==> AutocompleteTitle(link, isUrl, ai2).Ok? || ai2.None?
    ensures AutocompleteTitle(link, isUrl, ai1) == Err(InvalidUrl) <==> AutocompleteTitle(link, isUrl, ai2) == Err(InvalidUrl)
  {
  }
}

=== FILE: scorecell.dfy ===
/**
 * The admin performance table (src/app/admin/performance/page.tsx): the
 * editable score cell's input normaliser and blur decision, and each row's
 * total and average.
 *
 * `currentScore` is `number | null | undefined`: `undefined` when the record has
 * no entry for the week (the table looks the week up with `find`) or the entry
 * has no score field.
 */
module ScoreCell {
  import opened Common
  import opened Types
  import opened Performance

  // ---------------------------------------------------------------------------
  // handleInputChange
  // ---------------------------------------------------------------------------

  /** `/^[1-5]$/`: one digit from 1 to 5. */
  predicate IsScoreDigit(s: string) {
    |s| == 1 && '1' <= s[0] <= '5'
  }

  /** What the cell shows: nothing or one score digit. */
  predicate CellValue(s: string) {
    s == "" || IsScoreDigit(s)
  }

  /** `handleInputChange`: the input value after the user changes it to `value`,
      given the value it had (`shown`). */
  function NormalizeInput(value: string, shown: string): (r: string)
    ensures CellValue(value) ==> r == value
    ensures value != "" && AllDigits(value) && DecimalValue(value) > 5 ==> r == "5"
    ensures value != "" && AllDigits(value) && DecimalValue(value) < 1 ==> r == "1"
    ensures !AllDigits(value) ==> r == shown
    ensures |value| >= 2 && AllDigits(value) && 1 <= DecimalValue(value) <= 5 ==> r == "0"
  {
    if CellValue(value) then value
    else if value != "" && AllDigits(value) then
      var num := DecimalValue(value);
      if num > 5 then "5"
      else if num < 1 then "1"
      else
        assert |value| >= 2;
        SmallDigitStringsStartWithZero(value);
        value[..1]
    else shown
  }

  /** A digit string in 1..5 that is not a single score digit starts with 0. */
  lemma SmallDigitStringsStartWithZero(value: string)
    requires |value| >= 2 && AllDigits(value) && 1 <= DecimalValue(value) <= 5
    ensures value[0] == '0'
  {
    DecimalValueAtLeastFirstDigit(value);
  }

  /** The normaliser keeps the cell to nothing or one digit; with the input's
      one-character limit, to nothing or a score digit 1..5. */
  lemma NormalizeInputKeepsCellValue(value: string, shown: string)
    requires CellValue(shown)
    ensures var r := NormalizeInput(value, shown);
      (r == "" || (|r| == 1 && IsDigit(r[0])))
      && (|value| <= 1 ==> CellValue(r))
  {
    if !CellValue(value) && value != "" && AllDigits(value) {
      var num := DecimalValue(value);
      if 1 <= num <= 5 && |value| >= 2 {
        SmallDigitStringsStartWithZero(value);
      }
    }
  }

  // ---------------------------------------------------------------------------
  // parseInt
  // ---------------------------------------------------------------------------

  /** The longest prefix of digits. */
  function DigitPrefix(s: string): (r: string)
    ensures |r| <= |s| && r == s[..|r|] && AllDigits(r)
    ensures |r| < |s| ==> !IsDigit(s[|r|])
    decreases |s|
  {
    if |s| > 0 && IsDigit(s[0]) then
      var rest := DigitPrefix(s[1..]);
      assert s[1..][..|rest|] == s[1..|rest| + 1];
      [s[0]] + rest
    else ""
  }

  /** A digit string has no leading whitespace or sign, and is its own digit prefix. */
  lemma DigitsParseWhole(s: string)
    ensures AllDigits(s) && s != "" ==> TrimStart(s) == s && DigitPrefix(s) == s
  {
    if AllDigits(s) && s != "" {
      assert !IsJsWhitespace(s[0]);
    }
  }

  /** `parseInt(s, 10)`: skips leading whitespace, reads an optional sign and the
      longest run of digits; `None` stands for NaN (no digit). */
  function ParseInt(s: string): (r: Option<int>)
    ensures AllDigits(s) && s != "" ==> r == Some(DecimalValue(s))
    ensures s == "" ==> r.None?
  {
    var t := TrimStart(s);
    var negative := |t| > 0 && t[0] == '-';
    var unsigned := if |t| > 0 && (t[0] == '-' || t[0] == '+') then t[1..] else t;
    var digits := DigitPrefix(unsigned);
    DigitsParseWhole(s);
    if digits == "" then None
    else if negative then Some(0 - DecimalValue(digits))
    else Some(DecimalValue(digits))
  }

  // ---------------------------------------------------------------------------
  // handleBlur
  // ---------------------------------------------------------------------------

  /** The stored score a cell is showing. */
  datatype CurrentScore = Undefined | Null | Value(score: real)

  /** What leaving the cell does: restore the shown value without saving, do
      nothing, or call the update with a score (`None` is `null`). */
  datatype BlurOutcome = Revert | NoChange | Save(score: Option<int>)

  /** The score that leaving the cell would save: the parsed input when it is in
      1..5, `null` for an empty input, and nothing for any other input. */
  function ScoreToSave(input: string): (r: Option<Option<int>>)
    ensures r == Some(None) <==> input == ""
    ensures r.Some? && r.value.Some? ==> 1 <= r.value.value <= 5 && ParseInt(input) == r.value
  {
    var parsed := ParseInt(input);
    if parsed.Some? && 1 <= parsed.value <= 5 then Some(parsed)
    else if input != "" then None
    else Some(None)
  }

  /** `handleBlur` as written: the "no change" guard compares the score to save
      with `currentScore` by `===`, so an empty input over an `undefined` score
      is not recognised as "both empty". */
  function BlurAsWritten(input: string, current: CurrentScore): (r: BlurOutcome)
    ensures r == Revert <==> ScoreToSave(input).None?
    ensures r.Save? ==> Some(r.score) == ScoreToSave(input)
  {
    match ScoreToSave(input)
    case None => Revert
    case Some(Some(n)) => if current == Value(n as real) then NoChange else Save(Some(n))
    case Some(None) => if current == Null then NoChange else Save(None)
  }

  /** An empty cell over a week that has no stored score is saved as `null`. */
  lemma BlurAsWrittenSavesEmptyOverUndefined()
    ensures BlurAsWritten("", Undefined) == Save(None)
    ensures BlurAsWritten("", Null) == NoChange
  {
  }

  /** `handleBlur` as its comments intend: an empty input over a missing or
      `null` score is no change. */
  function Blur(input: string, current: CurrentScore): (r: BlurOutcome)
    ensures r == Revert <==> ScoreToSave(input).None?
    ensures r.Save? ==> Some(r.score) == ScoreToSave(input)
  {
    match ScoreToSave(input)
    case None => Revert
    case Some(Some(n)) => if current == Value(n as real) then NoChange else Save(Some(n))
    case Some(None) => if current == Null || current == Undefined then NoChange else Save(None)
  }

  /** The score the cell shows as stored, `None` for both `null` and `undefined`. */
  function Stored(current: CurrentScore): Option<real> {
    if current.Value? then Some(current.score) else None
  }

  /** With the intended guard, leaving a cell saves exactly when a valid entry
      differs from what is stored. */
  lemma BlurSavesIffChanged(input: string, current: CurrentScore)
    requires ScoreToSave(input).Some?
    ensures var s := ScoreToSave(input).value;
      var stored := if s.Some? then Some(s.value as real) else None;
      Blur(input, current).Save? <==> stored != Stored(current)
  {
  }

  /** The two versions differ only on an empty input over an `undefined` score. */
  lemma BlurAsWrittenDiffersOnlyThere(input: string, current: CurrentScore)
    ensures BlurAsWritten(input, current) != Blur(input, current)
      <==> input == "" && current == Undefined
  {
  }

  /** A cell showing what the normaliser leaves it (nothing or a score digit)
      never reverts. */
  lemma CellValueNeverReverts(input: string, current: CurrentScore)
    requires CellValue(input)
    ensures Blur(input, current) != Revert
    ensures BlurAsWritten(input, current) != Revert
  {
    if input != "" {
      assert AllDigits(input);
      assert DecimalValue(input) == (input[0] as int) - ('0' as int);
    }
  }

  // ---------------------------------------------------------------------------
  // Row total and average
  // ---------------------------------------------------------------------------

  /** `weeklyScores.reduce((sum, ws) => sum + (ws.score || 0), 0)`. */
  function RowTotal(ws: seq<WeeklyScore>): real
    decreases |ws|
  {
    if |ws| == 0 then 0.0 else ScoreValue(ws[0]) + RowTotal(ws[1..])
  }

  predicate HasScore(w: WeeklyScore) {
    w.score.Some?
  }

  /** The row average: total over the number of scored weeks, 0 when none is. */
  function RowAverage(ws: seq<WeeklyScore>): real {
    var scored := |Filter(ws, HasScore)|;
    if scored > 0 then RowTotal(ws) / (scored as real) else 0.0
  }

  lemma ScoreSumPrepend(w: WeeklyScore, ws: seq<WeeklyScore>)
    ensures ScoreSum([w] + ws) == ScoreValue(w) + ScoreSum(ws)
    ensures ScoredCount([w] + ws) == (if w.score.Some? then 1 else 0) + ScoredCount(ws)
    decreases |ws|
  {
    if |ws| > 0 {
      var init := ws[..|ws| - 1];
      assert ([w] + ws)[..|ws|] == [w] + init;
      ScoreSumPrepend(w, init);
    }
  }

  /** The table's total and count agree with the leaderboard's sum and count. */
  lemma {:induction false} RowTotalIsScoreSum(ws: seq<WeeklyScore>)
    ensures RowTotal(ws) == ScoreSum(ws)
    ensures |Filter(ws, HasScore)| == ScoredCount(ws)
    decreases |ws|
  {
    if |ws| > 0 {
      RowTotalIsScoreSum(ws[1..]);
      ScoreSumPrepend(ws[0], ws[1..]);
      assert ws == [ws[0]] + ws[1..];
    }
  }

  /** The table's average is the leaderboard's average of the same record. */
  lemma RowAverageIsLeaderboardAverage(ws: seq<WeeklyScore>)
    ensures RowAverage(ws) == Average(ws)
  {
    RowTotalIsScoreSum(ws);
  }
}

=== FILE: sidebarnav.dfy ===
/**
 * The sidebar (src/components/layout/sidebar-nav.tsx): which links it shows
 * for a role and a path, the removal of repeated links, and which link is
 * highlighted as the current page. Icons, tooltips and the logout button are
 * presentation and are not modelled.
 */
module SidebarNav {
  import opened Common

  datatype NavItem = NavItem(href: string, caption: string, adminOnly: bool, userOnly: bool)

  function Item(href: string, caption: string): NavItem {
    NavItem(href, caption, false, false)
  }

  /** The links of the user dashboard. */
  const UserNavItems: seq<NavItem> := [
    Item(DashboardRoot, "Dashboard"),
    Item(DashboardRoot + "/reference-library", "References"),
    Item(DashboardRoot + "/repository", "API Keys"),
    Item(DashboardRoot + "/tasks", "My Tasks")
  ]

  /** The extra link an administrator sees outside the admin section. */
  const AdminPanelItems: seq<NavItem> := [NavItem(AdminRoot, "Admin Panel", true, false)]

  /** The links of the admin section. */
  const AdminSectionItems: seq<NavItem> := [
    Item(AdminRoot, "Dashboard"),
    Item(AdminRoot + "/projects", "Projects Kanban"),
    Item(AdminRoot + "/tasks", "Task Management"),
    Item(AdminRoot + "/performance", "Team Performance"),
    Item(AdminRoot + "/analytics", "Analytics"),
    Item(AdminRoot + "/repository", "API Keys"),
    Item(AdminRoot + "/references", "References"),
    Item(AdminRoot + "/announcements", "Announcements"),
    Item(AdminRoot + "/users", "Manage Users"),
    Item(AdminRoot + "/settings/email", "Email Settings"),
    Item(AdminRoot + "/project-starters", "Configure Projects")
  ]

  const AdminRoot := "/admin"
  const DashboardRoot := "/dashboard"

  function NotUserOnly(x: NavItem): bool { !x.userOnly }
  function NotAdminOnly(x: NavItem): bool { !x.adminOnly }

  // ---------------------------------------------------------------------------
  // Items for a role and a path
  // ---------------------------------------------------------------------------

  /** The dashboard links are marked neither administrator-only nor
      user-only, so both role filters keep all of them. */
  lemma UserNavItemsUnflagged()
    ensures Filter(UserNavItems, NotUserOnly) == UserNavItems
    ensures Filter(UserNavItems, NotAdminOnly) == UserNavItems
  {
    assert forall i :: 0 <= i < |UserNavItems| ==> !UserNavItems[i].userOnly && !UserNavItems[i].adminOnly;
    FilterKeepsAll(UserNavItems, NotUserOnly);
    FilterKeepsAll(UserNavItems, NotAdminOnly);
  }

  /** `itemsToRender`: an administrator inside the admin section gets the
      section's links; elsewhere the dashboard links plus the Admin Panel link;
      anyone else the dashboard links that are not administrator-only. */
  function ItemsToRender(isAdmin: bool, pathname: string): (r: seq<NavItem>)
    ensures isAdmin && StartsWith(pathname, AdminRoot) ==> r == AdminSectionItems
    ensures isAdmin && !StartsWith(pathname, AdminRoot) ==> r == UserNavItems + AdminPanelItems
    ensures !isAdmin ==> r == UserNavItems
  {
    UserNavItemsUnflagged();
    if isAdmin && StartsWith(pathname, AdminRoot) then AdminSectionItems
    else if isAdmin then Filter(UserNavItems, NotUserOnly) + AdminPanelItems
    else Filter(UserNavItems, NotAdminOnly)
  }

  /** Only administrators are offered links into the admin section. */
  lemma NonAdminsStayOnDashboard(pathname: string)
    ensures forall x :: x in ItemsToRender(false, pathname) ==>
      !x.adminOnly && StartsWith(x.href, DashboardRoot) && !StartsWith(x.href, AdminRoot)
  {
    UserNavItemsUnderDashboard();
    forall x | x in UserNavItems
      ensures !StartsWith(x.href, AdminRoot)
    {
      DashboardIsNotAdmin(x.href);
    }
  }

  lemma UserNavItemsUnderDashboard()
    ensures forall x :: x in UserNavItems ==> !x.adminOnly && StartsWith(x.href, DashboardRoot)
  {
    forall i | 0 <= i < |UserNavItems|
      ensures StartsWith(UserNavItems[i].href, DashboardRoot)
    {
    }
  }

  lemma DashboardIsNotAdmin(href: string)
    requires StartsWith(href, DashboardRoot)
    ensures !StartsWith(href, AdminRoot)
  {
    assert href[1] == DashboardRoot[1];
  }

  /** An administrator can always reach the admin section's root. */
  lemma AdminsCanReachAdminRoot(pathname: string)
    ensures exists x :: x in ItemsToRender(true, pathname) && x.href == AdminRoot
  {
    if StartsWith(pathname, AdminRoot) {
      assert AdminSectionItems[0] in ItemsToRender(true, pathname);
    } else {
      assert (UserNavItems + AdminPanelItems)[4] in ItemsToRender(true, pathname);
    }
  }

  // ---------------------------------------------------------------------------
  // Removing repeated links
  // ---------------------------------------------------------------------------

  /** Two links count as the same when both their target and caption agree. */
  predicate SameLink(a: NavItem, b: NavItem) {
    a.href == b.href && a.caption == b.caption
  }

  /** `findIndex` of the first link that is the same as `x`, or -1. */
  function FindIndex(items: seq<NavItem>, x: NavItem): (r: int)
    ensures -1 <= r < |items|
    ensures r >= 0 ==> SameLink(items[r], x)
    ensures forall j :: 0 <= j < |items| && (r == -1 || j < r) ==> !SameLink(items[j], x)
    decreases |items|
  {
    if |items| == 0 then -1
    else if SameLink(items[0], x) then 0
    else
      var k := FindIndex(items[1..], x);
      if k == -1 then -1 else k + 1
  }

  /** `items[..n]` keeping each link whose index is the first of its kind in
      all of `items`. */
  function KeepFirstUpTo(items: seq<NavItem>, n: nat): seq<NavItem>
    requires n <= |items|
  {
    if n == 0 then []
    else KeepFirstUpTo(items, n - 1)
         + (if FindIndex(items, items[n - 1]) == n - 1 then [items[n - 1]] else [])
  }

  /** `uniqueFinalNavItems`. */
  function Dedupe(items: seq<NavItem>): seq<NavItem> {
    KeepFirstUpTo(items, |items|)
  }

  /** No two links are the same. */
  predicate NoRepeats(items: seq<NavItem>) {
    forall i, j :: 0 <= i < j < |items| ==> !SameLink(items[i], items[j])
  }

  /** What identifies a link for the de-duplication. */
  function LinkKey(x: NavItem): (string, string) {
    (x.href, x.caption)
  }

  function LinkKeys(items: seq<NavItem>): set<(string, string)> {
    set x | x in items :: LinkKey(x)
  }

  lemma LinkKeysAppend(items: seq<NavItem>, x: NavItem)
    ensures LinkKeys(items + [x]) == LinkKeys(items) + {LinkKey(x)}
  {
    assert forall y :: y in items + [x] <==> y in items || y == x;
  }

  /** The prefix pass keeps only links of the prefix. */
  lemma {:induction false} KeepFirstFromPrefix(items: seq<NavItem>, n: nat)
    requires n <= |items|
    ensures forall x :: x in KeepFirstUpTo(items, n) ==> x in items[..n]
  {
    if n > 0 {
      KeepFirstFromPrefix(items, n - 1);
      assert forall x :: x in items[..n - 1] ==> x in items[..n];
    }
  }

  /** The prefix pass keeps no two links that are the same. */
  lemma {:induction false} KeepFirstNoRepeats(items: seq<NavItem>, n: nat)
    requires n <= |items|
    ensures NoRepeats(KeepFirstUpTo(items, n))
  {
    if n > 0 {
      KeepFirstNoRepeats(items, n - 1);
      var prev := KeepFirstUpTo(items, n - 1);
      var last := items[n - 1];
      if FindIndex(items, last) == n - 1 {
        KeepFirstFromPrefix(items, n - 1);
        var kept := prev + [last];
        forall i, j | 0 <= i < j < |kept|
          ensures !SameLink(kept[i], kept[j])
        {
          if j == |prev| {
            assert kept[i] in items[..n - 1];
            var k :| 0 <= k < n - 1 && items[..n - 1][k] == kept[i];
            assert !SameLink(items[k], last);
          }
        }
      }
    }
  }

  /** Appending the same link to two lists with the same keys keeps their keys equal. */
  lemma KeysAfterKeeping(kept: seq<NavItem>, seen: seq<NavItem>, x: NavItem)
    requires LinkKeys(kept) == LinkKeys(seen)
    ensures LinkKeys(kept + [x]) == LinkKeys(seen + [x])
  {
    LinkKeysAppend(kept, x);
    LinkKeysAppend(seen, x);
  }

  /** Skipping a link whose key is already present keeps the keys equal. */
  lemma KeysAfterSkipping(kept: seq<NavItem>, seen: seq<NavItem>, x: NavItem)
    requires LinkKeys(kept) == LinkKeys(seen) && LinkKey(x) in LinkKeys(seen)
    ensures LinkKeys(kept) == LinkKeys(seen + [x])
  {
    LinkKeysAppend(seen, x);
  }

  /** The prefix pass keeps one link for every link of the prefix. */
  lemma {:induction false} KeepFirstKeys(items: seq<NavItem>, n: nat)
    requires n <= |items|
    ensures LinkKeys(KeepFirstUpTo(items, n)) == LinkKeys(items[..n])
  {
    if n > 0 {
      KeepFirstKeys(items, n - 1);
      var prev := KeepFirstUpTo(items, n - 1);
      var last := items[n - 1];
      assert items[..n] == items[..n - 1] + [last];
      var k := FindIndex(items, last);
      if k == n - 1 {
        assert KeepFirstUpTo(items, n) == prev + [last];
        KeysAfterKeeping(prev, items[..n - 1], last);
      } else {
        assert KeepFirstUpTo(items, n) == prev;
        assert 0 <= k < n - 1;
        assert items[..n - 1][k] == items[k];
        assert LinkKey(last) == LinkKey(items[k]);
        KeysAfterSkipping(prev, items[..n - 1], last);
      }
    }
  }

  /** What the prefix pass keeps: links of the list, no two the same, and one
      for every link of the prefix. */
  lemma KeepFirstUpToFacts(items: seq<NavItem>, n: nat)
    requires n <= |items|
    ensures forall x :: x in KeepFirstUpTo(items, n) ==> x in items
    ensures NoRepeats(KeepFirstUpTo(items, n))
    ensures LinkKeys(KeepFirstUpTo(items, n)) == LinkKeys(items[..n])
  {
    KeepFirstFromPrefix(items, n);
    KeepFirstNoRepeats(items, n);
    KeepFirstKeys(items, n);
    assert forall x :: x in items[..n] ==> x in items;
  }

  /** The rendered links: every one comes from the list, no two are the same,
      and every link of the list is represented. */
  lemma DedupeFacts(items: seq<NavItem>)
    ensures forall x :: x in Dedupe(items) ==> x in items
    ensures NoRepeats(Dedupe(items))
    ensures LinkKeys(Dedupe(items)) == LinkKeys(items)
  {
    KeepFirstUpToFacts(items, |items|);
    assert items[..|items|] == items;
  }

  /** A list without repeats passes through unchanged; in particular removing
      repeats twice is the same as once. */
  lemma {:induction false} DedupeKeepsDistinct(items: seq<NavItem>)
    requires NoRepeats(items)
    ensures Dedupe(items) == items
  {
    forall n | 0 <= n <= |items|
      ensures KeepFirstUpTo(items, n) == items[..n]
    {
      KeepFirstUpToIsPrefix(items, n);
    }
    assert items[..|items|] == items;
  }

  lemma {:induction false} KeepFirstUpToIsPrefix(items: seq<NavItem>, n: nat)
    requires NoRepeats(items) && n <= |items|
    ensures KeepFirstUpTo(items, n) == items[..n]
  {
    if n > 0 {
      KeepFirstUpToIsPrefix(items, n - 1);
      FindIndexWithoutRepeats(items, n - 1);
      assert items[..n] == items[..n - 1] + [items[n - 1]];
    }
  }

  /** Without repeats, every link is the first of its kind. */
  lemma FindIndexWithoutRepeats(items: seq<NavItem>, k: nat)
    requires NoRepeats(items) && k < |items|
    ensures FindIndex(items, items[k]) == k
  {
    var r := FindIndex(items, items[k]);
    assert SameLink(items[k], items[k]);
    assert r != -1 && !(r < k);
    assert !(k < r);
  }

  /** The indices below `n` that hold the first link of their kind, in
      increasing order. */
  function FirstIndices(items: seq<NavItem>, n: nat): (r: seq<nat>)
    requires n <= |items|
    ensures forall k :: 0 <= k < |r| ==> r[k] < n
  {
    if n == 0 then []
    else
      var prev := FirstIndices(items, n - 1);
      if FindIndex(items, items[n - 1]) == n - 1 then prev + [n - 1] else prev
  }

  lemma {:induction false} FirstIndicesIncreasing(items: seq<NavItem>, n: nat)
    requires n <= |items|
    ensures forall a, b :: 0 <= a < b < |FirstIndices(items, n)| ==>
      FirstIndices(items, n)[a] < FirstIndices(items, n)[b]
  {
    if n > 0 {
      FirstIndicesIncreasing(items, n - 1);
      var prev := FirstIndices(items, n - 1);
      if FindIndex(items, items[n - 1]) == n - 1 {
        var r := prev + [n - 1];
        assert FirstIndices(items, n) == r;
        forall a, b | 0 <= a < b < |r|
          ensures r[a] < r[b]
        {
          if b == |prev| {
            assert r[a] == prev[a] && prev[a] < n - 1 && r[b] == n - 1;
          } else {
            assert r[a] == prev[a] && r[b] == prev[b] && prev[a] < prev[b];
          }
        }
      } else {
        assert FirstIndices(items, n) == prev;
      }
    }
  }

  /** An index is listed exactly when its link is the first of its kind. */
  lemma {:induction false} FirstIndicesMembers(items: seq<NavItem>, n: nat)
    requires n <= |items|
    ensures forall i: int :: i in FirstIndices(items, n) <==> 0 <= i < n && FindIndex(items, items[i]) == i
  {
    forall i: int
      ensures i in FirstIndices(items, n) <==> 0 <= i < n && FindIndex(items, items[i]) == i
    {
      if 0 <= i < n {
        FirstIndexMember(items, n, i);
      } else {
        assert i !in FirstIndices(items, n);
      }
    }
  }

  lemma {:induction false} FirstIndexMember(items: seq<NavItem>, n: nat, i: int)
    requires 0 <= i < n <= |items|
    ensures i in FirstIndices(items, n) <==> FindIndex(items, items[i]) == i
  {
    var prev := FirstIndices(items, n - 1);
    var first := FindIndex(items, items[n - 1]) == n - 1;
    if !first {
      assert FirstIndices(items, n) == prev;
    } else {
      assert FirstIndices(items, n) == prev + [n - 1];
      assert (prev + [n - 1])[|prev|] == n - 1;
    }
    if i == n - 1 {
      assert i !in prev;
    } else {
      FirstIndexMember(items, n - 1, i);
      assert i in prev + [n - 1] <==> i in prev;
    }
  }

  /** The prefix pass keeps exactly the links at the first-of-their-kind
      indices, in their original order. */
  lemma {:induction false} KeepFirstAtFirstIndices(items: seq<NavItem>, n: nat)
    requires n <= |items|
    ensures |KeepFirstUpTo(items, n)| == |FirstIndices(items, n)|
    ensures forall k :: 0 <= k < |FirstIndices(items, n)| ==>
      KeepFirstUpTo(items, n)[k] == items[FirstIndices(items, n)[k]]
  {
    if n > 0 {
      KeepFirstAtFirstIndices(items, n - 1);
      var kept, idx := KeepFirstUpTo(items, n - 1), FirstIndices(items, n - 1);
      if FindIndex(items, items[n - 1]) == n - 1 {
        var r, ri := kept + [items[n - 1]], idx + [n - 1];
        assert KeepFirstUpTo(items, n) == r;
        assert FirstIndices(items, n) == ri;
        forall k | 0 <= k < |ri|
          ensures r[k] == items[ri[k]]
        {
          if k < |idx| {
            assert r[k] == kept[k] && ri[k] == idx[k];
          }
        }
      } else {
        assert KeepFirstUpTo(items, n) == kept;
        assert FirstIndices(items, n) == idx;
      }
    }
  }

  /** `uniqueFinalNavItems` keeps the first occurrence of every link and
      nothing else, in the order of the list: its k-th link is the link at the
      k-th index whose link occurs nowhere earlier. */
  lemma DedupeKeepsFirstOccurrences(items: seq<NavItem>)
    ensures var idx := FirstIndices(items, |items|);
      && |Dedupe(items)| == |idx|
      && (forall k :: 0 <= k < |idx| ==> Dedupe(items)[k] == items[idx[k]])
      && (forall a, b :: 0 <= a < b < |idx| ==> idx[a] < idx[b])
      && (forall i :: 0 <= i < |items| ==> (i in idx <==> forall j :: 0 <= j < i ==> !SameLink(items[j], items[i])))
  {
    KeepFirstAtFirstIndices(items, |items|);
    FirstIndicesIncreasing(items, |items|);
    FirstIndicesMembers(items, |items|);
    var idx := FirstIndices(items, |items|);
    forall i | 0 <= i < |items|
      ensures i in idx <==> forall j :: 0 <= j < i ==> !SameLink(items[j], items[i])
    {
      assert SameLink(items[i], items[i]);
    }
  }

  lemma DedupeIdempotent(items: seq<NavItem>)
    ensures Dedupe(Dedupe(items)) == Dedupe(items)
  {
    DedupeFacts(items);
    DedupeKeepsDistinct(Dedupe(items));
  }

  /** Links whose captions differ in length or first letter are never the
      same. */
  predicate CaptionsApart(items: seq<NavItem>) {
    forall i, j :: 0 <= i < j < |items| ==>
      |items[i].caption| != |items[j].caption|
      || (|items[i].caption| > 0 && |items[j].caption| > 0 && items[i].caption[0] != items[j].caption[0])
  }

  lemma CaptionsApartNoRepeats(items: seq<NavItem>)
    requires CaptionsApart(items)
    ensures NoRepeats(items)
  {
  }

  lemma AdminSectionItemsApart()
    ensures CaptionsApart(AdminSectionItems)
  {
  }

  lemma UserItemsApart()
    ensures CaptionsApart(UserNavItems) && CaptionsApart(UserNavItems + AdminPanelItems)
  {
  }

  /** The sidebar's own lists have no repeats, so the de-duplication never
      drops a link. */
  lemma RenderedItemsAreAllItems(isAdmin: bool, pathname: string)
    ensures Dedupe(ItemsToRender(isAdmin, pathname)) == ItemsToRender(isAdmin, pathname)
  {
    AdminSectionItemsApart();
    UserItemsApart();
    var items := ItemsToRender(isAdmin, pathname);
    CaptionsApartNoRepeats(items);
    DedupeKeepsDistinct(items);
  }

  // ---------------------------------------------------------------------------
  // The highlighted link
  // ---------------------------------------------------------------------------

  /** Whether the link to `href` is highlighted on `pathname`: an exact match,
      or for links other than the two section roots and `/` a path below the
      link at a segment boundary. */
  function IsActive(href: string, pathname: string): (active: bool)
    ensures pathname == href ==> active
    ensures href == AdminRoot || href == DashboardRoot || href == "/" ==> (active <==> pathname == href)
    ensures active && pathname != href && !EndsWith(href, "/") ==>
      |pathname| > |href| && pathname[..|href|] == href && pathname[|href|] == '/'
    ensures href != AdminRoot && href != DashboardRoot && href != "/" ==>
      (active <==> pathname == href || StartsWith(pathname, href + (if EndsWith(href, "/") then "" else "/")))
  {
    var exact := pathname == href;
    var below := href + (if EndsWith(href, "/") then "" else "/");
    var widened := if href != AdminRoot && href != DashboardRoot && href != "/" then exact || StartsWith(pathname, below) else exact;
    var notAdminRoot := if href == AdminRoot && pathname != AdminRoot && StartsWith(pathname, AdminRoot + "/") then false else widened;
    var active := if href == DashboardRoot && pathname != DashboardRoot && StartsWith(pathname, DashboardRoot + "/") then false else notAdminRoot;
    BelowAtSegment(href, pathname);
    active
  }

  /** A path that starts with the link and a slash lies below the link at a
      segment boundary. */
  lemma BelowAtSegment(href: string, pathname: string)
    ensures StartsWith(pathname, href + "/") ==>
      |pathname| > |href| && pathname[..|href|] == href && pathname[|href|] == '/'
  {
    var below := href + "/";
    if StartsWith(pathname, below) {
      assert pathname[..|href|] == pathname[..|below|][..|href|] == below[..|href|];
      assert pathname[|href|] == pathname[..|below|][|href|] == below[|href|];
    }
  }

  /** On a path below a section page, the section root is not highlighted but
      the page's own link is. */
  lemma SubRouteHighlightsPageNotRoot(page: string, rest: string)
    requires page in {"/admin/tasks", "/admin/users", "/dashboard/tasks"}
    ensures var pathname := page + "/" + rest;
      && !IsActive(AdminRoot, pathname) && !IsActive(DashboardRoot, pathname)
      && IsActive(page, pathname)
  {
    var pathname := page + "/" + rest;
    assert pathname[..|page| + 1] == page + "/";
    assert |pathname| > |AdminRoot| && pathname[|AdminRoot|] != AdminRoot[|AdminRoot| - 1];
  }
}

=== FILE: sorting.dfy ===
/**
 * `Array.prototype.sort` with a comparator, as the application uses it: a
 * stable sort whose comparator induces a total preorder (ties are possible,
 * e.g. two tasks created at the same instant). The model is a stable
 * insertion sort over a "may come first" relation `le`.
 */
module Sorting {

  ghost predicate Total<T(!new)>(le: (T, T) -> bool) {
    forall a, b :: le(a, b) || le(b, a)
  }

  ghost predicate Transitive<T(!new)>(le: (T, T) -> bool) {
    forall a, b, c :: le(a, b) && le(b, c) ==> le(a, c)
  }

  /** What a consistent comparator provides. */
  ghost predicate TotalPreorder<T(!new)>(le: (T, T) -> bool) {
    Total(le) && Transitive(le)
  }

  /** Every element may come before every later one. */
  ghost predicate SortedBy<T>(s: seq<T>, le: (T, T) -> bool) {
    forall i, j :: 0 <= i < j < |s| ==> le(s[i], s[j])
  }

  /** Inserts `x` in front of the first element it may precede. */
  function Insert<T(!new)>(x: T, s: seq<T>, le: (T, T) -> bool): (r: seq<T>)
    ensures |r| == |s| + 1
    ensures multiset(r) == multiset(s) + multiset{x}
    decreases |s|
  {
    if |s| == 0 then [x]
    else if le(x, s[0]) then [x] + s
    else
      assert s == [s[0]] + s[1..];
      [s[0]] + Insert(x, s[1..], le)
  }

  /** The sorted permutation of `s`; equal-ranked elements keep their order. */
  function SortBy<T(!new)>(s: seq<T>, le: (T, T) -> bool): (r: seq<T>)
    ensures |r| == |s|
    ensures multiset(r) == multiset(s)
    ensures TotalPreorder(le) ==> SortedBy(r, le)
    decreases |s|
  {
    if |s| == 0 then []
    else
      var rest := SortBy(s[1..], le);
      assert s == [s[0]] + s[1..];
      InsertKeepsOrder(s[0], rest, le);
      Insert(s[0], rest, le)
  }

  /** Insertion keeps a sorted sequence sorted. */
  lemma {:induction false} InsertSorted<T(!new)>(x: T, s: seq<T>, le: (T, T) -> bool)
    requires TotalPreorder(le)
    requires SortedBy(s, le)
    ensures SortedBy(Insert(x, s, le), le)
    decreases |s|
  {
    if |s| > 0 && !le(x, s[0]) {
      var tail := Insert(x, s[1..], le);
      InsertSorted(x, s[1..], le);
      assert le(s[0], x);
      forall k | 0 <= k < |tail|
        ensures le(s[0], tail[k])
      {
        assert tail[k] in multiset(tail);
        if tail[k] != x {
          assert tail[k] in multiset(s[1..]);
          var m :| 0 <= m < |s[1..]| && s[1..][m] == tail[k];
          assert s[1 + m] == tail[k];
        }
      }
      var r := Insert(x, s, le);
      assert r == [s[0]] + tail;
      forall i, j | 0 <= i < j < |r|
        ensures le(r[i], r[j])
      {
        if i == 0 {
          assert r[j] == tail[j - 1];
        } else {
          assert r[i] == tail[i - 1] && r[j] == tail[j - 1];
        }
      }
    }
  }

  lemma InsertKeepsOrder<T(!new)>(x: T, s: seq<T>, le: (T, T) -> bool)
    ensures TotalPreorder(le) && SortedBy(s, le) ==> SortedBy(Insert(x, s, le), le)
  {
    if TotalPreorder(le) && SortedBy(s, le) {
      InsertSorted(x, s, le);
    }
  }

  /** Sorting a sequence that is already in order returns it unchanged
      (this is what stability buys: no reordering of ties). */
  lemma {:induction false} SortBySortedIdentity<T(!new)>(s: seq<T>, le: (T, T) -> bool)
    requires SortedBy(s, le)
    ensures SortBy(s, le) == s
    decreases |s|
  {
    if |s| > 0 {
      assert SortedBy(s[1..], le);
      SortBySortedIdentity(s[1..], le);
      assert s == [s[0]] + s[1..];
    }
  }
}

=== FILE: tasks.dfy ===
/**
 * Task server actions (src/app/actions/tasks.ts): the new-task form rules, the
 * enrichment of a stored task with display names, the per-user and admin task
 * lists, and the checks on status updates and deletion.
 *
 * The `tasks` collection is a sequence in key order, each task carrying its key
 * as `id`. The users and projects read for enrichment are parameters. Zod's URL
 * and datetime checks are the predicates `isUrl` and `isDateTime`.
 */
module Tasks {
  import opened Common
  import opened Sorting
  import opened Types

  datatype TaskStatus = ToDo | InProgress | Completed | Blocked

  datatype Task = Task(
    id: string,
    title: string,
    description: Option<string>,
    referenceUrl: Option<string>,
    assignedToUserIds: seq<string>,
    assignedByUserId: string,
    createdAt: int,
    dueDate: Option<string>,
    status: TaskStatus,
    assignedToUserNames: Option<seq<string>>,
    assignedByUserName: Option<string>,
    projectId: Option<string>,
    projectName: Option<string>)

  /** Why an action was refused. */
  datatype TaskError =
    | NotAuthenticated               // the creator is not a stored user
    | InvalidFields(fields: set<TaskField>)
    | TaskNotFound
    | NotAuthorized                  // neither an assignee nor an administrator

  datatype TaskField = TitleField | DescriptionField | UrlField | AssigneesField | DueDateField | StatusField | ProjectField

  /** The select's value meaning "no project". */
  const NoProjectSentinel := "_NO_PROJECT_"

  // ---------------------------------------------------------------------------
  // enrichTaskWithDetails
  // ---------------------------------------------------------------------------

  /** `allUsers.filter(u => task.assignedToUserIds.includes(u.id))`. */
  function IsAssignee(task: Task): User -> bool {
    (u: User) => u.id in task.assignedToUserIds
  }

  function NamesOf(users: seq<User>): (r: seq<string>)
    ensures |r| == |users| && forall i :: 0 <= i < |users| ==> r[i] == users[i].name
  {
    seq(|users|, i requires 0 <= i < |users| => users[i].name)
  }

  function FindProject(projects: seq<Project>, id: string): (r: Option<Project>)
    ensures r.Some? ==> r.value in projects && r.value.id == id
    ensures r.None? <==> forall p :: p in projects ==> p.id != id
  {
    if |projects| == 0 then None
    else if projects[0].id == id then Some(projects[0])
    else FindProject(projects[1..], id)
  }

  /** The names of the users the task is assigned to, in user-list order. */
  function AssigneeNames(task: Task, users: seq<User>): (r: seq<string>)
    ensures forall u :: u in users && u.id in task.assignedToUserIds ==> u.name in r
    ensures forall n :: n in r ==> exists u :: u in users && u.id in task.assignedToUserIds && u.name == n
  {
    var assignees := Filter(users, IsAssignee(task));
    var names := NamesOf(assignees);
    assert forall u :: u in assignees ==> exists i :: 0 <= i < |assignees| && assignees[i] == u && names[i] == u.name;
    assert forall n :: n in names ==> exists i :: 0 <= i < |assignees| && assignees[i].name == n;
    names
  }

  /** `assignedByUser?.name || task.assignedByUserId`. */
  function AssignerName(task: Task, users: seq<User>): (r: string)
    ensures FindUser(users, task.assignedByUserId).None? ==> r == task.assignedByUserId
    ensures FindUser(users, task.assignedByUserId).Some? ==>
      var u := FindUser(users, task.assignedByUserId).value;
      r == if u.name != "" then u.name else task.assignedByUserId
  {
    var assigner := FindUser(users, task.assignedByUserId);
    if assigner.Some? && assigner.value.name != "" then assigner.value.name else task.assignedByUserId
  }

  /** The name of the project the task names, when its id is non-empty and
      matches a project. */
  function ProjectNameOf(task: Task, projects: seq<Project>): (r: Option<string>)
    ensures r.Some? <==>
      task.projectId.Some? && task.projectId.value != "" && FindProject(projects, task.projectId.value).Some?
    ensures r.Some? ==> exists p :: p in projects && p.id == task.projectId.value && p.name == r.value
  {
    var project := if task.projectId.Some? && task.projectId.value != "" then FindProject(projects, task.projectId.value) else None;
    if project.Some? then Some(project.value.name) else None
  }

  /** `enrichTaskWithDetails`: the stored task plus the assignees' names, the
      assigner's name and the project's name; nothing stored changes. */
  function Enrich(task: Task, users: seq<User>, projects: seq<Project>): (r: Task)
    ensures r.(assignedToUserNames := task.assignedToUserNames,
               assignedByUserName := task.assignedByUserName,
               projectName := task.projectName) == task
    ensures r.assignedToUserNames == Some(AssigneeNames(task, users))
    ensures r.assignedByUserName == Some(AssignerName(task, users))
    ensures r.projectName == ProjectNameOf(task, projects)
  {
    task.(assignedToUserNames := Some(AssigneeNames(task, users)),
          assignedByUserName := Some(AssignerName(task, users)),
          projectName := ProjectNameOf(task, projects))
  }

  /** Enrichment reads only stored fields, so enriching twice changes nothing. */
  lemma EnrichIdempotent(task: Task, users: seq<User>, projects: seq<Project>)
    ensures Enrich(Enrich(task, users, projects), users, projects) == Enrich(task, users, projects)
  {
    var e := Enrich(task, users, projects);
    assert e.assignedToUserIds == task.assignedToUserIds;
    assert IsAssignee(e) == IsAssignee(task);
  }

  function EnrichAll(tasks: seq<Task>, users: seq<User>, projects: seq<Project>): (r: seq<Task>)
    ensures |r| == |tasks| && forall i :: 0 <= i < |tasks| ==> r[i] == Enrich(tasks[i], users, projects)
  {
    seq(|tasks|, i requires 0 <= i < |tasks| => Enrich(tasks[i], users, projects))
  }

  // ---------------------------------------------------------------------------
  // getTasksForUserAction, getTasksForAdminAction
  // ---------------------------------------------------------------------------

  /** The user list's status order: To Do, In Progress, Blocked, Completed. */
  function StatusRank(s: TaskStatus): (r: int)
    ensures 1 <= r <= 4
  {
    match s
    case ToDo() => 1
    case InProgress() => 2
    case Blocked() => 3
    case Completed() => 4
  }

  /** The user list's comparator: by status rank, then oldest first. */
  predicate UserTaskLe(a: Task, b: Task) {
    StatusRank(a.status) < StatusRank(b.status)
    || (StatusRank(a.status) == StatusRank(b.status) && a.createdAt <= b.createdAt)
  }

  /** The admin list's comparator: newest first. */
  predicate NewestFirst(a: Task, b: Task) {
    a.createdAt >= b.createdAt
  }

  lemma TaskOrdersArePreorders()
    ensures TotalPreorder(UserTaskLe)
    ensures TotalPreorder(NewestFirst)
  {
  }

  function AssignedTo(userId: string): Task -> bool {
    (t: Task) => userId in t.assignedToUserIds
  }

  /** `getTasksForUserAction`: the enriched tasks assigned to the user, by status
      rank and then oldest first. */
  function UserTasks(tasks: seq<Task>, userId: string, users: seq<User>, projects: seq<Project>): (r: seq<Task>)
    ensures multiset(r) == multiset(EnrichAll(Filter(tasks, AssignedTo(userId)), users, projects))
    ensures SortedBy(r, UserTaskLe)
  {
    TaskOrdersArePreorders();
    SortBy(EnrichAll(Filter(tasks, AssignedTo(userId)), users, projects), UserTaskLe)
  }

  /** A user's list shows exactly the (enriched) tasks they are assigned. */
  lemma UserTasksAreTheAssignedOnes(tasks: seq<Task>, userId: string, users: seq<User>, projects: seq<Project>, t: Task)
    ensures t in UserTasks(tasks, userId, users, projects) <==>
      exists s :: s in tasks && userId in s.assignedToUserIds && t == Enrich(s, users, projects)
  {
    var mine := Filter(tasks, AssignedTo(userId));
    var shown := EnrichAll(mine, users, projects);
    assert t in UserTasks(tasks, userId, users, projects) <==> t in multiset(shown);
    if t in shown {
      var i :| 0 <= i < |shown| && shown[i] == t;
      assert mine[i] in mine;
    }
    if s :| s in tasks && userId in s.assignedToUserIds && t == Enrich(s, users, projects) {
      assert AssignedTo(userId)(s);
      var i :| 0 <= i < |mine| && mine[i] == s;
      assert shown[i] == t;
    }
  }

  /** `getTasksForAdminAction`: every enriched task, newest first, for a caller
      who is a stored administrator; nothing for anyone else. */
  function AdminTasks(tasks: seq<Task>, adminId: string, users: seq<User>, projects: seq<Project>): (r: seq<Task>)
    ensures FindUser(users, adminId).None? || !FindUser(users, adminId).value.isAdmin ==> r == []
    ensures FindUser(users, adminId).Some? && FindUser(users, adminId).value.isAdmin ==>
      multiset(r) == multiset(EnrichAll(tasks, users, projects))
    ensures SortedBy(r, NewestFirst)
  {
    var admin := FindUser(users, adminId);
    if admin.None? || !admin.value.isAdmin then []
    else
      TaskOrdersArePreorders();
      SortBy(EnrichAll(tasks, users, projects), NewestFirst)
  }

  // ---------------------------------------------------------------------------
  // addTaskAction and AddTaskSchema
  // ---------------------------------------------------------------------------

  /** The submitted form; `None` is a field missing from the form data, which
      `formData.get` reads as `null`. */
  datatype TaskForm = TaskForm(
    title: Option<string>,
    description: Option<string>,
    referenceUrl: Option<string>,
    assignedToUserIds: seq<string>,
    dueDate: Option<string>,
    status: Option<string>,
    projectId: Option<string>)

  /** The enum's four labels. */
  function ParseStatus(s: string): (r: Option<TaskStatus>)
    ensures r.Some? <==> s in {"To Do", "In Progress", "Completed", "Blocked"}
  {
    if s == "To Do" then Some(TaskStatus.ToDo)
    else if s == "In Progress" then Some(TaskStatus.InProgress)
    else if s == "Completed" then Some(TaskStatus.Completed)
    else if s == "Blocked" then Some(TaskStatus.Blocked)
    else None
  }

  /** Whether the form passes `AddTaskSchema`'s rule for one field. */
  predicate TaskFieldPasses(f: TaskForm, field: TaskField, isUrl: string -> bool, isDateTime: string -> bool) {
    match field
    case TitleField => f.title.Some? && |f.title.value| >= 1
    case DescriptionField => f.description.Some?
    case UrlField => f.referenceUrl.Some? && (f.referenceUrl.value == "" || isUrl(f.referenceUrl.value))
    case AssigneesField =>
      |f.assignedToUserIds| >= 1 && forall i :: 0 <= i < |f.assignedToUserIds| ==> f.assignedToUserIds[i] != ""
    case DueDateField => f.dueDate.Some? && (f.dueDate.value == "" || isDateTime(f.dueDate.value))
    case StatusField => f.status.Some? && ParseStatus(f.status.value).Some?
    case ProjectField => f.projectId.Some?
  }

  const TaskFields: set<TaskField> :=
    {TitleField, DescriptionField, UrlField, AssigneesField, DueDateField, StatusField, ProjectField}

  /** The fields `AddTaskSchema` rejects. An empty due date is read as absent
      before validation; a `null` field fails every rule. */
  function TaskFormErrors(f: TaskForm, isUrl: string -> bool, isDateTime: string -> bool): (r: set<TaskField>)
    ensures TitleField !in r <==> f.title.Some? && |f.title.value| >= 1
    ensures DescriptionField !in r <==> f.description.Some?
    ensures UrlField !in r <==> f.referenceUrl.Some? && (f.referenceUrl.value == "" || isUrl(f.referenceUrl.value))
    ensures AssigneesField !in r <==> |f.assignedToUserIds| >= 1 && forall i :: 0 <= i < |f.assignedToUserIds| ==> f.assignedToUserIds[i] != ""
    ensures DueDateField !in r <==> f.dueDate.Some? && (f.dueDate.value == "" || isDateTime(f.dueDate.value))
    ensures StatusField !in r <==> f.status.Some? && ParseStatus(f.status.value).Some?
    ensures ProjectField !in r <==> f.projectId.Some?
  {
    set field | field in TaskFields && !TaskFieldPasses(f, field, isUrl, isDateTime)
  }

  /** `projectId` after the schema's transform and `projectId || undefined`. */
  function ChosenProject(value: string): (r: Option<string>)
    ensures r.None? <==> value == NoProjectSentinel || value == ""
    ensures r.Some? ==> r.value == value
  {
    if value == NoProjectSentinel || value == "" then None else Some(value)
  }

  /** `addTaskAction`: a stored creator's valid form becomes a task under the new
      push key `key`, created at `now`, and is returned enriched. */
  function AddTask(tasks: seq<Task>, creatorId: string, f: TaskForm, key: string, now: int,
                   users: seq<User>, projects: seq<Project>,
                   isUrl: string -> bool, isDateTime: string -> bool): (r: Result<(seq<Task>, Task), TaskError>)
    ensures FindUser(users, creatorId).None? ==> r == Err(NotAuthenticated)
    ensures FindUser(users, creatorId).Some? ==>
      (r.Err? <==> TaskFormErrors(f, isUrl, isDateTime) != {})
      && (r.Err? ==> r.error == InvalidFields(TaskFormErrors(f, isUrl, isDateTime)))
    ensures r.Ok? ==> |r.value.0| == |tasks| + 1 && r.value.0[..|tasks|] == tasks
    ensures r.Ok? ==>
      var (store, shown) := r.value;
      var t := store[|store| - 1];
      t.id == key && t.createdAt == now && t.assignedByUserId == creatorId
      && t.title == f.title.value && t.assignedToUserIds == f.assignedToUserIds
      && Some(t.status) == ParseStatus(f.status.value)
      && t.projectId == ChosenProject(f.projectId.value)
      && (t.referenceUrl.None? <==> f.referenceUrl.value == "")
      && (t.dueDate.None? <==> f.dueDate.value == "")
      && t.assignedToUserNames.None? && t.assignedByUserName.None? && t.projectName.None?
      && shown == Enrich(t, users, projects)
  {
    if FindUser(users, creatorId).None? then Err(NotAuthenticated)
    else
      var errors := TaskFormErrors(f, isUrl, isDateTime);
      if errors != {} then Err(InvalidFields(errors))
      else
        var url := f.referenceUrl.value;
        var due := f.dueDate.value;
        var t := Task(key, f.title.value, f.description, if url == "" then None else Some(url),
                      f.assignedToUserIds, creatorId, now, if due == "" then None else Some(due),
                      ParseStatus(f.status.value).value, None, None, ChosenProject(f.projectId.value), None);
        Ok((tasks + [t], Enrich(t, users, projects)))
  }

  /** A new task shows up in the list of each of its assignees. */
  lemma AddedTaskReachesAssignees(tasks: seq<Task>, creatorId: string, f: TaskForm, key: string, now: int,
                                  users: seq<User>, projects: seq<Project>,
                                  isUrl: string -> bool, isDateTime: string -> bool, assignee: string)
    requires AddTask(tasks, creatorId, f, key, now, users, projects, isUrl, isDateTime).Ok?
    requires assignee in f.assignedToUserIds
    ensures var (store, shown) := AddTask(tasks, creatorId, f, key, now, users, projects, isUrl, isDateTime).value;
      shown in UserTasks(store, assignee, users, projects)
  {
    var (store, shown) := AddTask(tasks, creatorId, f, key, now, users, projects, isUrl, isDateTime).value;
    var t := store[|store| - 1];
    UserTasksAreTheAssignedOnes(store, assignee, users, projects, shown);
    assert t in store && assignee in t.assignedToUserIds;
  }

  // ---------------------------------------------------------------------------
  // updateTaskStatusAction, deleteTaskAction
  // ---------------------------------------------------------------------------

  function FindTask(tasks: seq<Task>, id: string): (r: Option<Task>)
    ensures r.Some? ==> r.value in tasks && r.value.id == id
    ensures r.None? <==> forall t :: t in tasks ==> t.id != id
    ensures r.Some? ==> exists i :: 0 <= i < |tasks| && tasks[i] == r.value && forall j :: 0 <= j < i ==> tasks[j].id != id
  {
    if |tasks| == 0 then None
    else if tasks[0].id == id then Some(tasks[0])
    else
      var r := FindTask(tasks[1..], id);
      if r.Some? then
        var i :| 0 <= i < |tasks[1..]| && tasks[1..][i] == r.value && forall j :: 0 <= j < i ==> tasks[1..][j].id != id;
        assert tasks[i + 1] == r.value;
        r
      else r
  }

  /** The store with the task under `id` written over by `t`. */
  function PutTask(tasks: seq<Task>, id: string, t: Task): (r: seq<Task>)
    ensures |r| == |tasks|
    ensures forall i :: 0 <= i < |tasks| ==> r[i] == if tasks[i].id == id then t else tasks[i]
  {
    seq(|tasks|, i requires 0 <= i < |tasks| => if tasks[i].id == id then t else tasks[i])
  }

  /** May this caller change the task's status: an assignee, or a stored
      administrator. */
  predicate MayUpdate(task: Task, userId: string, users: seq<User>) {
    userId in task.assignedToUserIds || (FindUser(users, userId).Some? && FindUser(users, userId).value.isAdmin)
  }

  /** `updateTaskStatusAction`: an assignee or an administrator sets the status
      of an existing task; the returned task is the updated one, enriched. */
  function UpdateTaskStatus(tasks: seq<Task>, taskId: string, newStatus: TaskStatus, userId: string,
                            users: seq<User>, projects: seq<Project>): (r: Result<(seq<Task>, Task), TaskError>)
    ensures FindTask(tasks, taskId).None? ==> r == Err(TaskNotFound)
    ensures FindTask(tasks, taskId).Some? ==>
      var t := FindTask(tasks, taskId).value;
      && (r.Err? <==> !MayUpdate(t, userId, users))
      && (r.Err? ==> r.error == NotAuthorized)
      && (r.Ok? ==> r.value == (PutTask(tasks, taskId, t.(status := newStatus)), Enrich(t.(status := newStatus), users, projects)))
  {
    var found := FindTask(tasks, taskId);
    if found.None? then Err(TaskNotFound)
    else if !MayUpdate(found.value, userId, users) then Err(NotAuthorized)
    else
      var t := found.value.(status := newStatus);
      Ok((PutTask(tasks, taskId, t), Enrich(t, users, projects)))
  }

  /** After a status update the task reads back with the new status and every
      other field as before, and no other task changes. */
  lemma UpdateTaskStatusReadBack(tasks: seq<Task>, taskId: string, newStatus: TaskStatus, userId: string,
                                 users: seq<User>, projects: seq<Project>)
    requires UpdateTaskStatus(tasks, taskId, newStatus, userId, users, projects).Ok?
    ensures var store := UpdateTaskStatus(tasks, taskId, newStatus, userId, users, projects).value.0;
      var before := FindTask(tasks, taskId).value;
      && FindTask(store, taskId) == Some(before.(status := newStatus))
      && FindTask(store, taskId).value.(status := before.status) == before
      && forall i :: 0 <= i < |tasks| && tasks[i].id != taskId ==> store[i] == tasks[i]
  {
    var store := UpdateTaskStatus(tasks, taskId, newStatus, userId, users, projects).value.0;
    var before := FindTask(tasks, taskId).value;
    var i :| 0 <= i < |tasks| && tasks[i] == before && forall j :: 0 <= j < i ==> tasks[j].id != taskId;
    FindTaskAt(store, taskId, i);
  }

  /** The first task under `id` is the one at an index before which no task has it. */
  lemma {:induction false} FindTaskAt(tasks: seq<Task>, id: string, i: int)
    requires 0 <= i < |tasks| && tasks[i].id == id
    requires forall j :: 0 <= j < i ==> tasks[j].id != id
    ensures FindTask(tasks, id) == Some(tasks[i])
    decreases i
  {
    if i > 0 {
      FindTaskAt(tasks[1..], id, i - 1);
    }
  }

  /** `deleteTaskAction`: a stored administrator removes the task (removing a
      missing one succeeds and changes nothing). */
  function DeleteTask(tasks: seq<Task>, taskId: string, userId: string, users: seq<User>): (r: Result<seq<Task>, TaskError>)
    ensures r.Err? <==> FindUser(users, userId).None? || !FindUser(users, userId).value.isAdmin
    ensures r.Err? ==> r.error == NotAuthorized
    ensures r.Ok? ==> forall t :: t in r.value <==> t in tasks && t.id != taskId
    ensures r.Ok? ==> FindTask(r.value, taskId).None?
  {
    var caller := FindUser(users, userId);
    if caller.None? || !caller.value.isAdmin then Err(NotAuthorized)
    else Ok(Filter(tasks, (t: Task) => t.id != taskId))
  }
}

=== FILE: types.dfy ===
/**
 * Entities shared by several parts of the application (src/types/index.ts):
 * users, weekly score records and monthly performance records, leaderboard
 * entries and projects. Entities used by one server action only live with that action.
 *
 * ISO timestamps are represented by their time value in milliseconds, which is
 * all the application compares them by. Optional fields are `Option`s.
 */
module Types {
  import opened Common
  import opened Calendar

  datatype User = User(
    id: string,
    name: string,
    email: Option<string>,
    pin: string,
    pinFirstTwo: string,
    isAdmin: bool,
    createdAt: int,
    avatarUrl: Option<string>)

  /** One Friday-started week of a month and its score; `None` is "not entered". */
  datatype WeeklyScore = WeeklyScore(weekStart: Date, score: Option<real>)

  /** The record stored under monthlyPerformance/userId/year/month. */
  datatype MonthlyPerformance = MonthlyPerformance(
    userId: string,
    year: int,
    month: int,
    weeklyScores: seq<WeeklyScore>)

  /** A leaderboard entry; `rank` is filled in once the board is sorted. */
  datatype UserPerformanceScore = UserPerformanceScore(
    userId: string,
    userName: string,
    avatarUrl: Option<string>,
    score: real,
    rank: Option<int>)

  datatype ProjectStatus = Draft | ToDo | InProgress | Testing | Completed

  /** A project; `completedAt` is present only while the project is completed. */
  datatype Project = Project(
    id: string,
    userId: string,
    name: string,
    kind: string,
    status: ProjectStatus,
    link: Option<string>,
    testLink: Option<string>,
    documentUrl: Option<string>,
    createdAt: int,
    completedAt: Option<int>,
    description: Option<string>,
    projectStarterId: Option<string>)

  /** Users in the order the store lists them, keeping the non-admins. */
  function NonAdmins(users: seq<User>): (r: seq<User>)
    ensures forall u :: u in r <==> u in users && !u.isAdmin
    ensures |r| <= |users|
  {
    Filter(users, (u: User) => !u.isAdmin)
  }

  /** `users.find(u => u.id === id)`. */
  function FindUser(users: seq<User>, id: string): (r: Option<User>)
    ensures r.Some? ==> r.value in users && r.value.id == id
    ensures r.None? <==> forall u :: u in users ==> u.id != id
  {
    if |users| == 0 then None
    else if users[0].id == id then Some(users[0])
    else FindUser(users[1..], id)
  }
}
